=== FILE: README.md ===
# ai-video-generator: the generation pipeline, in Dafny

This project models the part of ai-video-generator that turns a prompt
into a short captioned video. It covers three things.

- **The pipeline.** A chain of responsibility runs a text process, a
  speech process and a video process in turn. Each process calls an
  outside collaborator and hands its result on. Three iterations of this
  pipeline live side by side in the repository:
  - the current chain (`internal/usecases/generate.go`,
    `internal/processes/*`), whose processes share a `GenerationContext`.
    It has two competing video processes, `video_process.go` and
    `video.go`;
  - the older chain (`internal/generation/...`), whose processes hand
    plain strings to each other;
  - the legacy imperative video step
    (`internal/usecases/processes/video_process.go`).
- **The small pure helpers the pipeline uses:**
  - random names (`utils.RandomString`, `generateRandomWord`);
  - background-clip selection and the `.mp4` filter;
  - the `"\n\n"` clean-up of the language model's output;
  - the seconds-to-`HH:MM:SS.mmm` conversion passed to ffmpeg's `-t`.
- **The two Python caption writers.**
  - `chunk_text` and `generate_srt` of `pkg/captions.py`, with that
    script's command-line entry point.
  - The 18-word SRT writer `SubtitleGenerator.generate` of
    `scripts/captions.py`.

## How the outside world is modelled

The outside world is an `Env` record of deterministic oracles:

- `os.MkdirTemp`, `os.ReadDir`, `exec.Command(...).CombinedOutput()`,
  `strconv.ParseFloat`, and the HTTP round trip to Ollama;
- file creation and writing;
- the `math/rand` stream, the clock and `uuid.NewString`.

A run yields a `Step`: its result (`Ok` or `Err` with the Go error
message) and the ordered trace of effects it performed. Each effect is
tagged with its call site. Fail-fast ("later steps never run") and "only
one field changes" are stated over that result and trace.

The module layout follows the code:

| Module | Models |
|---|---|
| `Pipeline` | the chain of `internal/processes`, and the current `Generate` |
| `TextStage` | the text process of the current chain |
| `SpeechStage` | the speech process of the current chain |
| `VideoStage` | `internal/processes/video_process.go` |
| `VideoAltStage` | `internal/processes/video.go` |
| `ValueChain` | the `internal/generation` iteration |
| `TempVideo` | the legacy `VideoProcess` |
| `Timestamp`, `Strings`, `Paths`, `Random`, `Cleanup` | the helpers |
| `ChunkText`, `Srt`, `CaptionsCli` | `pkg/captions.py` |
| `Autocap` | `scripts/captions.py` |
| `FailFast` | the generic fail-fast runner behind every `generateVideo` |

## Model

| member | source | states |
|---|---|---|
| Context.Produce | internal/processes/video_process.go:213-220 | Running a command performs exactly that one command. The step succeeds exactly when the command does, and then yields the output file it was told to write. The command's error passes through unchanged. |
| FailFast.Run | internal/processes/video_process.go:55-87 | A fail-fast run performs at most one effect per step. It ends early only with an error, and a success means every step ran. |
| FailFast.RunStepwise | internal/processes/video_process.go:55-87 | The i-th effect of a run comes from the i-th step. That step is applied to the value the steps before it produced, and all of them succeeded. |
| FailFast.RunStopsAtFailure | internal/processes/video_process.go:55-87 | When step i fails after the earlier steps succeeded, it is the last step run. Its error is the run's error, unchanged. |
| FailFast.RunSnoc | internal/processes/video_process.go:55-87 | A run equals running all steps but the last, then the last step on that value if no error came before. |
| Pipeline.SetOwn | internal/processes/process.go:8-14 | Writing a process's field sets exactly that field of the context. Every other process's field keeps its value; the two video processes share `GeneratedVideo`. |
| Pipeline.Work | internal/processes/text2speech.go:30-36 | A successful process changes only its own field of the context. |
| Pipeline.Execute | internal/processes/text2text.go:31-35 | A request that is not a context yields "invalid request type" with no effect at all. A successful chain always returns a string. |
| Pipeline.ExecuteThreads | internal/processes/text2text.go:43-47 | The nested `Execute` / `next.Execute` calls agree with a reference semantics: each process's work runs in turn on the context, stopping at the first error. They produce the same effects and the same error. On success the result is the last process's own field. |
| Pipeline.ThreadCons | internal/processes/text2text.go:41-47 | The reference semantics, defined from the end of the chain, equals doing the first process's work and then threading the rest from its result. |
| Pipeline.Generate | internal/usecases/generate.go:11-43 | If the workspace cannot be created, its error is returned and nothing else happens. Otherwise the chain runs on a context holding only the directory and the prompt, and the workspace removal is the last effect on every path. The result is the chain's string; the chain's error is returned unchanged. |
| Pipeline.ChainProvenance | internal/usecases/generate.go:19-29 | On success the text is the model's answer to the prompt, the speech file is synthesised from that text, and the video is made from both. The directory and the prompt are unchanged. The effects come in text, speech, video order. |
| Pipeline.ChainTextFailure | internal/processes/text2text.go:37-40 | A failed text request ends the chain with its error, after that one request. |
| Pipeline.ChainSpeechFailure | internal/processes/text2speech.go:27-29 | A failed synthesis ends the chain with its error before any video effect. |
| Pipeline.GenerateResult | internal/usecases/generate.go:37-42 | `Generate` succeeds exactly when the chain does and returns the final `GeneratedVideo`. With `video_process.go` that is the export under `generated/`; with `video.go` it is the bare autocap name. |
| TextStage.OllamaResult | internal/processes/text2text.go:79-106 | Only a 200 response whose body decodes yields text, and that text is the decoded `response`. A request that cannot be built, a send failure, a non-200 status and a decode failure each give their own wrapped message. |
| TextStage.GenerateText | internal/processes/text2text.go:54-67 | One request is attempted to the configured URL, carrying the configured model, the prompt verbatim and streaming off. It succeeds exactly when the Ollama result does, and then its text is that result's text. A failure is the Ollama error wrapped with "error generating text". |
| TextStage.Apply | internal/processes/text2text.go:37-41 | On success only `Text` changes, and it becomes the generated text. On failure the wrapped error is returned. |
| TextStage.TextReadsOnlyPrompt | internal/processes/text2text.go:37 | Two contexts with the same prompt give the same effects, the same text and the same error. |
| TextStage.TextIsResponse | internal/processes/text2text.go:62-66 | A reply with status code 200 and answer `a`, whatever its status line, yields the context with `Text` set to `a`. |
| SpeechStage.GenerateSpeech | internal/processes/text2speech.go:43-60 | The script is asked to write `<folder>/<uuid>.mp3`, which lies inside the folder. On success that path is returned; the script's error passes through unwrapped. |
| SpeechStage.Apply | internal/processes/text2speech.go:26-36 | On success only `SpeechFile` changes, and it lies inside `TempDir`. The prompt, text and directory are kept. |
| SpeechStage.SpeechReadsOnlyTextAndTempDir | internal/processes/text2speech.go:26 | Contexts that agree on text and directory give the same effects and the same speech file. |
| VideoStage.SelectBackgroundVideo | internal/processes/video_process.go:89-106 | Exactly one directory read is made. An unreadable folder gives "error reading background videos directory: ...", and an empty one gives "no files found ...". Otherwise the result is the folder joined with one of its entries. |
| VideoStage.SelectBackgroundReaches | internal/processes/video_process.go:101-103 | Every entry of the folder can be the one selected. |
| VideoStage.SpeechTimeDuration | internal/processes/video_process.go:131-156 | ffprobe runs once on the speech file. The result succeeds exactly when the probe succeeds and its trimmed output parses. The result is then the formatted duration, and probe errors pass unwrapped. |
| VideoStage.DurationArgument | internal/processes/video_process.go:150-155 | For a speech under 100 hours, the `-t` argument is twelve characters `HH:MM:SS.mmm` with digit fields. Its fields total at most the duration and fall short of it by less than a millisecond. |
| VideoStage.Substep | internal/processes/video_process.go:108-211 | Each sub-step performs one effect at its own call site and writes only its own value. The mux, probe, crop, caption and export commands are built from the values of the sub-steps before them. |
| VideoStage.GenerateVideo | internal/processes/video_process.go:55-87 | The sub-steps run in the order select, mux, probe, crop, caption, export. Fewer than six effects means an error. On success the result is the export path. |
| VideoStage.VideoPlacement | internal/processes/video_process.go:108-211 | The muxed, cropped and captioned files are written inside the run's temporary directory; the export is written under `generated/`. |
| VideoStage.Apply | internal/processes/video_process.go:31-49 | `GeneratedVideo` is set only after `generateVideo` succeeds, and nothing else changes. On failure the error is returned. |
| VideoAltStage.Mp4VideosExact | internal/processes/video.go:82-87 | The listing filter keeps exactly the entries ending in `.mp4`, each joined to the folder. |
| VideoAltStage.GetRandomVideo | internal/processes/video.go:76-95 | An unreadable folder gives "error reading directory: ...". A folder with no `.mp4` gives an error naming the folder. Otherwise the result is one of the filtered videos. |
| VideoAltStage.RandomVideoSucceedsIff | internal/processes/video.go:82-94 | Selection from a readable folder succeeds exactly when some entry ends in `.mp4`. |
| VideoAltStage.RandomVideoIsMp4 | internal/processes/video.go:82-94 | A selected video is an `.mp4` entry of the listing joined to the folder. |
| VideoAltStage.EveryVideoReachable | internal/processes/video.go:89-94 | When the reseeded generator first draws `j`, below the number of `.mp4` entries, the selection returns the `j`-th of them joined to the folder. |
| VideoAltStage.OverwriteVideoAudio | internal/processes/video.go:97-114 | ffmpeg writes the fixed name `background-video-with-audio.mp4` in the temporary directory, and that path is returned. Errors are wrapped "error overwriting video audio". |
| VideoAltStage.GetAudioDuration | internal/processes/video.go:137-152 | The result is ffprobe's output with surrounding whitespace trimmed. Errors are wrapped "error getting audio duration". |
| VideoAltStage.CropToLength | internal/processes/video.go:122-134 | The clip is cut to the fixed name `cropped-length-video.mp4` in the temporary directory. Errors are wrapped "error cropping video length". |
| VideoAltStage.RunAutocap | internal/processes/video.go:154-170 | `python ./scripts/captions.py attach <video> <name>` is run, and the bare name is returned on success. Errors are wrapped "error running autocap". |
| VideoAltStage.AutocapNameShape | internal/processes/video.go:155 | The autocap result is eleven characters: seven lower-case letters, then `.mp4`, with no directory part. |
| VideoAltStage.SubstepOutcome | internal/processes/video.go:52-74 | For each sub-step that runs a command, this states the command and that the step succeeds exactly when the command does. A selection error is passed on unchanged. A dub, crop or autocap error is wrapped by the helper's message and then by the step's "error executing …" message. A probe failure is wrapped three times. |
| VideoAltStage.GenerateVideo | internal/processes/video.go:52-74 | The steps run in the order pick, dub, probe, crop, autocap, stopping at the first error. On success the result is the autocap name. |
| VideoAltStage.ProbeFailureStopsCrop | internal/processes/video.go:116-120 | A failed duration probe ends the stage after three effects, before any crop. Its error is wrapped by `getAudioDuration`, `cropVideoLength` and `generateVideo`. |
| VideoAltStage.StoppedBeforeCrop | internal/processes/video.go:116-135 | A run that stopped within its first three effects ran neither the crop nor the autocap script. |
| VideoAltStage.Apply | internal/processes/video.go:29-46 | `GeneratedVideo` is set only after `generateVideo` succeeds, and nothing else changes. |
| Random.Intn | internal/processes/video_process.go:101 | A drawn index is below `n`, and every index below `n` can be drawn. |
| Random.RandomString | internal/utils/string.go:8-20 | The result has seven characters, all from the 62-character set. Character k is the charset entry at the k-th draw of the generator seeded with the clock. |
| Random.RandomStringReaches | internal/utils/string.go:14-17 | Every seven-character name over the charset is a possible result. |
| Random.RandomStringDependsOnSeedOnly | internal/utils/string.go:11-17 | Generators that agree on the seed's draws give the same name, so equal clock readings give equal names. |
| Random.RandomWord | internal/processes/video.go:191-199 | `generateRandomWord(n)` has exactly `n` characters, all in a-z. |
| Random.RandomWordReaches | internal/processes/video.go:191-199 | Every lower-case word is a possible result. |
| Cleanup.CleanedHasNoBlankLine | internal/generation/processes/text_process.go:55 | After `ReplaceAll(s, "\n\n", "")` no two newlines are adjacent. |
| Cleanup.CleanText | internal/generation/processes/text_process.go:55 | Text with no two adjacent newlines is left as it is. |
| Cleanup.CleanupIdempotent | internal/generation/processes/text_process.go:55 | Cleaning twice is cleaning once. |
| Cleanup.CleanupKeepsVisible | internal/generation/processes/text_process.go:55 | Every character other than a newline survives, in order. |
| Cleanup.NewlineRun | internal/generation/processes/text_process.go:55 | A leading maximal run of `k` newlines becomes `k mod 2` newlines. |
| Cleanup.CleanupSplits | internal/generation/processes/text_process.go:55 | Cleaning a text cut after a non-newline character is cleaning the two parts separately. |
| Cleanup.NewlineRunWithin | internal/generation/processes/text_process.go:55 | A maximal run of `k` newlines anywhere in the text becomes `k mod 2` newlines, and the text around it is cleaned on its own. |
| ValueChain.GenerateText | internal/generation/processes/text_process.go:40-58 | `python ./pkg/llm.py <message>` is run once. On success the output has no blank line and keeps every non-newline character; the script's error passes unchanged. |
| ValueChain.GenerateSpeech | internal/generation/processes/speech_process.go:43-60 | The speech file is `<tempDir>/<7-character RandomString>.mp3`, inside `tempDir`. It is returned exactly when the script succeeds. |
| ValueChain.SelectBackgroundVideo | internal/generation/processes/video_process.go:93-113 | An unreadable folder passes its error on unwrapped. An empty folder yields `""` with no error. Otherwise the result is the folder joined with one of its entries. |
| ValueChain.EmptyFolderReachesFfmpeg | internal/generation/processes/video_process.go:102-105 | With an empty folder the process does not stop: its second effect runs ffmpeg with `""` as the input video. |
| ValueChain.CaptionPathMismatch | internal/generation/processes/video_process.go:196-215 | The script is told to write a bare file name, but the step reports `<tempDir>/<name>`, which is a different path. |
| ValueChain.SubstepOutcome | internal/generation/processes/video_process.go:115-238 | The mux command writes `<tempDir>/<RandomString>.mp4`. The caption step reports `<tempDir>/<name>`. The export reports `./generated/<RandomString>.mp4`. |
| ValueChain.SubstepPlacement | internal/generation/processes/video_process.go:115-238 | The muxed and cropped files lie inside `tempDir`; the export lies under `./generated` and ends in `.mp4`. |
| ValueChain.GenerateVideo | internal/generation/processes/video_process.go:54-91 | The sub-steps run in the order select, mux, probe, crop, caption, export. On success the result is the export path. |
| ValueChain.Execute | internal/generation/processes/text_process.go:18-34 | A request that is not a string yields "invalid request type" with no effect. A success is always a string. |
| ValueChain.ExecuteThree | internal/generation/processes/speech_process.go:21-37 | Each process's result is the next process's input, and the first error ends the chain with that error. |
| ValueChain.Generate | internal/generation/usecases/generate.go:11-37 | A workspace failure is returned with no process run. Otherwise the chain runs on the message, followed by the workspace removal on every path, and errors are returned unchanged. |
| ValueChain.ChainOutcome | internal/generation/usecases/generate.go:19-29 | The speech and video processes share the workspace. Speech is made from the cleaned text and the video from that speech file. The first failing process's error is returned; on success the result is the export path. |
| ValueChain.GenerateOutcome | internal/generation/usecases/generate.go:17-36 | The first effect creates the workspace and the last removes it. Success returns the export path; failure returns the chain's error. |
| TempVideo.TemporaryFolder | internal/usecases/processes/video_process.go:65-75 | One `MkdirTemp("merge-videos")` is made. Its failure is wrapped "failed to create temporary directory". |
| TempVideo.TemporaryFiles | internal/usecases/processes/video_process.go:77-110 | An unreadable folder is an error. An empty folder gives two empty names and no error. Otherwise a clip entry is chosen and the speech bytes are written to a fresh `.mp3` in the folder. A failed create or write exits the process. |
| TempVideo.Edit | internal/usecases/processes/video_process.go:40-58 | Mux, probe and crop run in order, stopping at the first error. On success the result is the cropped file inside the folder. |
| TempVideo.Closing | internal/usecases/processes/video_process.go:30-62 | On success the upload comes first, its outcome ignored; the folder removal comes last on every return. |
| TempVideo.VideoProcess | internal/usecases/processes/video_process.go:21-63 | A failed `MkdirTemp` is returned wrapped with nothing else done. Every run starts with the folder creation. |
| TempVideo.Endings | internal/usecases/processes/video_process.go:30-62 | An exit removes nothing, and every return removes the folder last. A success uploads the cropped video, then returns a path inside the folder it has just removed. |
| TempVideo.EmptyFolderMuxesNothing | internal/usecases/processes/video_process.go:88-91 | With an empty background folder no speech file is created or written, and ffmpeg is asked to mux two empty paths. |
| TempVideo.EmptyFolderTrace | internal/usecases/processes/video_process.go:88-91 | With an empty folder the run is the folder creation and read, the edit, and then only upload or removal effects. |
| TempVideo.FilesThenEdit | internal/usecases/processes/video_process.go:33-40 | When the files were made, the run is the folder creation, the three file effects, and then the edit. |
| TempVideo.SpeechStoredBeforeMux | internal/usecases/processes/video_process.go:97-109 | The speech bytes are written verbatim to a fresh `.mp3` inside the folder. That file is the audio ffmpeg lays over the chosen clip. |
| Timestamp.FieldsOfDuration | internal/processes/video_process.go:151-154 | For any duration, minutes and seconds are in 0-59 and milliseconds in 0-999, with hours non-negative for a non-negative duration. The fields total the duration cut to whole milliseconds. |
| Timestamp.ClockRoundTrip | internal/processes/video_process.go:155 | In-range fields print as twelve characters `HH:MM:SS.mmm` that read back as the same fields. |
| Timestamp.DurationRoundTrip | internal/processes/video_process.go:151-155 | Below 100 hours the duration string is twelve characters of zero-padded fields that read back as the computed fields. |
| Timestamp.CaptionStampRoundTrip | scripts/captions.py:59-60 | Below ten hours `"0" + str(timedelta(seconds=int(t))) + ",000"` is a twelve-character `HH:MM:SS,000` that reads back as the whole seconds of `t`. |
| Timestamp.CaptionStampLongHours | scripts/captions.py:59-60 | From ten hours to a day the leading "0" gives the hour field three digits, making the stamp thirteen characters long. |
| Strings.TrimShape | internal/processes/video.go:151 | `TrimSpace` / `strip()` removes exactly the leading and trailing whitespace and keeps the middle slice. |
| Strings.RStripShape | pkg/captions.py:85 | `rstrip()` keeps a prefix not ending in whitespace and drops only whitespace. |
| Strings.SplitJoinSpace | scripts/captions.py:63-65 | `split()` undoes `" ".join` on words. |
| Strings.FormatInt | internal/processes/video_process.go:155 | `%0<w>d` prints digits whose value is the number; a negative number gets a sign. |
| Strings.DecimalRoundTrip | scripts/captions.py:66 | A printed id reads back as the id. |
| ChunkText.Chunks | pkg/captions.py:79-88 | `chunk_text` returns one chunk per group and never an empty list. Text with no words gives `[""]`. |
| ChunkText.ChunkTextLoop | pkg/captions.py:79-88 | The Python loop on strings (`current_chunk`, `rstrip`) computes exactly the chunks of the group-level definition. |
| ChunkText.ChunksKeepWords | pkg/captions.py:83-88 | The chunks' words, read back with `split()` and concatenated, are the text's words in order. |
| ChunkText.ChunksAreJoinedWords | pkg/captions.py:85-88 | Each chunk is its words joined by single spaces, so it has no surrounding whitespace. |
| ChunkText.ChunksBounded | pkg/captions.py:84-87 | When every word is shorter than `max_length`, every chunk has at most `max_length - 1` characters. |
| ChunkText.ChunksGreedy | pkg/captions.py:84-86 | A chunk is closed only when the next word plus a space would not fit. A first word that does not fit emits an empty first chunk. |
| Srt.RenderConcat | scripts/captions.py:56-68 | Writing records piece by piece writes the file of all the pieces. |
| Srt.RecordHead | scripts/captions.py:66 | A record's first line is its id, which reads back as the id. |
| Srt.SrtEntriesShape | pkg/captions.py:57-62 | Records are numbered 1..n in chunk order, each carries its chunk, and each ends where the next starts. |
| Srt.WriteRecords | pkg/captions.py:56-62 | The loop writes one record per chunk, in order. |
| Srt.GenerateSrt | pkg/captions.py:52-64 | As written: the file holds the records of `chunk_text(text, 40)`, each in a 2.48-second slot, with hours, minutes and seconds each rounded on their own. |
| Srt.GenerateSrtCorrected | pkg/captions.py:52-64 | The same records with the corrected stamp, which rounds the time to whole seconds before splitting it. |
| Srt.StampsAgree | pkg/captions.py:60-61 | The as-written and corrected stamps agree exactly when the seconds remainder of the time is below 59.5. |
| Srt.Round | pkg/captions.py:60-61 | `{:.0f}` rounds to the nearest integer, with ties to even. |
| Srt.SixtySeconds | pkg/captions.py:58-61 | As written, the 25th chunk's start (59.52 s) is printed `00:00:60,000`. |
| Srt.StampRoundTrip | pkg/captions.py:60-61 | The corrected stamp is a twelve-character `HH:MM:SS,000` with minutes and seconds below 60, reading back as `t` rounded to the second. |
| Srt.SrtStartsReadBack | pkg/captions.py:58-61 | With the corrected stamp, each record's start reads back as its slot's start rounded to the second. |
| Autocap.BatchesFlatten | scripts/captions.py:63-65 | A segment's caption groups, concatenated, are its word list. |
| Autocap.BatchesSizes | scripts/captions.py:54-65 | Every caption has 1 to 18 words, and all but the last of a segment have exactly 18. |
| Autocap.BatchesCount | scripts/captions.py:63-64 | A segment of n words gives ceil(n/18) captions, and none when it is blank. |
| Autocap.BatchesWords | scripts/captions.py:63-65 | Every caption group holds words only. |
| Autocap.Captions | scripts/captions.py:64-68 | A segment's captions are numbered consecutively from the running id. All share the segment's start and end, and each text is its group joined by spaces. |
| Autocap.PrepareTimes | scripts/captions.py:59-60 | Below ten hours, a segment's start and end stamps are twelve-character SRT times that read back as its whole seconds. |
| Autocap.CueTexts | scripts/captions.py:65 | The caption texts of a segment are its groups joined by single spaces. |
| Autocap.SegmentWords | scripts/captions.py:61-65 | Reading a segment's caption texts back with `split()` gives its words, in groups sized as above. |
| Autocap.BlankCue | scripts/captions.py:63-64 | A blank segment writes nothing and consumes no id. |
| Autocap.EntriesNumbered | scripts/captions.py:57-68 | Ids start at 1 and rise by one per caption across all segments. |
| Autocap.WriteSegment | scripts/captions.py:63-68 | The inner loop writes exactly the records of the segment's captions. |
| Autocap.WriteCues | scripts/captions.py:56-68 | The outer loop writes the records of all segments, in order, numbered from 1. |
| Autocap.Generate | scripts/captions.py:49-69 | The text written for a transcription is the records of all its non-blank segments' captions, in order, numbered from 1, with each segment's whole-second times. |
| CaptionsCli.Dispatch | pkg/captions.py:91-99 | The usage exit happens exactly when the argument count is not three. Otherwise the arguments are the video, the name and the temporary folder, in that order. |
| CaptionsCli.PyJoin | pkg/captions.py:12 | `os.path.join(folder, name)` ends with the name. |
| CaptionsCli.Written | pkg/captions.py:9-36 | `parse_video` writes the SRT and then the video to `os.path.join(temp_folder, name)`. |
| CaptionsCli.GoInvocation | internal/processes/video_process.go:182-186 | As written, the Go callers' two-argument command makes the script print its usage line and exit, whatever the paths. |
| CaptionsCli.CorrectedSubtitleCommand | pkg/captions.py:91-99 | The corrected command passes the script and three arguments. |
| CaptionsCli.CaptionedVideoNeverSucceeds | internal/processes/video_process.go:182-186 | When a call of `./pkg/captions.py` that stops at its argument check is reported as a failed command, neither the current nor the older video stage can succeed. |
| CaptionsCli.OtherScriptsUnconstrained | pkg/captions.py:92-94 | That assumption covers only the captions script: it holds together with successful runs of the language-model and speech scripts. |
| FailFast.RunFailsAtDoomedStep | internal/processes/video_process.go:55-87 | A step that fails on every input makes every run that includes it fail. |
| CaptionsCli.CorrectedWritesWhereCallersRead | pkg/captions.py:9-14 | The corrected command is accepted with each argument in its role. The video is written where the callers look for it, and the scratch audio is a different file in the same folder. |
| Paths.JoinInDir | internal/processes/text2speech.go:44 | Both `filepath.Join` and `"%s/%s"` place a non-empty name inside the directory, at its end. |
| Paths.AbsoluteAndRelativeDisjoint | internal/processes/video_process.go:198 | An entry of an absolute `MkdirTemp` directory is never an entry of the relative `./generated`. |

## Left out

- HTTP and JSON are not modelled. `makeOllamaRequest` is represented by the `Reply` it meets: a request it cannot build, a send failure, or a status with a decoded body. Marshalling errors and JSON decoding are not modelled. The same holds for the server, API and `cmd` layers.
- Subprocesses are not modelled: ffmpeg, ffprobe, the TTS and LLM scripts, `tiktokvoice.py`, and the upload's HTTP request. Each is an oracle outcome for the command it receives. `uploadFile`'s internals are left out because its result is ignored.
- Randomness, clocks and UUIDs are oracles in `Env`. `rand.Intn(n)` is a raw draw reduced modulo `n`, which reaches every index and nothing else. Go's actual generator algorithm is not modelled.
- Floating point is modelled as exact `real`. This idealises `getSpeechTimeDuration`, Python's `2.48` and `i * 2.48`, and `int(seg["start"])`. `strconv.ParseFloat` is an oracle from the trimmed string.
- Strings are sequences of Unicode scalar values, so Go's byte strings and invalid UTF-8 are not modelled. Whitespace follows `unicode.IsSpace` and `str.isspace`.
- Paths.CleanDir: only the lexical clean-up that occurs here (dropping a leading `./`) is modelled, not all of `filepath.Clean`. The directories involved are a `MkdirTemp` result and the fixed relative folders.
- `internal/generation/processes/processes.go` is left out. It declares an `Execute(string)` interface the stages do not implement, and the two iterations are modelled separately rather than reconciled.
- Both `internal/processes/video.go` and `internal/processes/video_process.go` declare `VideoGenerationProcess`. `Pipeline.Generate` takes which one is built as a parameter.
- ValueChain.GenerateVideo: the older video process stores the speech file name on its struct before generating. Here the file name is a parameter, so state kept on the process between calls is not modelled.
- Pipeline.Generate: the "failed to generate video" branch is modelled, but the chain's successful result is always a string, so that branch is unreachable. The same holds for `ValueChain.Generate`.
- VideoStage.Substep, ValueChain.Substep and TempVideo.Edit: the video stages model the subtitle command exactly as the Go code builds it (two arguments). Their traces therefore show the command the callers really run. The script's reaction to it is stated separately in `CaptionsCli`.
- The following parts of `pkg/captions.py` are left out:
  - audio extraction and the speech_recognition transcription (`transcribe_audio`);
  - moviepy composition;
  - `_create_text_generator` and its `textwrap` layout;
  - the SRT file write and the removal of the scratch audio.

  `Srt.GenerateSrt` and `Srt.GenerateSrtCorrected` return the SRT text instead of writing it.
- The following parts of `scripts/captions.py` are left out, as foreign libraries and I/O:
  - whisper loading and transcription (segments are an input);
  - `VideoManager`, `attach`, `check_ffmpeg` and `main`'s argument parsing;
  - the file write.

  `Autocap.Generate` returns the SRT text.
- Autocap.WriteSegment advances its word index to the end of the current batch rather than by 18. The two positions differ only after the last batch, where the loop ends either way.
- `log` output and `log.Fatalf`'s message formatting are not modelled. A fatal log is modelled as an `Exited` outcome that skips deferred calls.
- `executeCommandOutput`'s output is the oracle's string. Combined stdout/stderr interleaving is not modelled.

## Findings

| source | as written | input that shows it | evidently intended | confidence | as-written member | corrected member |
|---|---|---|---|---|---|---|
| pkg/captions.py:60-61 | Hours, minutes and seconds are each rounded by `{:02.0f}`, so a seconds remainder of 59.5 or more prints as `60`. | Chunk index 24 starts at 24 * 2.48 = 59.52 s, written `00:00:60,000`. | Round the time to whole seconds first, then split it, so that minutes and seconds stay in 00-59. | not executed | Srt.SixtySeconds | Srt.StampsAgree |
| pkg/captions.py:92-94 | `__main__` requires exactly three arguments: video, name and temp folder. Both Go callers pass two: the video, then the output path (current caller, internal/processes/video_process.go:182-186) or the bare output name (older caller, internal/generation/processes/video_process.go:201-205). | Any call, e.g. `python ./pkg/captions.py in.mp4 /tmp/x/out.mp4`, prints the usage line and exits 1. | Pass the output name and its folder separately, so the script writes the video where the caller reads it. | not executed | CaptionsCli.GoInvocation | CaptionsCli.CorrectedWritesWhereCallersRead |

=== FILE: autocap.dfy ===
/** The subtitle file of the autocap script (scripts/captions.py,
    `SubtitleGenerator.generate`): every transcribed segment's words are
    cut into captions of at most 18 words, each shown for the whole
    segment, and the captions are numbered from 1 across the file.

    The transcription itself (Whisper) is an input here: a list of
    segments with their start, end and text. */
module Autocap {
  import opened Strings
  import Timestamp
  import Srt
  import ChunkText

  /** `max_words_per_caption`. */
  const MaxWords: nat := 18

  /** One transcribed segment: start and end in seconds, and its text. */
  datatype Segment = Segment(start: Timestamp.Seconds, end: Timestamp.Seconds, text: string)

  /** `seg["text"].strip().split()`. */
  function Words(seg: Segment): seq<string> {
    Split(Trim(Py, seg.text))
  }

  /** `words[i:i + 18]` for `i` in `range(0, len(words), 18)`. */
  function Batches(words: seq<string>): seq<seq<string>>
    decreases |words|
  {
    if |words| == 0 then []
    else if |words| <= MaxWords then [words]
    else [words[..MaxWords]] + Batches(words[MaxWords..])
  }

  /** The batches, put back together, are the words: nothing is lost,
      repeated or reordered. */
  lemma {:induction false} BatchesFlatten(words: seq<string>)
    ensures ChunkText.Flatten(Batches(words)) == words
    decreases |words|
  {
    if |words| > MaxWords {
      var bs := Batches(words);
      assert bs[1..] == Batches(words[MaxWords..]);
      BatchesFlatten(words[MaxWords..]);
      assert words == words[..MaxWords] + words[MaxWords..];
    } else if |words| > 0 {
      assert Batches(words)[1..] == [];
    }
  }

  /** Every batch holds 1 to 18 words, and all but the last exactly 18. */
  predicate Sized(bs: seq<seq<string>>) {
    forall j :: 0 <= j < |bs| ==> 0 < |bs[j]| <= MaxWords && (j < |bs| - 1 ==> |bs[j]| == MaxWords)
  }

  /** The batches are sized as captions allow. */
  lemma {:induction false} BatchesSizes(words: seq<string>)
    ensures Sized(Batches(words))
    decreases |words|
  {
    if |words| > MaxWords {
      var bs := Batches(words);
      var rest := Batches(words[MaxWords..]);
      BatchesSizes(words[MaxWords..]);
      assert bs == [words[..MaxWords]] + rest && |rest| > 0;
      forall j | 0 <= j < |bs|
        ensures 0 < |bs[j]| <= MaxWords && (j < |bs| - 1 ==> |bs[j]| == MaxWords)
      {
        if j > 0 {
          assert bs[j] == rest[j - 1];
        }
      }
    }
  }

  /** There are as few batches as 18-word captions allow: the words fill
      all but the last batch and fit in all of them. */
  lemma {:induction false} BatchesCount(words: seq<string>)
    ensures var n := |Batches(words)|;
      && (n == 0 <==> |words| == 0)
      && (n > 0 ==> (n - 1) * MaxWords < |words| <= n * MaxWords)
    decreases |words|
  {
    if |words| > MaxWords {
      BatchesCount(words[MaxWords..]);
    }
  }

  /** Batches of words are groups of words. */
  lemma {:induction false} BatchesWords(words: seq<string>)
    requires AllWords(words)
    ensures ChunkText.WordGroups(Batches(words))
    decreases |words|
  {
    if |words| > MaxWords {
      var bs := Batches(words);
      var rest := Batches(words[MaxWords..]);
      assert AllWords(words[MaxWords..]) by {
        forall i | 0 <= i < |words| - MaxWords
          ensures IsWord(words[MaxWords..][i])
        {
          assert words[MaxWords..][i] == words[MaxWords + i];
        }
      }
      BatchesWords(words[MaxWords..]);
      forall j | 0 <= j < |bs|
        ensures AllWords(bs[j])
      {
        if j == 0 {
          assert forall i :: 0 <= i < MaxWords ==> bs[0][i] == words[i];
        } else {
          assert bs[j] == rest[j - 1];
        }
      }
    }
  }

  /** The end of the batch that starts at `i`: `words[i:i + 18]` stops
      at the end of the list. */
  function BatchEnd(words: seq<string>, i: nat): (hi: nat)
    requires i < |words|
    ensures i < hi <= |words| && hi - i <= MaxWords
  {
    if i + MaxWords <= |words| then i + MaxWords else |words|
  }

  /** One step of the loop over `range(0, len(words), 18)`: the batches
      from `i` on are `words[i:hi]` and then the batches from `hi` on. */
  lemma BatchesFrom(words: seq<string>, i: nat)
    requires i < |words|
    ensures var hi := BatchEnd(words, i);
      Batches(words[i..]) == [words[i..hi]] + Batches(words[hi..])
  {
    var hi := BatchEnd(words, i);
    var w := words[i..];
    if |w| <= MaxWords {
      assert hi == |words| && w == words[i..hi] && words[hi..] == [];
    } else {
      assert w[..MaxWords] == words[i..hi] && w[MaxWords..] == words[hi..];
    }
  }

  /** Captions for batches of words, all shown from `start` to `end`,
      numbered on from `first`. */
  function Captions(bs: seq<seq<string>>, start: string, end: string, first: nat): (es: seq<Srt.Entry>)
    ensures |es| == |bs| && Srt.Numbered(es, first)
    ensures forall j :: 0 <= j < |bs| ==> es[j].start == start && es[j].end == end && es[j].text == JoinSpace(bs[j])
  {
    seq(|bs|, j requires 0 <= j < |bs| => Srt.Entry(first + j, start, end, JoinSpace(bs[j])))
  }

  /** A segment as the loop body sees it: both stamps formatted and the
      text split into words. */
  datatype Cue = Cue(start: string, end: string, words: seq<string>)

  function Prepare(seg: Segment): Cue {
    Cue(Timestamp.CaptionStamp(seg.start), Timestamp.CaptionStamp(seg.end), Words(seg))
  }

  function Prepared(segs: seq<Segment>): (cs: seq<Cue>)
    ensures |cs| == |segs| && forall k :: 0 <= k < |segs| ==> cs[k] == Prepare(segs[k])
  {
    seq(|segs|, k requires 0 <= k < |segs| => Prepare(segs[k]))
  }

  /** Both stamps of a segment below ten hours are `HH:MM:SS,000` and read
      back as the segment's whole seconds. */
  lemma PrepareTimes(seg: Segment)
    requires seg.start < 36000.0 && seg.end < 36000.0
    ensures var c := Prepare(seg);
      && |c.start| == 12 && |c.end| == 12
      && IsDigits(c.start[0..2]) && IsDigits(c.start[3..5]) && IsDigits(c.start[6..8])
      && IsDigits(c.end[0..2]) && IsDigits(c.end[3..5]) && IsDigits(c.end[6..8])
      && Timestamp.ParseCaptionStamp(c.start) == seg.start.Floor
      && Timestamp.ParseCaptionStamp(c.end) == seg.end.Floor
  {
    Timestamp.CaptionStampRoundTrip(seg.start);
    Timestamp.CaptionStampRoundTrip(seg.end);
  }

  /** The captions of one segment, the first numbered `first`: one per
      batch of its words, each shown for the whole segment. */
  function CueEntries(c: Cue, first: nat): (es: seq<Srt.Entry>)
    ensures |es| == |Batches(c.words)|
  {
    Captions(Batches(c.words), c.start, c.end, first)
  }

  /** The captions of a list of segments, numbered on from `first`. */
  function Entries(cs: seq<Cue>, first: nat): seq<Srt.Entry>
    decreases |cs|
  {
    if |cs| == 0 then []
    else CueEntries(cs[0], first) + Entries(cs[1..], first + |Batches(cs[0].words)|)
  }

  /** The texts of a list of captions. */
  function Texts(es: seq<Srt.Entry>): (ts: seq<string>)
    ensures |ts| == |es| && forall i :: 0 <= i < |es| ==> ts[i] == es[i].text
  {
    seq(|es|, i requires 0 <= i < |es| => es[i].text)
  }

  /** A segment's caption texts are its batches joined by spaces. */
  lemma CueTexts(c: Cue, first: nat)
    ensures Texts(CueEntries(c, first)) == ChunkText.Joined(Batches(c.words))
  {
    var ts := Texts(CueEntries(c, first));
    var js := ChunkText.Joined(Batches(c.words));
    assert forall j :: 0 <= j < |ts| ==> ts[j] == js[j];
  }

  /** A segment's captions, read back with `split()` and put together,
      are the segment's words; each has 1 to 18 words, and all but the
      last exactly 18. */
  lemma SegmentWords(seg: Segment, first: nat)
    ensures var ws := ChunkText.SplitEach(Texts(CueEntries(Prepare(seg), first)));
      ChunkText.Flatten(ws) == Words(seg) && Sized(ws)
  {
    var bs := Batches(Words(seg));
    CueTexts(Prepare(seg), first);
    BatchesWords(Words(seg));
    ChunkText.SplitEachJoined(bs);
    BatchesFlatten(Words(seg));
    BatchesSizes(Words(seg));
  }

  /** A blank segment writes no caption and uses up no number. */
  lemma BlankCue(c: Cue, rest: seq<Cue>, id: nat)
    requires |c.words| == 0
    ensures Entries([c] + rest, id) == Entries(rest, id)
  {
    assert ([c] + rest)[1..] == rest;
  }

  /** The captions of a file are numbered 1, 2, 3, ... across segments. */
  lemma {:induction false} EntriesNumbered(cs: seq<Cue>, first: nat)
    ensures Srt.Numbered(Entries(cs, first), first)
    decreases |cs|
  {
    if |cs| > 0 {
      var head := CueEntries(cs[0], first);
      EntriesNumbered(cs[1..], first + |head|);
      Srt.NumberedConcat(head, Entries(cs[1..], first + |head|), first);
    }
  }

  /** One round of the inner loop writes the next caption of the segment. */
  lemma WriteStep(c: Cue, first: nat, i: nat, j: nat)
    requires i < |c.words| && j <= |Batches(c.words)| && Batches(c.words[i..]) == Batches(c.words)[j..]
    ensures var hi := BatchEnd(c.words, i); var es := CueEntries(c, first);
      && j < |es| && Batches(c.words[hi..]) == Batches(c.words)[j + 1..]
      && es[..j + 1] == es[..j] + [Srt.Entry(first + j, c.start, c.end, JoinSpace(c.words[i..hi]))]
  {
    var bs := Batches(c.words);
    var hi := BatchEnd(c.words, i);
    BatchesFrom(c.words, i);
    assert j < |bs|;
    assert bs[j..] == [bs[j]] + bs[j + 1..];
  }

  /** The inner loop: the captions of one segment, written after `srt`. */
  method WriteSegment(c: Cue, first: nat, srt: string) returns (out: string)
    ensures out == srt + Srt.Render(CueEntries(c, first))
  {
    var words := c.words;
    ghost var es := CueEntries(c, first);
    ghost var bs := Batches(words);
    assert |es| == |bs|;
    out := srt;
    var i, j := 0, 0;
    while i < |words|
      invariant i <= |words| && j <= |bs|
      invariant Batches(words[i..]) == bs[j..]
      invariant out == srt + Srt.Render(es[..j])
    {
      var hi := BatchEnd(words, i);
      var entry := Srt.Entry(first + j, c.start, c.end, JoinSpace(words[i..hi]));
      WriteStep(c, first, i, j);
      Srt.RenderSnoc(es[..j], entry);
      Assoc(srt, Srt.Render(es[..j]), Srt.Record(entry));
      out := out + Srt.Record(entry);
      i, j := hi, j + 1;
    }
    assert words[i..] == [];
    assert es[..j] == es;
  }

  /** The captions from the `k`-th segment on: that segment's captions,
      then the rest numbered on after them. */
  lemma EntriesFrom(cs: seq<Cue>, k: nat, id: nat)
    requires k < |cs|
    ensures Entries(cs[k..], id) == CueEntries(cs[k], id) + Entries(cs[k + 1..], id + |Batches(cs[k].words)|)
  {
    assert cs[k..][0] == cs[k] && cs[k..][1..] == cs[k + 1..];
  }

  /** The outer loop over prepared segments, numbering from 1. */
  method WriteCues(cs: seq<Cue>) returns (srt: string)
    ensures srt == Srt.Render(Entries(cs, 1))
  {
    srt := "";
    var id: nat := 1;
    var k := 0;
    ghost var done: seq<Srt.Entry> := [];
    assert cs[k..] == cs;
    while k < |cs|
      invariant k <= |cs|
      invariant done + Entries(cs[k..], id) == Entries(cs, 1)
      invariant srt == Srt.Render(done)
    {
      var head := CueEntries(cs[k], id);
      var next := id + |Batches(cs[k].words)|;
      var rest := Entries(cs[k + 1..], next);
      EntriesFrom(cs, k, id);
      Regroup(done, head, rest, Entries(cs[k..], id), Entries(cs, 1));
      Srt.RenderConcat(done, head);
      srt := WriteSegment(cs[k], id, srt);
      done := done + head;
      id := next;
      k := k + 1;
    }
    assert cs[k..] == [] && done + [] == done;
  }

  /** `SubtitleGenerator.generate()` without the transcription and the
      file write: the contents it writes for the segments. */
  method Generate(segs: seq<Segment>) returns (srt: string)
    ensures srt == Srt.Render(Entries(Prepared(segs), 1))
  {
    var cs := Prepared(segs);
    srt := WriteCues(cs);
  }
}

=== FILE: captions_cli.dfy ===
/** The command-line entry point of pkg/captions.py, as the video stages
    invoke it: `python ./pkg/captions.py <video> <name> <temp folder>`.

    The script insists on exactly three arguments after its own name. Both
    Go callers (internal/processes/video_process.go, `addVideoSubtitles`,
    and internal/generation/processes/video_process.go, the function of
    the same name) pass two: the input video and the output file. The
    script therefore prints its usage line and exits with status 1 on
    every call the pipeline makes. `VideoStage.SubtitleCommand` is the
    command as the Go code builds it; `CorrectedSubtitleCommand` passes the name
    and the folder separately, so that the script writes the captioned
    video exactly where each caller then looks for it. */
module CaptionsCli {
  import opened Wrappers
  import opened Effects
  import opened Context
  import opened Paths
  import opened FailFast
  import VideoStage
  import ValueChain
  import SpeechStage

  /** What the `__main__` block does with `sys.argv`. */
  datatype Invocation =
    | Usage
      // prints the usage line and exits with status 1
    | ParseVideo(videoPath: string, name: string, tempFolder: string)
      // `parse_video(sys.argv[1], sys.argv[2], sys.argv[3])`

  /** `sys.argv` of `python <script> <args...>`: the script, then the rest. */
  function Argv(cmd: Command): seq<string> {
    cmd.args
  }

  /** The `len(sys.argv) != 4` guard and the argument unpacking. */
  function Dispatch(argv: seq<string>): (r: Invocation)
    ensures r.Usage? <==> |argv| != 4
    ensures r.ParseVideo? ==> argv == [argv[0], r.videoPath, r.name, r.tempFolder]
  {
    if |argv| != 4 then Usage else ParseVideo(argv[1], argv[2], argv[3])
  }

  /** Python's `os.path.join(a, b)` on POSIX for two components: an
      absolute `b` replaces `a`; otherwise a separator is added unless `a`
      is empty or already ends with one. */
  function PyJoin(a: string, b: string): (p: string)
    ensures HasSuffix(p, b)
  {
    if |b| > 0 && b[0] == '/' then b
    else if |a| == 0 || a[|a| - 1] == '/' then (EndsWith(a, b); a + b)
    else (EndsWith(a + "/", b); a + "/" + b)
  }

  /** The files a `parse_video` call writes: the extracted audio (removed
      again at the end), the SRT file and then the captioned video, which
      `parse_video` returns. The SRT is written to the output path and the
      video over it. */
  datatype Files = Files(audio: string, srt: string, video: string)

  function Written(inv: Invocation): (f: Files)
    requires inv.ParseVideo?
    ensures f.srt == f.video == PyJoin(inv.tempFolder, inv.name)
  {
    var out := PyJoin(inv.tempFolder, inv.name);
    Files(Slash(inv.tempFolder, "temp_audio_" + inv.name + ".wav"), out, out)
  }

  /** A folder and a file name that `os.path.join` and `"%s/%s"` agree on:
      a folder without a trailing slash and a relative, non-empty name. */
  predicate PlainPair(dir: string, name: string) {
    |dir| > 0 && dir[|dir| - 1] != '/' && |name| > 0 && name[0] != '/'
  }

  /** As written: what the script does with the command the Go callers
      build. It never gets past the argument check, whatever the paths. */
  function GoInvocation(video: string, output: string): (inv: Invocation)
    ensures inv == Usage
  {
    Dispatch(Argv(VideoStage.SubtitleCommand(video, output)))
  }

  /** The command the callers evidently intend: the output file's name and
      its folder as separate arguments. */
  function CorrectedSubtitleCommand(video: string, name: string, tempDir: string): (cmd: Command)
    ensures cmd.name == Python && |cmd.args| == 4 && cmd.args[0] == VideoStage.CaptionsScript
  {
    Command(Python, [VideoStage.CaptionsScript, video, name, tempDir])
  }

  /** The corrected command is accepted, with each argument in the role
      the script gives it, and it makes the script write the captioned video
      where the older caller returns it (`fmt.Sprintf("%s/%s", tempDir,
      filename)`) and, for a temporary folder without a leading `./`,
      where the current caller returns it (`filepath.Join(tempDir, name)`);
      the scratch audio file is a different file in the same folder. */
  lemma CorrectedWritesWhereCallersRead(video: string, name: string, tempDir: string)
    requires PlainPair(tempDir, name)
    ensures var inv := Dispatch(Argv(CorrectedSubtitleCommand(video, name, tempDir)));
      && inv == ParseVideo(video, name, tempDir)
      && Written(inv).video == Slash(tempDir, name)
      && (CleanDir(tempDir) == tempDir ==> Written(inv).video == Join(tempDir, name))
      && InDir(Written(inv).audio, tempDir) && InDir(Written(inv).video, tempDir)
      && Written(inv).audio != Written(inv).video
  {
    var audio := "temp_audio_" + name + ".wav";
    JoinInDir(tempDir, name);
    JoinInDir(tempDir, audio);
    assert |Slash(tempDir, audio)| > |Slash(tempDir, name)|;
  }
  /** The script's exit status as the pipeline sees it: a call of this
      script that stops at its argument check fails. Other Python scripts
      are left unconstrained. */
  ghost predicate ExitsOnUsage(env: Env) {
    forall cmd: Command ::
      (cmd.name == Python && |cmd.args| > 0 && cmd.args[0] == VideoStage.CaptionsScript && Dispatch(Argv(cmd)).Usage?)
      ==> env.run(cmd).Err?
  }

  /** The assumption says nothing about the pipeline's other Python
      scripts: an environment in which this script's usage exit fails may
      still run the language-model and speech scripts successfully. */
  lemma OtherScriptsUnconstrained(env: Env, m: string, f: string)
    requires ExitsOnUsage(env)
    ensures exists e: Env :: ExitsOnUsage(e) && e.run(ValueChain.LlmCommand(m)).Ok? && e.run(SpeechStage.SpeechCommand(m, f)).Ok?
  {
    var e := env.(run := (cmd: Command) => if |cmd.args| > 0 && cmd.args[0] == VideoStage.CaptionsScript then env.run(cmd) else Wrappers.Ok(""));
    assert ValueChain.LlmCommand(m).args[0] != VideoStage.CaptionsScript;
    assert SpeechStage.SpeechCommand(m, f).args[0] != VideoStage.CaptionsScript;
    assert e.run(ValueChain.LlmCommand(m)).Ok?;
  }

  /** As written, neither Go video stage that captions with this script
      can ever succeed: the caption sub-step fails on every input, and the
      fail-fast chain stops there. */
  lemma CaptionedVideoNeverSucceeds(c: GenerationContext, tempDir: string, speech: string, env: Env)
    requires ExitsOnUsage(env)
    ensures VideoStage.GenerateVideo(c, env).out.Err?
    ensures ValueChain.GenerateVideo(tempDir, speech, env).out.Err?
  {
    assert VideoStage.VideoSteps[4] == VideoStage.Caption;
    forall w: VideoStage.Work
      ensures VideoStage.Substep(VideoStage.Caption, c, w, env).out.Err?
    {
      var cmd := VideoStage.SubtitleCommand(w.cropped, VideoStage.Scratch(c.tempDir, env, Subtitles));
      assert GoInvocation(w.cropped, VideoStage.Scratch(c.tempDir, env, Subtitles)) == Usage;
      assert env.run(cmd).Err?;
    }
    RunFailsAtDoomedStep(VideoStage.VideoSteps, VideoStage.Blank, (k, w) => VideoStage.Substep(k, c, w, env), 4);
    forall w: VideoStage.Work
      ensures ValueChain.Substep(VideoStage.Caption, tempDir, speech, w, env).out.Err?
    {
      var cmd := VideoStage.SubtitleCommand(w.cropped, ValueChain.CaptionName(env));
      assert GoInvocation(w.cropped, ValueChain.CaptionName(env)) == Usage;
      assert env.run(cmd).Err?;
    }
    RunFailsAtDoomedStep(VideoStage.VideoSteps, VideoStage.Blank, ValueChain.StepOf(tempDir, speech, env), 4);
  }
}

=== FILE: chunk_text.dfy ===
/** `chunk_text(text, max_length)` of pkg/captions.py: the words of the
    text packed greedily into chunks, a chunk being closed as soon as the
    next word (plus a space) would push it past `max_length`. */
module ChunkText {
  import opened Strings

  /** The words of a list of groups, in order. */
  function Flatten(gs: seq<seq<string>>): seq<string> {
    if |gs| == 0 then [] else gs[0] + Flatten(gs[1..])
  }

  lemma {:induction false} FlattenAppend(gs: seq<seq<string>>, g: seq<string>)
    ensures Flatten(gs + [g]) == Flatten(gs) + g
  {
    if |gs| == 0 {
      assert [g][1..] == [];
    } else {
      assert (gs + [g])[1..] == gs[1..] + [g];
      FlattenAppend(gs[1..], g);
    }
  }

  /** The packing loop, from a state with closed groups `done` and the
      open group `cur`; `Width(cur)` is `len(current_chunk)`. */
  function Pack(words: seq<string>, maxLength: int, done: seq<seq<string>>, cur: seq<string>): (gs: seq<seq<string>>)
    ensures |gs| > |done| && forall i :: 0 <= i < |done| ==> gs[i] == done[i]
    decreases |words|
  {
    if |words| == 0 then done + [cur]
    else
      var w := words[0];
      if Width(cur) + |w| + 1 > maxLength then Pack(words[1..], maxLength, done + [cur], [w])
      else Pack(words[1..], maxLength, done, cur + [w])
  }

  /** The groups of words `chunk_text` forms. */
  function Groups(text: string, maxLength: int): seq<seq<string>> {
    Pack(Split(text), maxLength, [], [])
  }

  /** `chunk_text(text, max_length)`: each group, right-stripped after its
      words were each followed by a space, is its words joined by single
      spaces. */
  function Chunks(text: string, maxLength: int): (cs: seq<string>)
    ensures |cs| == |Groups(text, maxLength)| && |cs| > 0
    ensures Split(text) == [] ==> cs == [""]
  {
    Joined(Groups(text, maxLength))
  }

  /** Each group joined by single spaces. */
  function Joined(gs: seq<seq<string>>): (cs: seq<string>)
    ensures |cs| == |gs| && forall i :: 0 <= i < |gs| ==> cs[i] == JoinSpace(gs[i])
  {
    if |gs| == 0 then [] else Joined(gs[..|gs| - 1]) + [JoinSpace(gs[|gs| - 1])]
  }

  lemma JoinedSnoc(gs: seq<seq<string>>, g: seq<string>)
    ensures Joined(gs + [g]) == Joined(gs) + [JoinSpace(g)]
  {
    assert (gs + [g])[..|gs|] == gs;
  }

  /** Packing keeps every word, in order. */
  lemma {:induction false} PackFlatten(words: seq<string>, maxLength: int, done: seq<seq<string>>, cur: seq<string>)
    ensures Flatten(Pack(words, maxLength, done, cur)) == Flatten(done) + cur + words
    decreases |words|
  {
    if |words| == 0 {
      FlattenAppend(done, cur);
    } else {
      var w := words[0];
      assert [w] + words[1..] == words;
      if Width(cur) + |w| + 1 > maxLength {
        assert Pack(words, maxLength, done, cur) == Pack(words[1..], maxLength, done + [cur], [w]);
        PackFlatten(words[1..], maxLength, done + [cur], [w]);
        FlattenAppend(done, cur);
        assert Flatten(done) + cur + words == Flatten(done + [cur]) + [w] + words[1..];
      } else {
        assert Pack(words, maxLength, done, cur) == Pack(words[1..], maxLength, done, cur + [w]);
        PackFlatten(words[1..], maxLength, done, cur + [w]);
        assert Flatten(done) + cur + words == Flatten(done) + (cur + [w]) + words[1..];
      }
    }
  }

  predicate WordGroups(gs: seq<seq<string>>) {
    forall i :: 0 <= i < |gs| ==> AllWords(gs[i])
  }

  predicate WithinWidth(gs: seq<seq<string>>, maxLength: int) {
    forall i :: 0 <= i < |gs| ==> Width(gs[i]) <= maxLength
  }

  /** Every group holds words only. */
  lemma {:induction false} PackWords(words: seq<string>, maxLength: int, done: seq<seq<string>>, cur: seq<string>)
    requires AllWords(words) && AllWords(cur) && WordGroups(done)
    ensures WordGroups(Pack(words, maxLength, done, cur))
    decreases |words|
  {
    if |words| > 0 {
      var w := words[0];
      assert AllWords(words[1..]) by {
        forall i | 0 <= i < |words[1..]| ensures IsWord(words[1..][i]) { assert words[1..][i] == words[i + 1]; }
      }
      if Width(cur) + |w| + 1 > maxLength {
        assert Pack(words, maxLength, done, cur) == Pack(words[1..], maxLength, done + [cur], [w]);
        PackWords(words[1..], maxLength, done + [cur], [w]);
      } else {
        assert Pack(words, maxLength, done, cur) == Pack(words[1..], maxLength, done, cur + [w]);
        PackWords(words[1..], maxLength, done, cur + [w]);
      }
    } else {
      var gs := done + [cur];
      assert forall i :: 0 <= i < |gs| ==> gs[i] == if i < |done| then done[i] else cur;
    }
  }

  /** No group is wider than `max_length` when every word is shorter. */
  lemma {:induction false} PackBound(words: seq<string>, maxLength: int, done: seq<seq<string>>, cur: seq<string>)
    requires forall i :: 0 <= i < |words| ==> |words[i]| < maxLength
    requires Width(cur) <= maxLength && WithinWidth(done, maxLength)
    ensures WithinWidth(Pack(words, maxLength, done, cur), maxLength)
    decreases |words|
  {
    if |words| > 0 {
      var w := words[0];
      assert forall i :: 0 <= i < |words[1..]| ==> words[1..][i] == words[i + 1];
      if Width(cur) + |w| + 1 > maxLength {
        assert Width([w]) == |w| + 1 by { assert [w][1..] == []; }
        assert Pack(words, maxLength, done, cur) == Pack(words[1..], maxLength, done + [cur], [w]);
        PackBound(words[1..], maxLength, done + [cur], [w]);
      } else {
        WidthAppend(cur, w);
        assert Pack(words, maxLength, done, cur) == Pack(words[1..], maxLength, done, cur + [w]);
        PackBound(words[1..], maxLength, done, cur + [w]);
      }
    } else {
      var gs := done + [cur];
      assert forall i :: 0 <= i < |gs| ==> gs[i] == if i < |done| then done[i] else cur;
    }
  }

  /** Groups are closed only when the next word does not fit: every group
      after the first is non-empty, and the width of each group plus the
      first word of the next and a space exceeds `max_length`. */
  predicate Greedy(gs: seq<seq<string>>, maxLength: int) {
    forall i :: 1 <= i < |gs| ==> |gs[i]| > 0 && Width(gs[i - 1]) + |gs[i][0]| + 1 > maxLength
  }

  lemma {:induction false} PackGreedy(words: seq<string>, maxLength: int, done: seq<seq<string>>, cur: seq<string>)
    requires Greedy(done + [cur], maxLength)
    requires |done| > 0 ==> |cur| > 0
    ensures Greedy(Pack(words, maxLength, done, cur), maxLength)
    decreases |words|
  {
    if |words| > 0 {
      var w := words[0];
      if Width(cur) + |w| + 1 > maxLength {
        var next := done + [cur] + [[w]];
        assert Greedy(next, maxLength) by {
          forall i | 1 <= i < |next|
            ensures |next[i]| > 0 && Width(next[i - 1]) + |next[i][0]| + 1 > maxLength
          {
            if i <= |done| {
              assert next[i - 1] == (done + [cur])[i - 1];
            }
            if i < |done| {
              assert next[i] == (done + [cur])[i];
            }
          }
        }
        PackGreedy(words[1..], maxLength, done + [cur], [w]);
      } else {
        var cur' := cur + [w];
        assert Greedy(done + [cur'], maxLength) by {
          forall i | 1 <= i <= |done|
            ensures |(done + [cur'])[i]| > 0 && Width((done + [cur'])[i - 1]) + |(done + [cur'])[i][0]| + 1 > maxLength
          {
            assert (done + [cur'])[i - 1] == (done + [cur])[i - 1];
            if i < |done| {
              assert (done + [cur'])[i] == (done + [cur])[i];
            } else {
              assert (done + [cur])[i] == cur && (done + [cur'])[i] == cur' && cur'[0] == cur[0];
            }
          }
        }
        PackGreedy(words[1..], maxLength, done, cur');
      }
    }
  }

  /** The words of each chunk, as `split()` reads them. */
  function SplitEach(cs: seq<string>): (ws: seq<seq<string>>)
    ensures |ws| == |cs| && forall i :: 0 <= i < |cs| ==> ws[i] == Split(cs[i])
  {
    if |cs| == 0 then [] else [Split(cs[0])] + SplitEach(cs[1..])
  }

  /** Reading joined groups of words back with `split()` gives the groups. */
  lemma {:induction false} SplitEachJoined(gs: seq<seq<string>>)
    requires WordGroups(gs)
    ensures SplitEach(Joined(gs)) == gs
  {
    var back := SplitEach(Joined(gs));
    forall i | 0 <= i < |gs|
      ensures back[i] == gs[i]
    {
      SplitJoinSpace(gs[i]);
    }
  }

  /** The chunks' words, read back with `split()`, are the text's words in
      order: nothing is lost, duplicated or reordered. */
  lemma ChunksKeepWords(text: string, maxLength: int)
    ensures Flatten(SplitEach(Chunks(text, maxLength))) == Split(text)
  {
    var gs := Groups(text, maxLength);
    PackFlatten(Split(text), maxLength, [], []);
    PackWords(Split(text), maxLength, [], []);
    SplitEachJoined(gs);
    assert Flatten([]) == [];
  }

  /** Each chunk is its words joined by single spaces, with no whitespace
      at either end. */
  lemma ChunksAreJoinedWords(text: string, maxLength: int)
    ensures var gs := Groups(text, maxLength); var cs := Chunks(text, maxLength);
      forall i :: 0 <= i < |cs| ==> AllWords(gs[i]) && cs[i] == JoinSpace(gs[i])
  {
    PackWords(Split(text), maxLength, [], []);
  }

  /** When every word is shorter than `max_length`, no chunk is longer
      than `max_length - 1`. */
  lemma ChunksBounded(text: string, maxLength: int)
    requires maxLength >= 1
    requires forall i :: 0 <= i < |Split(text)| ==> |Split(text)[i]| < maxLength
    ensures var cs := Chunks(text, maxLength); forall i :: 0 <= i < |cs| ==> |cs[i]| <= maxLength - 1
  {
    var gs := Groups(text, maxLength);
    var cs := Chunks(text, maxLength);
    PackBound(Split(text), maxLength, [], []);
    forall i | 0 <= i < |cs|
      ensures |cs[i]| <= maxLength - 1
    {
      assert cs[i] == JoinSpace(gs[i]) && Width(gs[i]) <= maxLength;
      if |gs[i]| > 0 {
        JoinSpaceLength(gs[i]);
      }
    }
  }

  /** Greedy packing: a chunk is closed only when the next word would not
      fit; in particular a first word that does not fit on its own closes
      an empty first chunk. */
  lemma ChunksGreedy(text: string, maxLength: int)
    ensures Greedy(Groups(text, maxLength), maxLength)
    ensures var ws := Split(text);
      |ws| > 0 && |ws[0]| + 1 > maxLength ==> Chunks(text, maxLength)[0] == ""
  {
    var ws := Split(text);
    PackGreedy(ws, maxLength, [], []);
    if |ws| > 0 && |ws[0]| + 1 > maxLength {
      var gs := Pack(ws[1..], maxLength, [] + [[]], [ws[0]]);
      assert gs[0] == [];
      assert Groups(text, maxLength) == gs;
    }
  }

  /** One turn of the packing loop. */
  lemma PackStep(words: seq<string>, k: nat, maxLength: int, done: seq<seq<string>>, cur: seq<string>)
    requires k < |words|
    ensures Pack(words[k..], maxLength, done, cur) ==
      if Width(cur) + |words[k]| + 1 > maxLength then Pack(words[k + 1..], maxLength, done + [cur], [words[k]])
      else Pack(words[k + 1..], maxLength, done, cur + [words[k]])
  {
    assert words[k..][0] == words[k] && words[k..][1..] == words[k + 1..];
  }

  /** The loop of `chunk_text`, on strings as Python runs it. */
  method ChunkTextLoop(text: string, maxLength: int) returns (chunks: seq<string>)
    ensures chunks == Chunks(text, maxLength)
  {
    var words := Split(text);
    chunks := [];
    var current := "";
    ghost var done: seq<seq<string>> := [];
    ghost var cur: seq<string> := [];
    var k := 0;
    while k < |words|
      invariant k <= |words|
      invariant AllWords(cur) && WordGroups(done)
      invariant current == SpaceTerminated(cur)
      invariant chunks == Joined(done)
      invariant Pack(words[k..], maxLength, done, cur) == Pack(words, maxLength, [], [])
    {
      var word := words[k];
      PackStep(words, k, maxLength, done, cur);
      if |current| + |word| + 1 > maxLength {
        RStripSpaceTerminated(cur);
        JoinedSnoc(done, cur);
        chunks := chunks + [RStrip(Py, current)];
        done := done + [cur];
        current := "";
        cur := [];
        assert cur + [word] == [word];
      }
      SpaceTerminatedAppend(cur, word);
      current := current + word + " ";
      cur := cur + [word];
      k := k + 1;
    }
    RStripSpaceTerminated(cur);
    JoinedSnoc(done, cur);
    chunks := chunks + [RStrip(Py, current)];
    done := done + [cur];
    assert words[|words|..] == [];
  }
}

=== FILE: cleanup.dfy ===
/** `strings.ReplaceAll(response, "\n\n", "")`, the clean-up the older text
    process applies to the language model's output: occurrences of two
    newlines are removed left to right, without overlap. */
module Cleanup {
  const Blank: string := "\n\n"

  /** The cleaned text: each leftmost pair of newlines is dropped. */
  function DropBlankLines(s: string): (r: string)
    ensures |r| <= |s|
    decreases |s|
  {
    if |s| == 0 then []
    else if |s| >= 2 && s[0] == '\n' && s[1] == '\n' then DropBlankLines(s[2..])
    else [s[0]] + DropBlankLines(s[1..])
  }

  /** The text contains no two newlines in a row. */
  predicate NoBlankLine(s: string) {
    forall i :: 0 <= i < |s| - 1 ==> !(s[i] == '\n' && s[i + 1] == '\n')
  }

  /** The text with its newlines left out. */
  function Visible(s: string): (v: string)
    ensures forall i :: 0 <= i < |v| ==> v[i] != '\n'
  {
    if |s| == 0 then [] else (if s[0] == '\n' then [] else [s[0]]) + Visible(s[1..])
  }

  /** A text that does not start with a newline keeps its first character. */
  lemma FirstKept(s: string)
    requires |s| > 0 && s[0] != '\n'
    ensures |DropBlankLines(s)| > 0 && DropBlankLines(s)[0] == s[0]
  {
  }

  /** The result never holds a blank line: surviving newlines are the odd
      last ones of separate runs, which stay apart. */
  lemma {:induction false} CleanedHasNoBlankLine(s: string)
    ensures NoBlankLine(DropBlankLines(s))
    decreases |s|
  {
    if |s| == 0 {
    } else if |s| >= 2 && s[0] == '\n' && s[1] == '\n' {
      CleanedHasNoBlankLine(s[2..]);
    } else {
      var t := s[1..];
      var rest := DropBlankLines(t);
      CleanedHasNoBlankLine(t);
      if s[0] == '\n' && |t| > 0 {
        FirstKept(t);
      }
      var r := DropBlankLines(s);
      assert r == [s[0]] + rest;
      forall i | 0 <= i < |r| - 1
        ensures !(r[i] == '\n' && r[i + 1] == '\n')
      {
        if i > 0 {
          assert r[i] == rest[i - 1] && r[i + 1] == rest[i];
        }
      }
    }
  }

  /** Text without blank lines is left as it is. */
  lemma {:induction false} CleanText(s: string)
    requires NoBlankLine(s)
    ensures DropBlankLines(s) == s
    decreases |s|
  {
    if |s| > 0 {
      assert !(|s| >= 2 && s[0] == '\n' && s[1] == '\n');
      var t := s[1..];
      assert NoBlankLine(t) by {
        forall i | 0 <= i < |t| - 1
          ensures !(t[i] == '\n' && t[i + 1] == '\n')
        {
          assert t[i] == s[i + 1] && t[i + 1] == s[i + 2];
        }
      }
      CleanText(t);
    }
  }

  /** Cleaning twice is cleaning once. */
  lemma CleanupIdempotent(s: string)
    ensures DropBlankLines(DropBlankLines(s)) == DropBlankLines(s)
  {
    CleanedHasNoBlankLine(s);
    CleanText(DropBlankLines(s));
  }

  /** Only newlines are removed: every other character survives, in order. */
  lemma {:induction false} CleanupKeepsVisible(s: string)
    ensures Visible(DropBlankLines(s)) == Visible(s)
    decreases |s|
  {
    if |s| == 0 {
    } else if |s| >= 2 && s[0] == '\n' && s[1] == '\n' {
      CleanupKeepsVisible(s[2..]);
      assert s[1..][1..] == s[2..];
      assert Visible(s) == Visible(s[1..]) == Visible(s[2..]);
    } else {
      CleanupKeepsVisible(s[1..]);
      var r := DropBlankLines(s);
      assert r[0] == s[0] && r[1..] == DropBlankLines(s[1..]);
    }
  }

  /** `k` newlines. */
  function Newlines(k: nat): (s: string)
    ensures |s| == k && forall i :: 0 <= i < k ==> s[i] == '\n'
  {
    if k == 0 then "" else "\n" + Newlines(k - 1)
  }

  lemma DropPair(s: string)
    requires |s| >= 2 && s[0] == '\n' && s[1] == '\n'
    ensures DropBlankLines(s) == DropBlankLines(s[2..])
  {
  }

  /** A run of newlines loses them two at a time: a run of `2 * pairs +
      odd` newlines leaves `odd` of them (none for an even run, one for an
      odd run). */
  lemma {:induction false} NewlineRun(pairs: nat, odd: nat, rest: string)
    requires odd <= 1
    requires |rest| == 0 || rest[0] != '\n'
    ensures DropBlankLines(Newlines(2 * pairs + odd) + rest) == Newlines(odd) + DropBlankLines(rest)
    decreases pairs
  {
    var k := 2 * pairs + odd;
    var s := Newlines(k) + rest;
    if pairs > 0 {
      assert s == "\n" + ("\n" + (Newlines(k - 2) + rest));
      assert s[0] == '\n' && s[1] == '\n' && s[2..] == Newlines(k - 2) + rest;
      DropPair(s);
      NewlineRun(pairs - 1, odd, rest);
    } else if odd == 1 {
      assert s == "\n" + rest;
      if |rest| > 0 {
        assert s[1] == rest[0];
      }
      assert s[1..] == rest;
      assert DropBlankLines(s) == "\n" + DropBlankLines(rest);
      assert Newlines(1) == "\n";
    } else {
      assert Newlines(0) + rest == rest;
    }
  }
  /** Cleaning splits after any text that does not end in a newline: no
      pair of newlines can straddle the cut. */
  lemma {:induction false} CleanupSplits(p: string, s: string)
    requires |p| == 0 || p[|p| - 1] != '\n'
    ensures DropBlankLines(p + s) == DropBlankLines(p) + DropBlankLines(s)
    decreases |p|
  {
    if |p| == 0 {
      assert p + s == s;
    } else if |p| >= 2 && p[0] == '\n' && p[1] == '\n' {
      assert (p + s)[2..] == p[2..] + s;
      CleanupSplits(p[2..], s);
    } else {
      assert (p + s)[0] == p[0];
      assert (p + s)[1..] == p[1..] + s;
      CleanupSplits(p[1..], s);
      assert DropBlankLines(p) == [p[0]] + DropBlankLines(p[1..]);
    }
  }

  /** A maximal run of `2 * pairs + odd` newlines anywhere in the text
      leaves `odd` of them, and the text around it is cleaned on its own. */
  lemma NewlineRunWithin(pre: string, pairs: nat, odd: nat, rest: string)
    requires odd <= 1
    requires |pre| == 0 || pre[|pre| - 1] != '\n'
    requires |rest| == 0 || rest[0] != '\n'
    ensures DropBlankLines(pre + Newlines(2 * pairs + odd) + rest)
         == DropBlankLines(pre) + Newlines(odd) + DropBlankLines(rest)
  {
    assert pre + Newlines(2 * pairs + odd) + rest == pre + (Newlines(2 * pairs + odd) + rest);
    CleanupSplits(pre, Newlines(2 * pairs + odd) + rest);
    NewlineRun(pairs, odd, rest);
  }
}

=== FILE: context.dfy ===
/** The shared record of the chain-of-responsibility pipeline
    (internal/processes/process.go) and the collaborators its stages call.

    Go passes `interface{}` values between stages and mutates one
    `*GenerationContext`; here a stage maps a context value to a new one. */
module Context {
  import opened Wrappers
  import opened Effects
  import opened Random

  /** The errors `Execute` and `Generate` return on a value of the wrong
      dynamic type. */
  const ErrInvalidRequest: string := "invalid request type"
  const ErrNoVideoResult: string := "failed to generate video"

  /** One run's record. Go's zero value, the empty string, means "not set". */
  datatype GenerationContext = GenerationContext(
    tempDir: string,
    prompt: string,
    text: string,
    speechFile: string,
    generatedVideo: string)

  /** The dynamic values that flow through the `interface{}` request and
      result of `Process.Execute`. */
  datatype Value = Ctx(ctx: GenerationContext) | Str(s: string) | Nil

  /** `TextGenerationProcess.config`, read from OLLAMA_URL / OLLAMA_MODEL. */
  datatype Config = Config(ollamaUrl: string, ollamaModel: string)

  /** What `makeOllamaRequest` meets: a request that cannot be built, a
      transport failure, or a response with a status and a decoded body. */
  datatype Reply =
    | BadRequest(err: string)
    | SendFailed(err: string)
    | Response(statusCode: int, status: string, decoded: Result<string>)

  /** The collaborators of a run, as deterministic oracles: each call site
      sees what the outside world answers. */
  datatype Env = Env(
    mkdirTemp: string -> Result<string>,     // os.MkdirTemp("", pattern)
    config: Config,
    ollama: (string, Payload) -> Reply,      // POST of a payload to a URL
    run: Command -> Result<string>,          // exec.Command(...).CombinedOutput()
    readDir: string -> Result<seq<string>>,  // names of os.ReadDir(dir)
    parseFloat: string -> Result<real>,      // strconv.ParseFloat(s, 64)
    fileOp: Op -> Result<()>,                // os.CreateTemp / File.Write outcomes
    draws: Draws,                            // the global math/rand stream
    generator: int -> Draws,                 // a math/rand source seeded with a value
    clock: Site -> int,                      // time.Now().UnixNano() at a call site
    token: Site -> string)                   // uuid.NewString() / CreateTemp's random part at a call site

  /** `executeCommand(name, args)`: runs a command that writes `output`,
      and yields that path when the command succeeds. The command's own
      error passes through unwrapped. */
  function Produce(env: Env, site: Site, cmd: Command, output: string): (s: Step<string>)
    ensures s.trace == [Event(site, Exec(cmd))]
    ensures s.out.Ok? <==> env.run(cmd).Ok?
    ensures s.out.Ok? ==> s.out.value == output
    ensures s.out.Err? ==> s.out.error == env.run(cmd).error
  {
    Step(if env.run(cmd).Ok? then Ok(output) else Err(env.run(cmd).error), [Event(site, Exec(cmd))])
  }
}

=== FILE: effects.dfy ===
/** The effects a pipeline run performs on the outside world, recorded in
    order. A recorded trace is what a test double would observe: which
    collaborator was invoked, from which call site, with which arguments. */
module Effects {
  import opened Wrappers

  /** `exec.Command(name, args...)`. */
  datatype Command = Command(name: string, args: seq<string>)

  /** The programs the pipeline runs. */
  const Ffmpeg: string := "ffmpeg"
  const Ffprobe: string := "ffprobe"
  const Python: string := "python"

  /** The JSON body the text stage posts to the Ollama endpoint. */
  datatype Payload = Payload(model: string, prompt: string, stream: bool)

  /** The call site an effect comes from. */
  datatype Site =
    | Workspace
      // text and speech stages
    | Llm | Tts
      // sub-steps of internal/processes/video_process.go (and of the older iteration)
    | SelectBackground | AddSpeech | ProbeDuration | CropVideo | Subtitles | Export
      // sub-steps of internal/processes/video.go
    | RandomVideo | OverwriteAudio | ProbeAudio | CropLength | Autocap
      // internal/usecases/processes/video_process.go
    | TempFiles | Upload

  datatype Op =
    | MkdirTemp(pattern: string)
    | RemoveAll(path: string)
    | ReadDir(dir: string)
    | Post(url: string, payload: Payload)
    | Exec(cmd: Command)
    | CreateTemp(dir: string, pattern: string)
    | WriteFile(path: string, data: seq<bv8>)
    | UploadFile(path: string)

  datatype Event = Event(site: Site, op: Op)

  /** The outcome of one step of a run: its result and the effects it
      performed, in order. */
  datatype Step<+T> = Step(out: Result<T>, trace: seq<Event>)

  function Sites(trace: seq<Event>): (s: seq<Site>)
    ensures |s| == |trace| && forall i :: 0 <= i < |trace| ==> s[i] == trace[i].site
  {
    seq(|trace|, i requires 0 <= i < |trace| => trace[i].site)
  }

  lemma SitesAppend(a: seq<Event>, b: seq<Event>)
    ensures Sites(a + b) == Sites(a) + Sites(b)
  {
  }

  /** The last argument of a command: where the Go code puts the output
      file of every ffmpeg call. */
  function Output(cmd: Command): string
    requires |cmd.args| > 0
  {
    cmd.args[|cmd.args| - 1]
  }
}

=== FILE: failfast.dfy ===
/** A fixed sequence of fallible steps run in order, each on the value the
    previous one produced; the first error ends the run and is returned
    unchanged. This is the shape of every `generateVideo` and of the legacy
    `VideoProcess`: a run of `x, err := step(...); if err != nil { return }`. */
module FailFast {
  import opened Wrappers
  import opened Effects

  /** Every step performs exactly one effect. */
  ghost predicate OneEvent<K(!new), W(!new)>(step: (K, W) -> Step<W>) {
    forall k, w :: |step(k, w).trace| == 1
  }

  function Run<K(!new), W(!new)>(steps: seq<K>, w: W, step: (K, W) -> Step<W>): (s: Step<W>)
    requires OneEvent(step)
    ensures |s.trace| <= |steps| && (|steps| > 0 ==> |s.trace| > 0)
    ensures |s.trace| < |steps| ==> s.out.Err?
    ensures s.out.Ok? ==> |s.trace| == |steps|
    decreases |steps|
  {
    if |steps| == 0 then Step(Ok(w), [])
    else
      var first := step(steps[0], w);
      if first.out.Err? then Step(Err(first.out.error), first.trace)
      else
        var rest := Run(steps[1..], first.out.value, step);
        Step(rest.out, first.trace + rest.trace)
  }

  /** Running a sequence is running all but its last step and then, if
      that succeeded, the last step on the value so produced. */
  lemma {:induction false} RunSnoc<K(!new), W(!new)>(steps: seq<K>, w: W, step: (K, W) -> Step<W>)
    requires OneEvent(step) && |steps| > 0
    ensures var init := Run(steps[..|steps| - 1], w, step);
      Run(steps, w, step) ==
        if init.out.Err? then init
        else Step(step(steps[|steps| - 1], init.out.value).out, init.trace + step(steps[|steps| - 1], init.out.value).trace)
    decreases |steps|
  {
    var first := step(steps[0], w);
    if |steps| > 1 && first.out.Ok? {
      RunSnoc(steps[1..], first.out.value, step);
      assert steps[1..][..|steps| - 2] == steps[..|steps| - 1][1..];
      assert steps[1..][|steps| - 2] == steps[|steps| - 1];
    }
  }

  /** The i-th effect of a run is the effect of the i-th step, applied to
      the value the steps before it produced; those all succeeded. */
  lemma {:induction false} RunStepwise<K(!new), W(!new)>(steps: seq<K>, w: W, step: (K, W) -> Step<W>, i: nat)
    requires OneEvent(step) && i < |Run(steps, w, step).trace|
    ensures Run(steps[..i], w, step).out.Ok?
    ensures Run(steps, w, step).trace[i] == step(steps[i], Run(steps[..i], w, step).out.value).trace[0]
    decreases |steps|
  {
    var first := step(steps[0], w);
    if i > 0 {
      RunStepwise(steps[1..], first.out.value, step, i - 1);
      assert steps[..i][1..] == steps[1..][..i - 1];
      assert steps[..i][0] == steps[0];
    }
  }

  /** The sites of a run follow the steps: step i's site is the i-th one. */
  lemma RunSites<K(!new), W(!new)>(steps: seq<K>, w: W, step: (K, W) -> Step<W>, site: K -> Site)
    requires OneEvent(step)
    requires forall k, v :: step(k, v).trace[0].site == site(k)
    ensures forall i :: 0 <= i < |Run(steps, w, step).trace| ==> Run(steps, w, step).trace[i].site == site(steps[i])
  {
    forall i | 0 <= i < |Run(steps, w, step).trace|
      ensures Run(steps, w, step).trace[i].site == site(steps[i])
    {
      RunStepwise(steps, w, step, i);
    }
  }

  /** What holds of every step's effect, given the step that made it,
      holds of every effect of a run. */
  lemma RunEvents<K(!new), W(!new)>(steps: seq<K>, w: W, step: (K, W) -> Step<W>, p: (K, Event) -> bool)
    requires OneEvent(step)
    requires forall k, v :: p(k, step(k, v).trace[0])
    ensures forall i :: 0 <= i < |Run(steps, w, step).trace| ==> p(steps[i], Run(steps, w, step).trace[i])
  {
    forall i | 0 <= i < |Run(steps, w, step).trace|
      ensures p(steps[i], Run(steps, w, step).trace[i])
    {
      RunStepwise(steps, w, step, i);
    }
  }

  /** A successful run's result is the last step's result. */
  lemma RunLast<K(!new), W(!new)>(steps: seq<K>, w: W, step: (K, W) -> Step<W>)
    requires OneEvent(step) && |steps| > 0 && Run(steps, w, step).out.Ok?
    ensures var init := Run(steps[..|steps| - 1], w, step);
      init.out.Ok? && Run(steps, w, step).out == step(steps[|steps| - 1], init.out.value).out
  {
    RunSnoc(steps, w, step);
  }

  /** Fail-fast: when the i-th step fails, it is the last one run and its
      error is the run's error, unchanged. */
  lemma {:induction false} RunStopsAtFailure<K(!new), W(!new)>(steps: seq<K>, w: W, step: (K, W) -> Step<W>, i: nat)
    requires OneEvent(step) && i < |steps|
    requires Run(steps[..i], w, step).out.Ok? && step(steps[i], Run(steps[..i], w, step).out.value).out.Err?
    ensures |Run(steps, w, step).trace| == i + 1
    ensures Run(steps, w, step).out == step(steps[i], Run(steps[..i], w, step).out.value).out
    decreases |steps|
  {
    var first := step(steps[0], w);
    if i > 0 {
      assert steps[..i][1..] == steps[1..][..i - 1];
      assert steps[..i][0] == steps[0];
      RunStopsAtFailure(steps[1..], first.out.value, step, i - 1);
    } else {
      assert steps[..i] == [];
    }
  }
  /** A step that fails on every input sinks every run that includes it. */
  lemma RunFailsAtDoomedStep<K(!new), W(!new)>(steps: seq<K>, w: W, step: (K, W) -> Step<W>, i: nat)
    requires OneEvent(step) && i < |steps|
    requires forall v :: step(steps[i], v).out.Err?
    ensures Run(steps, w, step).out.Err?
  {
    if i < |Run(steps, w, step).trace| {
      RunStepwise(steps, w, step, i);
      RunStopsAtFailure(steps, w, step, i);
    }
  }
}

=== FILE: paths.dfy ===
/** The two ways the Go code builds file paths: `filepath.Join` and
    `fmt.Sprintf("%s/%s", ...)`. */
module Paths {

  /** The lexical clean-up `filepath.Join` performs on the directory operands
      that occur here (clean relative or absolute paths such as
      `./resources/videos`, `./generated` or a `MkdirTemp` result): a leading
      `./` is dropped. */
  function CleanDir(dir: string): (r: string)
    ensures |r| <= |dir|
    ensures r == dir || (|dir| > 2 && dir[..2] == "./" && r == dir[2..])
  {
    if |dir| > 2 && dir[..2] == "./" then dir[2..] else dir
  }

  /** `filepath.Join(dir, name)` for a directory and one path element. */
  function Join(dir: string, name: string): string {
    CleanDir(dir) + "/" + name
  }

  /** `fmt.Sprintf("%s/%s", dir, name)`: plain concatenation, no clean-up. */
  function Slash(dir: string, name: string): string {
    dir + "/" + name
  }

  /** `strings.HasSuffix(s, suffix)`. */
  predicate HasSuffix(s: string, suffix: string) {
    |suffix| <= |s| && s[|s| - |suffix|..] == suffix
  }

  /** `p` names an entry below directory `dir`. */
  predicate InDir(p: string, dir: string) {
    |p| > |dir| + 1 && p[..|dir| + 1] == dir + "/"
  }

  /** Both constructions place a non-empty name inside the (cleaned) directory. */
  lemma JoinInDir(dir: string, name: string)
    requires |name| > 0
    ensures InDir(Join(dir, name), CleanDir(dir))
    ensures InDir(Slash(dir, name), dir)
    ensures HasSuffix(Join(dir, name), name) && HasSuffix(Slash(dir, name), name)
  {
    assert Join(dir, name)[..|CleanDir(dir)| + 1] == CleanDir(dir) + "/";
    assert Slash(dir, name)[..|dir| + 1] == dir + "/";
  }

  /** A name ends with what it was built to end with. */
  lemma EndsWith(x: string, suffix: string)
    ensures HasSuffix(x + suffix, suffix)
  {
    assert (x + suffix)[|x|..] == suffix;
  }

  /** A suffix of a suffix is a suffix. */
  lemma SuffixOfSuffix(s: string, n: string, suffix: string)
    requires HasSuffix(s, n) && HasSuffix(n, suffix)
    ensures HasSuffix(s, suffix)
  {
    assert s[|s| - |suffix|..] == s[|s| - |n|..][|n| - |suffix|..];
  }

  /** An absolute directory and a relative one have no entry in common. */
  lemma AbsoluteAndRelativeDisjoint(p: string, abs: string, rel: string)
    requires |abs| > 0 && abs[0] == '/'
    requires |rel| > 0 && rel[0] != '/'
    ensures InDir(p, abs) ==> !InDir(p, rel)
  {
    if InDir(p, abs) && |p| > |rel| + 1 {
      assert p[0] == (abs + "/")[0] == '/';
      assert p[..|rel| + 1][0] == p[0];
      assert (rel + "/")[0] == rel[0];
    }
  }
}

=== FILE: pipeline.dfy ===
/** The chain of responsibility (internal/processes/process.go) and the use
    case that builds it (internal/usecases/generate.go). Each process casts
    its request to a context, runs its own work, and either hands the
    context to the next process or returns the field it wrote. */
module Pipeline {
  import opened Wrappers
  import opened Effects
  import opened Context
  import TextStage
  import SpeechStage
  import VideoStage
  import VideoAltStage

  /** The processes; `Video` is internal/processes/video_process.go and
      `VideoAlt` is internal/processes/video.go, which declare the same
      `VideoGenerationProcess`. */
  datatype StageKind = Text | Speech | Video | VideoAlt

  /** The field of the context a process writes and, when it is last in
      the chain, returns. */
  function Own(k: StageKind, c: GenerationContext): string {
    match k
    case Text => c.text
    case Speech => c.speechFile
    case Video => c.generatedVideo
    case VideoAlt => c.generatedVideo
  }

  function SetOwn(k: StageKind, c: GenerationContext, x: string): (r: GenerationContext)
    ensures Own(k, r) == x
    ensures forall j :: Own(j, r) == if Own(j, c) == Own(k, c) && (j == k || {j, k} == {Video, VideoAlt}) then x else Own(j, c)
  {
    match k
    case Text => c.(text := x)
    case Speech => c.(speechFile := x)
    case Video => c.(generatedVideo := x)
    case VideoAlt => c.(generatedVideo := x)
  }

  /** A process's own work on a context it received. */
  function Work(k: StageKind, c: GenerationContext, env: Env): (s: Step<GenerationContext>)
    ensures s.out.Ok? ==> s.out.value == SetOwn(k, c, Own(k, s.out.value))
  {
    match k
    case Text => TextStage.Apply(c, env)
    case Speech => SpeechStage.Apply(c, env)
    case Video => VideoStage.Apply(c, env)
    case VideoAlt => VideoAltStage.Apply(c, env)
  }

  /** The processes' work in a given environment. */
  function Stages(env: Env): (work: (StageKind, GenerationContext) -> Step<GenerationContext>)
    ensures forall k, c :: work(k, c) == Work(k, c, env)
  {
    (k, c) => Work(k, c, env)
  }

  /** `Execute(request)` of the first process of `chain`, each process's
      `next` being the one after it; `work` is what each process does to
      the context it received. */
  function Execute(chain: seq<StageKind>, request: Value, work: (StageKind, GenerationContext) -> Step<GenerationContext>): (s: Step<Value>)
    requires |chain| > 0
    ensures !request.Ctx? ==> s == Step(Err(ErrInvalidRequest), [])
    ensures s.out.Ok? ==> s.out.value.Str?
    decreases |chain|
  {
    if !request.Ctx? then Step(Err(ErrInvalidRequest), [])
    else
      var r := work(chain[0], request.ctx);
      if r.out.Err? then Step(Err(r.out.error), r.trace)
      else if |chain| == 1 then Step(Ok(Str(Own(chain[0], r.out.value))), r.trace)
      else
        var rest := Execute(chain[1..], Ctx(r.out.value), work);
        Step(rest.out, r.trace + rest.trace)
  }

  /** Reference semantics: the processes' work run one after another on a
      context, stopping at the first error. */
  function Thread(chain: seq<StageKind>, c: GenerationContext, work: (StageKind, GenerationContext) -> Step<GenerationContext>): (s: Step<GenerationContext>)
    decreases |chain|
  {
    if |chain| == 0 then Step(Ok(c), [])
    else
      var init := Thread(chain[..|chain| - 1], c, work);
      if init.out.Err? then init
      else
        var last := work(chain[|chain| - 1], init.out.value);
        Step(last.out, init.trace + last.trace)
  }

  /** Threading a chain is doing the first process's work and then
      threading the rest from its result. */
  lemma {:induction false} ThreadCons(chain: seq<StageKind>, c: GenerationContext, work: (StageKind, GenerationContext) -> Step<GenerationContext>)
    requires |chain| > 0
    ensures var first := work(chain[0], c);
      Thread(chain, c, work) ==
        if first.out.Err? then first
        else var rest := Thread(chain[1..], first.out.value, work); Step(rest.out, first.trace + rest.trace)
    decreases |chain|
  {
    var first := work(chain[0], c);
    if |chain| == 1 {
      assert chain[..0] == [] && chain[1..] == [];
    } else {
      var init := chain[..|chain| - 1];
      ThreadCons(init, c, work);
      assert init[0] == chain[0];
      assert init[1..] == chain[1..][..|chain[1..]| - 1];
      assert chain[1..][|chain[1..]| - 1] == chain[|chain| - 1];
      if first.out.Ok? {
        var t := Thread(init[1..], first.out.value, work);
        if t.out.Ok? {
          var last := work(chain[|chain| - 1], t.out.value);
          assert first.trace + (t.trace + last.trace) == (first.trace + t.trace) + last.trace;
        }
      }
    }
  }

  /** The nested `Execute` calls do what the reference semantics does and
      return the last process's field of the final context. */
  lemma {:induction false} ExecuteThreads(chain: seq<StageKind>, c: GenerationContext, work: (StageKind, GenerationContext) -> Step<GenerationContext>)
    requires |chain| > 0
    ensures var e := Execute(chain, Ctx(c), work); var t := Thread(chain, c, work);
      && e.trace == t.trace
      && (e.out.Ok? <==> t.out.Ok?)
      && (e.out.Ok? ==> e.out.value == Str(Own(chain[|chain| - 1], t.out.value)))
      && (e.out.Err? ==> e.out.error == t.out.error)
    decreases |chain|
  {
    ThreadCons(chain, c, work);
    var first := work(chain[0], c);
    if first.out.Ok? {
      if |chain| == 1 {
        assert chain[1..] == [];
      } else {
        ExecuteThreads(chain[1..], first.out.value, work);
        assert chain[1..][|chain[1..]| - 1] == chain[|chain| - 1];
      }
    }
  }

  const WorkspacePattern: string := "ai-video-generator"

  /** The chain `Generate` wires: text, then speech, then video. */
  function CurrentChain(video: StageKind): seq<StageKind> {
    [Text, Speech, video]
  }

  /** The context `Generate` starts the chain with. */
  function Seed(dir: string, prompt: string): GenerationContext {
    GenerationContext(dir, prompt, "", "", "")
  }

  /** `Generate(prompt)`: a fresh temporary directory, the chain run on a
      context holding it and the prompt, and the directory removed when
      the chain returns. `video` says which of the two video processes is
      the one built. */
  function Generate(prompt: string, env: Env, video: StageKind): (s: Step<string>)
    requires video == Video || video == VideoAlt
    ensures env.mkdirTemp(WorkspacePattern).Err? ==>
              s == Step(Err(env.mkdirTemp(WorkspacePattern).error), [Event(Workspace, MkdirTemp(WorkspacePattern))])
    ensures env.mkdirTemp(WorkspacePattern).Ok? ==>
              var dir := env.mkdirTemp(WorkspacePattern).value;
              var e := Execute(CurrentChain(video), Ctx(Seed(dir, prompt)), Stages(env));
              && s.trace == [Event(Workspace, MkdirTemp(WorkspacePattern))] + e.trace + [Event(Workspace, RemoveAll(dir))]
              && (s.out.Ok? <==> e.out.Ok?)
              && (s.out.Ok? ==> e.out.value == Str(s.out.value))
              && (s.out.Err? ==> s.out.error == e.out.error)
  {
    var mk := Event(Workspace, MkdirTemp(WorkspacePattern));
    match env.mkdirTemp(WorkspacePattern)
    case Err(e) => Step(Err(e), [mk])
    case Ok(dir) =>
      var r := Execute(CurrentChain(video), Ctx(Seed(dir, prompt)), Stages(env));
      var out :=
        if r.out.Err? then Err(r.out.error)
        else if r.out.value.Str? then Ok(r.out.value.s)
        else Err(ErrNoVideoResult);
      Step(out, [mk] + r.trace + [Event(Workspace, RemoveAll(dir))])
  }

  /** The video process's result on a context. */
  function VideoOf(video: StageKind, c: GenerationContext, env: Env): Step<string> {
    if video == Video then VideoStage.GenerateVideo(c, env) else VideoAltStage.GenerateVideo(c, env)
  }

  /** A three-process chain, spelled out. */
  lemma ThreadThree(a: StageKind, b: StageKind, d: StageKind, c: GenerationContext,
                    work: (StageKind, GenerationContext) -> Step<GenerationContext>)
    ensures Thread([a, b, d], c, work) ==
      var s1 := work(a, c);
      if s1.out.Err? then s1
      else
        var s2 := work(b, s1.out.value);
        if s2.out.Err? then Step(s2.out, s1.trace + s2.trace)
        else
          var s3 := work(d, s2.out.value);
          Step(s3.out, s1.trace + s2.trace + s3.trace)
  {
    assert [a, b, d][..2] == [a, b] && [a, b][..1] == [a] && [a][..0] == [];
    assert Thread([a], c, work) == work(a, c);
  }

  /** On success the chain has filled in the text from the prompt, the
      speech file from the text and the video from both, leaving the
      directory and the prompt as they were; the effects come in that
      order. */
  lemma ChainProvenance(video: StageKind, c: GenerationContext, env: Env)
    requires video == Video || video == VideoAlt
    ensures var t := Thread(CurrentChain(video), c, Stages(env));
      t.out.Ok? ==>
        var f := t.out.value;
        var text := TextStage.GenerateText(env, c.prompt);
        var speech := SpeechStage.GenerateSpeech(env, f.text, c.tempDir);
        var v := VideoOf(video, c.(text := f.text, speechFile := f.speechFile), env);
        && f.tempDir == c.tempDir && f.prompt == c.prompt
        && text.out.Ok? && f.text == text.out.value
        && speech.out.Ok? && f.speechFile == speech.out.value
        && v.out.Ok? && f.generatedVideo == v.out.value
        && t.trace == text.trace + speech.trace + v.trace
  {
    ThreadThree(Text, Speech, video, c, Stages(env));
  }

  /** A failed text request ends the chain with its error, after that one
      request. */
  lemma ChainTextFailure(video: StageKind, c: GenerationContext, env: Env)
    requires video == Video || video == VideoAlt
    requires TextStage.GenerateText(env, c.prompt).out.Err?
    ensures Thread(CurrentChain(video), c, Stages(env)) ==
              Step(Err(TextStage.GenerateText(env, c.prompt).out.error), [TextStage.Request(env.config, c.prompt)])
  {
    ThreadThree(Text, Speech, video, c, Stages(env));
  }

  /** A failed speech synthesis ends the chain before any video effect. */
  lemma ChainSpeechFailure(video: StageKind, c: GenerationContext, env: Env)
    requires video == Video || video == VideoAlt
    requires TextStage.GenerateText(env, c.prompt).out.Ok?
    requires SpeechStage.GenerateSpeech(env, TextStage.GenerateText(env, c.prompt).out.value, c.tempDir).out.Err?
    ensures var speech := SpeechStage.GenerateSpeech(env, TextStage.GenerateText(env, c.prompt).out.value, c.tempDir);
      Thread(CurrentChain(video), c, Stages(env)) ==
        Step(Err(speech.out.error), [TextStage.Request(env.config, c.prompt)] + speech.trace)
  {
    ThreadThree(Text, Speech, video, c, Stages(env));
  }

  /** `Generate` returns the video the last process made: for
      internal/processes/video_process.go the export under ./generated,
      for internal/processes/video.go the bare autocap name. Its errors are
      the chain's, and it succeeds exactly when the chain does. */
  lemma GenerateResult(prompt: string, env: Env, video: StageKind)
    requires video == Video || video == VideoAlt
    requires env.mkdirTemp(WorkspacePattern).Ok?
    ensures var dir := env.mkdirTemp(WorkspacePattern).value;
      var t := Thread(CurrentChain(video), Seed(dir, prompt), Stages(env));
      var g := Generate(prompt, env, video);
      && (g.out.Ok? <==> t.out.Ok?)
      && (g.out.Ok? ==> g.out.value == t.out.value.generatedVideo)
      && (g.out.Ok? && video == Video ==> g.out.value == VideoStage.Scratch(VideoStage.GeneratedPath, env, Export))
      && (g.out.Ok? && video == VideoAlt ==> g.out.value == VideoAltStage.AutocapName(env))
      && (g.out.Err? ==> g.out.error == t.out.error)
  {
    var dir := env.mkdirTemp(WorkspacePattern).value;
    ExecuteThreads(CurrentChain(video), Seed(dir, prompt), Stages(env));
    ChainProvenance(video, Seed(dir, prompt), env);
  }
}

=== FILE: random.dfy ===
/** Pseudo-random choices. A generator is modelled by the stream of raw
    values it produces (an oracle); `rand.Intn(n)` turns a raw value into an
    index below `n`. */
module Random {

  /** The raw values a seeded generator produces, the k-th at index k. */
  type Draws = nat -> nat

  /** The 62 characters `utils.RandomString` draws from. */
  const Charset: string := "abcdefghijklmnopqrstuvwxyzABCDEFGHIJKLMNOPQRSTUVWXYZ0123456789"

  /** The 26 letters `generateRandomWord` draws from. */
  const Letters: string := "abcdefghijklmnopqrstuvwxyz"

  /** Length of every `utils.RandomString` result. */
  const NameLength: nat := 7

  /** `rand.Intn(n)` applied to a raw draw: every index below `n` is a
      possible result, and nothing else is. */
  function Intn(raw: nat, n: nat): (k: nat)
    requires n > 0
    ensures k < n
    ensures raw < n ==> k == raw
  {
    raw % n
  }

  predicate IsRandomName(s: string) {
    |s| == NameLength && forall k :: 0 <= k < |s| ==> s[k] in Charset
  }

  /** `utils.RandomString`: a fresh generator seeded with `seed` (the
      nanosecond clock) draws seven characters from `Charset`. */
  function RandomString(seed: int, generator: int -> Draws): (s: string)
    ensures IsRandomName(s)
    ensures forall k :: 0 <= k < NameLength ==> s[k] == Charset[Intn(generator(seed)(k), |Charset|)]
  {
    var s := seq(NameLength, k requires 0 <= k < NameLength => Charset[Intn(generator(seed)(k), |Charset|)]);
    assert forall k :: 0 <= k < NameLength ==> s[k] == Charset[Intn(generator(seed)(k), |Charset|)];
    s
  }

  /** The position of `c` in `s`, or 0 when absent. */
  function IndexOf(c: char, s: string): (i: nat)
    ensures c in s ==> i < |s| && s[i] == c
    ensures c !in s ==> i == 0
  {
    if |s| == 0 then 0
    else if s[0] == c then 0
    else if c in s[1..] then 1 + IndexOf(c, s[1..])
    else 0
  }

  /** A generator whose first draws spell out `name` in `alphabet`. */
  function Spelling(name: string, alphabet: string): Draws {
    (k: nat) => if k < |name| then IndexOf(name[k], alphabet) else 0
  }

  /** Every seven-character name over `Charset` is a possible result of
      `RandomString`: together with its ensures, the results are exactly
      those names. */
  lemma RandomStringReaches(name: string, seed: int)
    requires IsRandomName(name)
    ensures RandomString(seed, _ => Spelling(name, Charset)) == name
  {
    var r := RandomString(seed, _ => Spelling(name, Charset));
    forall k | 0 <= k < NameLength
      ensures r[k] == name[k]
    {
      assert IndexOf(name[k], Charset) < |Charset|;
    }
  }

  /** Two generators that agree on the seed's first seven draws give the same
      name, so equal clock readings give equal names. */
  lemma RandomStringDependsOnSeedOnly(seed: int, g1: int -> Draws, g2: int -> Draws)
    requires forall k :: 0 <= k < NameLength ==> g1(seed)(k) == g2(seed)(k)
    ensures RandomString(seed, g1) == RandomString(seed, g2)
  {
  }

  /** Every character is one of the letters a-z. */
  predicate IsLowerWord(w: string) {
    forall k :: 0 <= k < |w| ==> w[k] in Letters
  }

  /** `generateRandomWord(length)` in internal/processes/video.go: `length`
      letters drawn from the global generator's stream. */
  function RandomWord(length: nat, draws: Draws): (w: string)
    ensures |w| == length && IsLowerWord(w)
  {
    var w := seq(length, k requires 0 <= k < length => Letters[Intn(draws(k), |Letters|)]);
    assert forall k :: 0 <= k < length ==> w[k] == Letters[Intn(draws(k), |Letters|)];
    w
  }

  /** Every lower-case word is a possible result of `RandomWord`: together
      with its ensures, the results are exactly those words. */
  lemma RandomWordReaches(w: string)
    requires IsLowerWord(w)
    ensures RandomWord(|w|, Spelling(w, Letters)) == w
  {
    var r := RandomWord(|w|, Spelling(w, Letters));
    forall k | 0 <= k < |w|
      ensures r[k] == w[k]
    {
      assert Letters[IndexOf(w[k], Letters)] == w[k];
    }
  }
}

=== FILE: speech_stage.dfy ===
/** The speech stage of the current chain (internal/processes/text2speech.go):
    the text-to-speech script writes an mp3 with a fresh uuid name into the
    run's temporary directory. */
module SpeechStage {
  import opened Wrappers
  import opened Effects
  import opened Context
  import opened Paths

  const Script: string := "./pkg/tiktokvoice.py"

  /** The file `generateSpeech` asks the script to write. */
  function SpeechPath(folder: string, id: string): string {
    Slash(folder, id + ".mp3")
  }

  function SpeechCommand(message: string, path: string): Command {
    Command(Python, [Script, message, path])
  }

  /** `generateSpeech(message, folder)`: the script's error passes through
      unwrapped; on success the result is the path handed to the script. */
  function GenerateSpeech(env: Env, message: string, folder: string): (s: Step<string>)
    ensures s.trace == [Event(Tts, Exec(SpeechCommand(message, SpeechPath(folder, env.token(Tts)))))]
    ensures s.out.Ok? <==> env.run(SpeechCommand(message, SpeechPath(folder, env.token(Tts)))).Ok?
    ensures s.out.Ok? ==> InDir(s.out.value, folder) && HasSuffix(s.out.value, ".mp3")
    ensures s.out.Ok? ==> s.out.value == Output(SpeechCommand(message, SpeechPath(folder, env.token(Tts))))
    ensures s.out.Err? ==> s.out.error == env.run(SpeechCommand(message, SpeechPath(folder, env.token(Tts)))).error
  {
    var path := SpeechPath(folder, env.token(Tts));
    JoinInDir(folder, env.token(Tts) + ".mp3");
    EndsWith(env.token(Tts), ".mp3");
    SuffixOfSuffix(path, env.token(Tts) + ".mp3", ".mp3");
    Produce(env, Tts, SpeechCommand(message, path), path)
  }

  /** The work of `SpeechGenerationProcess.Execute` on a context: the speech
      file field is set and nothing else changes. */
  function Apply(c: GenerationContext, env: Env): (s: Step<GenerationContext>)
    ensures s.trace == GenerateSpeech(env, c.text, c.tempDir).trace
    ensures s.out.Ok? <==> GenerateSpeech(env, c.text, c.tempDir).out.Ok?
    ensures s.out.Ok? ==> s.out.value == c.(speechFile := s.out.value.speechFile)
    ensures s.out.Ok? ==> InDir(s.out.value.speechFile, c.tempDir)
    ensures s.out.Err? ==> s.out.error == GenerateSpeech(env, c.text, c.tempDir).out.error
  {
    var sp := GenerateSpeech(env, c.text, c.tempDir);
    Step(if sp.out.Ok? then Ok(c.(speechFile := sp.out.value)) else Err(sp.out.error), sp.trace)
  }

  /** The stage reads nothing of the context but the text and the
      temporary directory. */
  lemma SpeechReadsOnlyTextAndTempDir(c1: GenerationContext, c2: GenerationContext, env: Env)
    requires c1.text == c2.text && c1.tempDir == c2.tempDir
    ensures Apply(c1, env).trace == Apply(c2, env).trace
    ensures Apply(c1, env).out.Ok? <==> Apply(c2, env).out.Ok?
    ensures Apply(c1, env).out.Ok? ==> Apply(c1, env).out.value.speechFile == Apply(c2, env).out.value.speechFile
  {
  }
}

=== FILE: srt.dfy ===
/** SubRip (`.srt`) records, as both caption scripts write them, and
    `generate_srt` of pkg/captions.py: one record per `chunk_text` chunk,
    each shown for a fixed 2.48-second slot.

    Time is computed on exact reals: Python's binary float for 2.48 and
    the products `i * 2.48` are idealised. */
module Srt {
  import opened Strings
  import Timestamp
  import ChunkText

  /** One subtitle: its number, its start and end stamps and its text. */
  datatype Entry = Entry(id: nat, start: string, end: string, text: string)

  /** `f"{id}\n{start} --> {end}\n{text}\n\n"`. */
  function Record(e: Entry): string {
    Decimal(e.id) + "\n" + e.start + " --> " + e.end + "\n" + e.text + "\n\n"
  }

  /** The file contents: the records one after the other. */
  function Render(es: seq<Entry>): string {
    if |es| == 0 then "" else Render(es[..|es| - 1]) + Record(es[|es| - 1])
  }

  /** Entries numbered consecutively from `first`. */
  predicate Numbered(es: seq<Entry>, first: nat) {
    forall i :: 0 <= i < |es| ==> es[i].id == first + i
  }

  /** Numbered runs that follow on from each other make one numbered run. */
  lemma NumberedConcat(a: seq<Entry>, b: seq<Entry>, first: nat)
    requires Numbered(a, first) && Numbered(b, first + |a|)
    ensures Numbered(a + b, first)
  {
    forall i | |a| <= i < |a + b|
      ensures (a + b)[i].id == first + i
    {
      assert (a + b)[i] == b[i - |a|];
    }
  }

  /** Rendering distributes over concatenation: the file written piece by
      piece is the file of all the pieces. */
  lemma {:induction false} RenderConcat(a: seq<Entry>, b: seq<Entry>)
    ensures Render(a + b) == Render(a) + Render(b)
    decreases |b|
  {
    if |b| == 0 {
      assert a + b == a;
    } else {
      var init := b[..|b| - 1];
      var last := b[|b| - 1];
      assert (a + b)[..|a + b| - 1] == a + init && (a + b)[|a + b| - 1] == last;
      assert Render(a + b) == Render(a + init) + Record(last);
      RenderConcat(a, init);
      var x, y, z := Render(a), Render(init), Record(last);
      assert Render(b) == y + z;
      Assoc(x, y, z);
    }
  }

  /** `RenderConcat` for a list already known to be the two pieces. */
  lemma RenderSplit(all: seq<Entry>, a: seq<Entry>, b: seq<Entry>)
    requires all == a + b
    ensures Render(all) == Render(a) + Render(b)
  {
    RenderConcat(a, b);
  }

  lemma RenderSnoc(es: seq<Entry>, e: Entry)
    ensures Render(es + [e]) == Render(es) + Record(e)
  {
    assert (es + [e])[..|es|] == es;
  }

  /** A record's first line is its number: reading the digits before the
      first newline gives the id back. */
  lemma RecordHead(e: Entry)
    ensures var s := Record(e); var n := |Decimal(e.id)|;
      && n < |s| && s[n] == '\n' && IsDigits(s[..n]) && DecimalValue(s[..n]) == e.id
      && forall k :: 0 <= k < n ==> s[k] != '\n'
  {
    var s := Record(e);
    assert s[..|Decimal(e.id)|] == Decimal(e.id);
    DecimalRoundTrip(e.id);
  }

  // ---------------------------------------------------------------------
  // generate_srt timing

  /** `time_interval`, seconds per chunk. */
  const Interval: real := 2.48

  /** `chunk_text(subtitle_text, 40)`. */
  const ChunkLength := 40

  /** Python's `'{:.0f}'` rounding: to the nearest integer, ties to even. */
  function Round(x: real): (n: int)
    ensures n as real - 0.5 <= x <= n as real + 0.5
    ensures (x - n as real == 0.5 || n as real - x == 0.5) ==> n % 2 == 0
    ensures x >= 0.0 ==> n >= 0
  {
    var f := x.Floor;
    var d := x - f as real;
    assert 0.0 <= d < 1.0;
    if d < 0.5 then f else if d > 0.5 then f + 1 else if f % 2 == 0 then f else f + 1
  }

  /** Python's float `t % m` for the moduli `generate_srt` uses. */
  function RealMod(t: real, m: real): (r: real)
    requires m == 60.0 || m == 3600.0
    ensures 0.0 <= r < m
  {
    t - (t / m).Floor as real * m
  }

  /** `HH:MM:SS,000` of three whole numbers, each printed as `%02d`. */
  function Hms(h: int, m: int, sec: int): string {
    FormatInt(h, 2) + ":" + FormatInt(m, 2) + ":" + FormatInt(sec, 2) + ",000"
  }

  /** The stamp as `generate_srt` writes it. `"{:02.0f}"` prints a float
      rounded to a whole number, and hours, minutes and seconds are each
      rounded on their own, so a second count of 59.5 or more prints as
      `60`. */
  function StampAsWritten(t: Timestamp.Seconds): string {
    Hms(Round((t / 3600.0).Floor as real), Round((RealMod(t, 3600.0) / 60.0).Floor as real), Round(RealMod(t, 60.0)))
  }

  /** The 25th chunk starts at 59.52 s, which `generate_srt` writes as
      `00:00:60,000`: a seconds field outside 00-59. */
  lemma SixtySeconds()
    ensures StampAsWritten(24.0 * Interval) == "00:00:60,000"
  {
    var t := 24.0 * Interval;
    SixtyFields();
    TwoDigitFields();
    assert StampAsWritten(t) == Hms(0, 0, 60);
  }

  /** The three fields of 59.52 seconds, before formatting. */
  lemma SixtyFields()
    ensures var t := 24.0 * Interval;
      && t == 59.52 && (t / 3600.0).Floor == 0 && (RealMod(t, 3600.0) / 60.0).Floor == 0
      && RealMod(t, 60.0) == 59.52 && Round(59.52) == 60 && Round(0.0) == 0
  {
  }

  lemma TwoDigitFields()
    ensures FormatInt(0, 2) == "00" && FormatInt(60, 2) == "60"
  {
    assert Decimal(6) == "6";
    assert Decimal(0) == "0";
  }

  /** The stamp with the time rounded to whole seconds first and then
      split, so every field stays in range. */
  function Stamp(t: Timestamp.Seconds): (s: string)
  {
    var n := Round(t);
    Hms(n / 3600, n % 3600 / 60, n % 60)
  }

  /** Whole seconds below 100 hours as hours, minutes and seconds. */
  lemma HmsSplit(n: nat)
    requires n < 360000
    ensures n == (n / 3600) * 3600 + (n % 3600 / 60) * 60 + n % 60
    ensures n / 3600 < 100 && n % 3600 / 60 < 60 && n % 60 < 60
  {
    var r := n % 3600;
    assert n == (n / 3600) * 3600 + r;
    assert r == (r / 60) * 60 + r % 60;
    assert r % 60 == n % 60;
  }

  /** `HH:MM:SS,000` of in-range fields reads back as their seconds. */
  lemma HmsStamp(h: nat, m: nat, sec: nat)
    requires h < 100 && m < 60 && sec < 60
    ensures var s := Hms(h, m, sec);
      && |s| == 12 && s[2] == ':' && s[5] == ':' && s[8..] == ",000"
      && IsDigits(s[0..2]) && IsDigits(s[3..5]) && IsDigits(s[6..8])
      && DecimalValue(s[3..5]) == m && DecimalValue(s[6..8]) == sec
      && Timestamp.ParseCaptionStamp(s) == h * 3600 + m * 60 + sec
  {
    Timestamp.PaddedWidth(h, 2);
    Timestamp.PaddedWidth(m, 2);
    Timestamp.PaddedWidth(sec, 2);
    var a, b, c := FormatInt(h, 2), FormatInt(m, 2), FormatInt(sec, 2);
    Timestamp.ClockFields(a, b, c, ",", "000");
    assert a + ":" + b + ":" + c + "," + "000" == a + ":" + b + ":" + c + ",000";
  }

  /** Under 100 hours the stamp is a well-formed twelve-character
      `HH:MM:SS,000` whose minutes and seconds are below 60 and whose
      fields read back as `t` rounded to the nearest second. */
  lemma StampRoundTrip(t: Timestamp.Seconds)
    requires t < 359999.5
    ensures var s := Stamp(t);
      && |s| == 12 && s[2] == ':' && s[5] == ':' && s[8..] == ",000"
      && IsDigits(s[0..2]) && IsDigits(s[3..5]) && IsDigits(s[6..8])
      && DecimalValue(s[3..5]) < 60 && DecimalValue(s[6..8]) < 60
      && Timestamp.ParseCaptionStamp(s) == Round(t)
  {
    var n: nat := Round(t);
    HmsSplit(n);
    HmsStamp(n / 3600, n % 3600 / 60, n % 60);
  }

  /** Rounding commutes with adding an even whole number. */
  lemma RoundShift(x: real, k: int)
    requires k % 2 == 0
    ensures Round(x + k as real) == Round(x) + k
  {
    assert (x + k as real).Floor == x.Floor + k;
  }

  /** `t` as whole minutes `q` and a remainder `m`, and the hour and minute
      fields `generate_srt` computes, in terms of `q`. */
  lemma MinuteSplit(t: Timestamp.Seconds)
    ensures var q := (t / 60.0).Floor; var m := RealMod(t, 60.0);
      && q >= 0 && t == q as real * 60.0 + m
      && (t / 3600.0).Floor == q / 60
      && (RealMod(t, 3600.0) / 60.0).Floor == q % 60
  {
    var q := (t / 60.0).Floor;
    var h := q / 60;
    assert q == h * 60 + q % 60;
    assert h as real * 3600.0 <= t < h as real * 3600.0 + 3600.0;
    assert (t / 3600.0).Floor == h;
    var r := RealMod(t, 3600.0);
    assert r == t - h as real * 3600.0;
    assert (q % 60) as real * 60.0 <= r < (q % 60) as real * 60.0 + 60.0;
  }

  /** Whole minutes plus a second count below 60, as hours, minutes and
      seconds. */
  lemma DivParts(n: int, q: nat, r: nat)
    requires r < 60 && n == 60 * q + r
    ensures n / 3600 == q / 60 && n % 3600 / 60 == q % 60 && n % 60 == r
  {
    var rest := 60 * (q % 60) + r;
    assert n == 3600 * (q / 60) + rest && 0 <= rest < 3600;
    assert n / 3600 == q / 60 && n % 3600 == rest;
    assert rest / 60 == q % 60;
  }

  /** A remainder of 59.5 or more rounds up to a full minute. */
  lemma RoundNearSixty(x: real)
    requires 59.5 <= x < 60.0
    ensures Round(x) == 60
  {
  }

  /** Strings whose equally long tails differ are different. */
  lemma TailsDiffer(a: string, x: string, b: string, y: string)
    requires |x| == |y| && x != y
    ensures a + x != b + y
  {
    assert (a + x)[|a|..] == x;
    assert (b + y)[|b|..] == y;
  }

  /** The fields the stamp as written prints, in whole minutes `q`. */
  lemma WrittenFields(t: Timestamp.Seconds)
    ensures var q := (t / 60.0).Floor;
      StampAsWritten(t) == Hms(q / 60, q % 60, Round(RealMod(t, 60.0)))
  {
    var q := (t / 60.0).Floor;
    var h, m := (t / 3600.0).Floor, (RealMod(t, 3600.0) / 60.0).Floor;
    assert StampAsWritten(t) == Hms(Round(h as real), Round(m as real), Round(RealMod(t, 60.0)));
    MinuteSplit(t);
    RoundWhole(h);
    RoundWhole(m);
  }

  /** A whole number rounds to itself. */
  lemma RoundWhole(n: int)
    ensures Round(n as real) == n
  {
    assert (n as real).Floor == n;
  }

  /** Below a remainder of 59.5 the corrected stamp prints the same
      fields as the stamp as written. */
  lemma CorrectedFieldsBelow(t: Timestamp.Seconds)
    requires RealMod(t, 60.0) < 59.5
    ensures var q := (t / 60.0).Floor; Stamp(t) == Hms(q / 60, q % 60, Round(RealMod(t, 60.0)))
  {
    var q := (t / 60.0).Floor;
    var n, r := Round(t), Round(RealMod(t, 60.0));
    RoundByMinutes(t);
    DivParts(n, q, r);
  }

  /** From a remainder of 59.5 on, the remainder rounds to a full minute
      and `t` rounds to a whole number of minutes. */
  lemma CarryMinute(t: Timestamp.Seconds)
    requires RealMod(t, 60.0) >= 59.5
    ensures Round(RealMod(t, 60.0)) == 60 && Round(t) % 60 == 0
  {
    var q := (t / 60.0).Floor;
    RoundByMinutes(t);
    RoundNearSixty(RealMod(t, 60.0));
    DivParts(Round(t), q + 1, 0);
  }

  /** Rounding `t` is rounding its remainder within the minute. */
  lemma RoundByMinutes(t: Timestamp.Seconds)
    ensures var q := (t / 60.0).Floor; q >= 0 && Round(t) == 60 * q + Round(RealMod(t, 60.0))
  {
    var q := (t / 60.0).Floor;
    MinuteSplit(t);
    RoundShift(RealMod(t, 60.0), 60 * q);
  }

  /** The stamp as written and the corrected stamp are the same text
      exactly when the seconds remainder is below 59.5: only there does
      rounding the fields one by one agree with rounding the time. */
  lemma StampsAgree(t: Timestamp.Seconds)
    ensures StampAsWritten(t) == Stamp(t) <==> RealMod(t, 60.0) < 59.5
  {
    var q := (t / 60.0).Floor;
    var m := RealMod(t, 60.0);
    WrittenFields(t);
    if m < 59.5 {
      CorrectedFieldsBelow(t);
    } else {
      CarryMinute(t);
      var n := Round(t);
      assert Stamp(t) == Hms(n / 3600, n % 3600 / 60, n % 60);
      SixtyNotZero(q / 60, q % 60, n / 3600, n % 3600 / 60, n % 60);
    }
  }

  /** A seconds field of `60` never prints like one of `00`. */
  lemma SixtyNotZero(h: int, m: int, h2: int, m2: int, zero: int)
    requires zero == 0
    ensures Hms(h, m, 60) != Hms(h2, m2, zero)
  {
    TwoDigitFields();
    var p := FormatInt(h, 2) + ":" + FormatInt(m, 2) + ":";
    var c := FormatInt(h2, 2) + ":" + FormatInt(m2, 2) + ":";
    var x, y := FormatInt(60, 2) + ",000", FormatInt(0, 2) + ",000";
    assert x[0] == '6' && y[0] == '0';
    Assoc(p, FormatInt(60, 2), ",000");
    Assoc(c, FormatInt(0, 2), ",000");
    TailsDiffer(p, x, c, y);
  }

  /** The start of chunk `i`. */
  function Start(i: nat): Timestamp.Seconds {
    i as real * Interval
  }

  /** The records `generate_srt` writes for a list of chunks, with the
      stamp format a parameter: chunk `i` is numbered `i + 1` and shown
      from `i * 2.48` to that plus 2.48. */
  function SrtEntries(chunks: seq<string>, stamp: Timestamp.Seconds -> string): (es: seq<Entry>)
    ensures |es| == |chunks|
  {
    seq(|chunks|, i requires 0 <= i < |chunks| => Entry(i + 1, stamp(Start(i)), stamp(Start(i) + Interval), chunks[i]))
  }

  /** Whatever the stamp format, the records are numbered from 1 in chunk
      order, each carries its chunk, and each ends where the next starts. */
  lemma SrtEntriesShape(chunks: seq<string>, stamp: Timestamp.Seconds -> string)
    ensures var es := SrtEntries(chunks, stamp);
      && Numbered(es, 1)
      && (forall i :: 0 <= i < |es| ==> es[i].text == chunks[i])
      && (forall i :: 0 <= i < |es| - 1 ==> es[i].end == es[i + 1].start)
  {
    var es := SrtEntries(chunks, stamp);
    forall i | 0 <= i < |es| - 1
      ensures es[i].end == es[i + 1].start
    {
      assert Start(i) + Interval == Start(i + 1);
    }
  }

  /** With the corrected stamp, each record's start reads back as its
      slot's start rounded to the second (below 100 hours). */
  lemma SrtStartsReadBack(chunks: seq<string>, i: nat)
    requires i < |chunks| && Start(i) < 359999.5
    ensures var e := SrtEntries(chunks, Stamp)[i];
      && |e.start| == 12 && IsDigits(e.start[0..2]) && IsDigits(e.start[3..5]) && IsDigits(e.start[6..8])
      && Timestamp.ParseCaptionStamp(e.start) == Round(Start(i))
  {
    EntryAt(chunks, Stamp, i);
    StampRoundTrip(Start(i));
  }

  lemma EntryAt(chunks: seq<string>, stamp: Timestamp.Seconds -> string, i: nat)
    requires i < |chunks|
    ensures SrtEntries(chunks, stamp)[i] == Entry(i + 1, stamp(Start(i)), stamp(Start(i) + Interval), chunks[i])
  {
  }

  /** One more chunk adds one record. */
  lemma SrtEntriesSnoc(chunks: seq<string>, i: nat, stamp: Timestamp.Seconds -> string)
    requires i < |chunks|
    ensures SrtEntries(chunks[..i + 1], stamp)
      == SrtEntries(chunks[..i], stamp) + [Entry(i + 1, stamp(Start(i)), stamp(Start(i) + Interval), chunks[i])]
  {
  }

  /** The loop of `generate_srt`: one record per chunk, appended in
      order. */
  method WriteRecords(chunks: seq<string>, stamp: Timestamp.Seconds -> string) returns (srt: string)
    ensures srt == Render(SrtEntries(chunks, stamp))
  {
    srt := "";
    var i := 0;
    while i < |chunks|
      invariant i <= |chunks|
      invariant srt == Render(SrtEntries(chunks[..i], stamp))
    {
      var startTime := Start(i);
      var endTime := startTime + Interval;
      var entry := Entry(i + 1, stamp(startTime), stamp(endTime), chunks[i]);
      SrtEntriesSnoc(chunks, i, stamp);
      RenderSnoc(SrtEntries(chunks[..i], stamp), entry);
      srt := srt + Record(entry);
      i := i + 1;
    }
    assert chunks[..i] == chunks;
  }

  /** `generate_srt(subtitle_text, output_srt_path)` without the file
      write: the contents it writes, stamps as written. */
  method GenerateSrt(subtitleText: string) returns (srt: string)
    ensures srt == Render(SrtEntries(ChunkText.Chunks(subtitleText, ChunkLength), StampAsWritten))
  {
    var chunks := ChunkText.ChunkTextLoop(subtitleText, ChunkLength);
    srt := WriteRecords(chunks, StampAsWritten);
  }

  /** `generate_srt` with the corrected stamp. */
  method GenerateSrtCorrected(subtitleText: string) returns (srt: string)
    ensures srt == Render(SrtEntries(ChunkText.Chunks(subtitleText, ChunkLength), Stamp))
  {
    var chunks := ChunkText.ChunkTextLoop(subtitleText, ChunkLength);
    srt := WriteRecords(chunks, Stamp);
  }
}

=== FILE: strings.dfy ===
/** String helpers shared by the Go stages and the Python caption scripts:
    whitespace classes, trimming, whitespace splitting, space joining and
    decimal formatting. Strings are sequences of Unicode scalar values. */
module Strings {

  /** Which language's notion of whitespace a helper follows. */
  datatype Flavor = Go | Py

  /** Go's `unicode.IsSpace`. */
  predicate IsGoSpace(c: char) {
    || c == '\t' || c == '\n' || c == '\U{000B}' || c == '\U{000C}' || c == '\r' || c == ' '
    || c == '\U{0085}' || c == '\U{00A0}' || c == '\U{1680}'
    || ('\U{2000}' <= c <= '\U{200A}')
    || c == '\U{2028}' || c == '\U{2029}' || c == '\U{202F}' || c == '\U{205F}' || c == '\U{3000}'
  }

  /** Python's `str.isspace` on one character: Go's set plus the four
      information separators U+001C..U+001F. */
  predicate IsPySpace(c: char) {
    IsGoSpace(c) || ('\U{001C}' <= c <= '\U{001F}')
  }

  predicate IsSpace(f: Flavor, c: char) {
    match f
    case Go => IsGoSpace(c)
    case Py => IsPySpace(c)
  }

  predicate AllSpace(f: Flavor, s: string) {
    forall k :: 0 <= k < |s| ==> IsSpace(f, s[k])
  }

  /** Moving the front `x` of the rest `t` onto the done part `p`. */
  lemma Regroup<T>(p: seq<T>, x: seq<T>, y: seq<T>, t: seq<T>, all: seq<T>)
    requires p + t == all && t == x + y
    ensures (p + x) + y == all
  {
  }

  /** Concatenation is associative; stated generically so that callers
      need not unfold the pieces. */
  lemma Assoc<T>(x: seq<T>, y: seq<T>, z: seq<T>)
    ensures (x + y) + z == x + (y + z)
  {
  }

  /** Where the pieces of a three-part concatenation sit in it; stated
      generically so that callers need not unfold the pieces. */
  lemma Parts<T>(a: seq<T>, b: seq<T>, c: seq<T>)
    ensures var s := a + b + c;
      && |s| == |a| + |b| + |c| && s[..|a| + |b|] == a + b
      && (forall j :: 0 <= j < |b| ==> s[|a| + j] == b[j])
      && (forall j :: 0 <= j < |c| ==> s[|a| + |b| + j] == c[j])
  {
  }

  /** Number of leading whitespace characters. */
  function LeadingSpace(f: Flavor, s: string): (n: nat)
    ensures n <= |s|
    ensures n == |s| || !IsSpace(f, s[n])
  {
    if |s| == 0 || !IsSpace(f, s[0]) then 0 else 1 + LeadingSpace(f, s[1..])
  }

  lemma {:induction false} LeadingSpaceAll(f: Flavor, s: string)
    ensures AllSpace(f, s[..LeadingSpace(f, s)])
  {
    if |s| > 0 && IsSpace(f, s[0]) {
      LeadingSpaceAll(f, s[1..]);
      var n := LeadingSpace(f, s);
      assert s[..n] == [s[0]] + s[1..][..n - 1];
    }
  }

  /** Number of trailing whitespace characters. */
  function TrailingSpace(f: Flavor, s: string): (n: nat)
    ensures n <= |s|
    ensures n == |s| || !IsSpace(f, s[|s| - n - 1])
  {
    if |s| == 0 || !IsSpace(f, s[|s| - 1]) then 0 else 1 + TrailingSpace(f, s[..|s| - 1])
  }

  lemma {:induction false} TrailingSpaceAll(f: Flavor, s: string)
    ensures AllSpace(f, s[|s| - TrailingSpace(f, s)..])
  {
    if |s| > 0 && IsSpace(f, s[|s| - 1]) {
      var p := s[..|s| - 1];
      TrailingSpaceAll(f, p);
      var n := TrailingSpace(f, s);
      assert s[|s| - n..] == p[|p| - (n - 1)..] + [s[|s| - 1]];
    }
  }

  /** Python's `str.rstrip()`. `RStripShape` states what it removes. */
  function RStrip(f: Flavor, s: string): (r: string)
    ensures |r| <= |s|
  {
    s[..|s| - TrailingSpace(f, s)]
  }

  /** `RStrip` keeps a prefix that does not end in whitespace and drops
      only whitespace after it. */
  lemma RStripShape(f: Flavor, s: string)
    ensures var r := RStrip(f, s);
      && r == s[..|r|] && AllSpace(f, s[|r|..])
      && (|r| == 0 || !IsSpace(f, r[|r| - 1]))
  {
    TrailingSpaceAll(f, s);
    var n := TrailingSpace(f, s);
    if n < |s| {
      assert RStrip(f, s)[|s| - n - 1] == s[|s| - n - 1];
    }
  }

  /** Go's `strings.TrimSpace` and Python's `str.strip()`. `TrimShape`
      states what it removes. */
  function Trim(f: Flavor, s: string): (r: string)
    ensures |r| <= |s|
  {
    var i := LeadingSpace(f, s);
    s[i..|s| - TrailingSpace(f, s[i..])]
  }

  /** `Trim` removes exactly the whitespace-only prefix and suffix: the
      result is a slice of the input that neither starts nor ends with
      whitespace, and only whitespace lies around it. */
  lemma TrimShape(f: Flavor, s: string)
    ensures var r := Trim(f, s); var i := LeadingSpace(f, s);
      && i + |r| <= |s|
      && r == s[i..i + |r|]
      && AllSpace(f, s[..i]) && AllSpace(f, s[i + |r|..])
      && (|r| == 0 || (!IsSpace(f, r[0]) && !IsSpace(f, r[|r| - 1])))
  {
    LeadingSpaceAll(f, s);
    TrimAround(f, s);
    TrimEnds(f, s);
  }

  lemma TrimAround(f: Flavor, s: string)
    ensures var r := Trim(f, s); var i := LeadingSpace(f, s); AllSpace(f, s[i + |r|..])
  {
    var i := LeadingSpace(f, s);
    var t := s[i..];
    TrailingSpaceAll(f, t);
    var n := TrailingSpace(f, t);
    assert t[|t| - n..] == s[|s| - n..];
  }

  lemma TrimEnds(f: Flavor, s: string)
    ensures var r := Trim(f, s); |r| == 0 || (!IsSpace(f, r[0]) && !IsSpace(f, r[|r| - 1]))
  {
    var i := LeadingSpace(f, s);
    var t := s[i..];
    var n := TrailingSpace(f, t);
    var r := Trim(f, s);
    if |r| > 0 {
      assert r[0] == s[i];
      assert r[|r| - 1] == t[|t| - n - 1];
    }
  }

  /** A word produced by `str.split()`: non-empty, without whitespace. */
  predicate IsWord(w: string) {
    |w| > 0 && forall k :: 0 <= k < |w| ==> !IsPySpace(w[k])
  }

  predicate AllWords(ws: seq<string>) {
    forall i :: 0 <= i < |ws| ==> IsWord(ws[i])
  }

  /** Length of the maximal whitespace-free prefix. */
  function WordLength(s: string): (n: nat)
    ensures n <= |s|
    ensures forall k :: 0 <= k < n ==> !IsPySpace(s[k])
    ensures n == |s| || IsPySpace(s[n])
  {
    if |s| == 0 || IsPySpace(s[0]) then 0 else 1 + WordLength(s[1..])
  }

  /** Python's `str.split()` with no separator: the maximal runs of
      non-whitespace characters, in order. */
  function Split(s: string): (ws: seq<string>)
    ensures AllWords(ws)
    decreases |s|
  {
    if |s| == 0 then []
    else if IsPySpace(s[0]) then Split(s[1..])
    else
      var n := WordLength(s);
      [s[..n]] + Split(s[n..])
  }

  /** Python's `" ".join(ws)`. */
  function JoinSpace(ws: seq<string>): string {
    if |ws| == 0 then ""
    else if |ws| == 1 then ws[0]
    else ws[0] + " " + JoinSpace(ws[1..])
  }

  lemma {:induction false} WordLengthOfWord(w: string, t: string)
    requires IsWord(w)
    requires |t| == 0 || IsPySpace(t[0])
    ensures WordLength(w + t) == |w|
    decreases |w|
  {
    if |w| > 1 {
      assert (w + t)[1..] == w[1..] + t;
      WordLengthOfWord(w[1..], t);
    } else {
      assert (w + t)[1..] == t;
    }
  }

  lemma {:induction false} SplitWordThen(w: string, t: string)
    requires IsWord(w)
    requires |t| == 0 || IsPySpace(t[0])
    ensures Split(w + t) == [w] + Split(t)
  {
    WordLengthOfWord(w, t);
    assert (w + t)[..|w|] == w;
    assert (w + t)[|w|..] == t;
  }

  /** `str.split()` undoes `" ".join` on words: the two are partners. */
  lemma {:induction false} SplitJoinSpace(ws: seq<string>)
    requires AllWords(ws)
    ensures Split(JoinSpace(ws)) == ws
  {
    if |ws| == 0 {
    } else if |ws| == 1 {
      SplitWordThen(ws[0], "");
      assert ws[0] + "" == ws[0];
    } else {
      var rest := JoinSpace(ws[1..]);
      assert ws[0] + " " + rest == ws[0] + (" " + rest);
      SplitWordThen(ws[0], " " + rest);
      assert (" " + rest)[1..] == rest;
      SplitJoinSpace(ws[1..]);
    }
  }

  /** The characters of `" ".join(ws)`: the words' lengths plus one space
      between each neighbouring pair. */
  lemma {:induction false} JoinSpaceLength(ws: seq<string>)
    requires |ws| > 0
    ensures |JoinSpace(ws)| + 1 == Width(ws)
  {
    if |ws| > 1 {
      JoinSpaceLength(ws[1..]);
    }
  }

  /** Length of `w1 + " " + w2 + " " + ... + wn + " "`, the width a group of
      words occupies when each is followed by one space. */
  function Width(ws: seq<string>): nat {
    if |ws| == 0 then 0 else |ws[0]| + 1 + Width(ws[1..])
  }

  /** `"".join(w + " " for w in ws)`. */
  function SpaceTerminated(ws: seq<string>): (s: string)
    ensures |s| == Width(ws)
  {
    if |ws| == 0 then "" else ws[0] + " " + SpaceTerminated(ws[1..])
  }

  lemma {:induction false} WidthAppend(ws: seq<string>, w: string)
    ensures Width(ws + [w]) == Width(ws) + |w| + 1
  {
    if |ws| > 0 {
      assert (ws + [w])[1..] == ws[1..] + [w];
      WidthAppend(ws[1..], w);
    } else {
      assert [w][1..] == [];
    }
  }

  lemma {:induction false} SpaceTerminatedAppend(ws: seq<string>, w: string)
    ensures SpaceTerminated(ws + [w]) == SpaceTerminated(ws) + w + " "
  {
    if |ws| > 0 {
      assert (ws + [w])[1..] == ws[1..] + [w];
      SpaceTerminatedAppend(ws[1..], w);
    } else {
      assert [w][1..] == [];
    }
  }

  lemma {:induction false} SpaceTerminatedJoin(ws: seq<string>)
    requires |ws| > 0
    ensures SpaceTerminated(ws) == JoinSpace(ws) + " "
  {
    if |ws| > 1 {
      SpaceTerminatedJoin(ws[1..]);
    } else {
      assert ws[1..] == [];
    }
  }

  /** Words joined by spaces end in a character of the last word. */
  lemma {:induction false} JoinSpaceEnd(ws: seq<string>)
    requires |ws| > 0 && AllWords(ws)
    ensures var j := JoinSpace(ws); |j| > 0 && !IsPySpace(j[|j| - 1])
  {
    if |ws| > 1 {
      assert AllWords(ws[1..]) by {
        forall i | 0 <= i < |ws[1..]| ensures IsWord(ws[1..][i]) { assert ws[1..][i] == ws[i + 1]; }
      }
      JoinSpaceEnd(ws[1..]);
      var t := JoinSpace(ws[1..]);
      var j := JoinSpace(ws);
      assert j == ws[0] + " " + t;
      assert j[|j| - 1] == t[|t| - 1];
    } else {
      assert IsWord(ws[0]);
    }
  }

  /** Stripping the trailing space from a space-terminated group of words
      yields the words joined by single spaces. */
  lemma RStripSpaceTerminated(ws: seq<string>)
    requires AllWords(ws)
    ensures RStrip(Py, SpaceTerminated(ws)) == JoinSpace(ws)
  {
    if |ws| > 0 {
      SpaceTerminatedJoin(ws);
      JoinSpaceEnd(ws);
      var j := JoinSpace(ws);
      var s := j + " ";
      assert s[..|s| - 1] == j;
      assert TrailingSpace(Py, j) == 0;
      assert TrailingSpace(Py, s) == 1;
    }
  }

  // ---------------------------------------------------------------------
  // Decimal formatting

  function DigitChar(d: nat): (c: char)
    requires d < 10
    ensures '0' <= c <= '9'
  {
    "0123456789"[d]
  }

  predicate IsDigits(s: string) {
    forall k :: 0 <= k < |s| ==> '0' <= s[k] <= '9'
  }

  /** `strconv.Itoa` / Python `str` of a non-negative integer. */
  function Decimal(n: nat): (s: string)
    ensures |s| > 0 && IsDigits(s)
    ensures |s| > 1 ==> s[0] != '0'
  {
    if n < 10 then [DigitChar(n)] else Decimal(n / 10) + [DigitChar(n % 10)]
  }

  /** The value of a string of decimal digits; the partner of `Decimal`. */
  function DecimalValue(s: string): nat
    requires IsDigits(s)
  {
    if |s| == 0 then 0
    else DecimalValue(s[..|s| - 1]) * 10 + ((s[|s| - 1] as int) - ('0' as int))
  }

  lemma {:induction false} DecimalRoundTrip(n: nat)
    ensures DecimalValue(Decimal(n)) == n
  {
    if n >= 10 {
      DecimalRoundTrip(n / 10);
      var s := Decimal(n);
      assert s[..|s| - 1] == Decimal(n / 10);
    }
  }

  /** Leading zeros do not change a decimal value. */
  lemma {:induction false} DecimalValueZeros(k: nat, s: string)
    requires IsDigits(s)
    ensures IsDigits(Zeros(k) + s) && DecimalValue(Zeros(k) + s) == DecimalValue(s)
    decreases |s|
  {
    var z := Zeros(k) + s;
    if |s| == 0 {
      assert z == Zeros(k);
      ZerosValue(k);
    } else {
      assert z[..|z| - 1] == Zeros(k) + s[..|s| - 1];
      DecimalValueZeros(k, s[..|s| - 1]);
    }
  }

  lemma {:induction false} ZerosValue(k: nat)
    ensures IsDigits(Zeros(k)) && DecimalValue(Zeros(k)) == 0
  {
    if k > 0 {
      assert Zeros(k)[..k - 1] == Zeros(k - 1);
      ZerosValue(k - 1);
    }
  }

  function Zeros(k: nat): (s: string)
    ensures |s| == k && forall i :: 0 <= i < k ==> s[i] == '0'
  {
    seq(k, _ => '0')
  }

  /** Left-pads with zeros to at least `width` characters. */
  function ZeroPad(s: string, width: nat): (r: string)
    ensures |r| == if |s| < width then width else |s|
    ensures r == Zeros(|r| - |s|) + s
  {
    if |s| < width then Zeros(width - |s|) + s else Zeros(0) + s
  }

  /** Go's `fmt.Sprintf("%0<width>d", n)`: the sign counts towards the width
      and the zeros go between the sign and the digits. */
  function FormatInt(n: int, width: nat): (s: string)
    ensures n >= 0 ==> IsDigits(s) && DecimalValue(s) == n
    ensures n < 0 ==> |s| > 0 && s[0] == '-' && IsDigits(s[1..]) && DecimalValue(s[1..]) == -n
  {
    if n >= 0 then
      PaddedValue(n, width);
      ZeroPad(Decimal(n), width)
    else
      var w: nat := if width > 0 then width - 1 else 0;
      PaddedValue(-n, w);
      NegativeForm(ZeroPad(Decimal(-n), w));
      "-" + ZeroPad(Decimal(-n), w)
  }

  lemma NegativeForm(r: string)
    ensures ("-" + r)[0] == '-' && ("-" + r)[1..] == r
  {
  }

  /** Zero padding keeps the decimal value. */
  lemma PaddedValue(n: nat, width: nat)
    ensures IsDigits(ZeroPad(Decimal(n), width))
    ensures DecimalValue(ZeroPad(Decimal(n), width)) == n
  {
    var d := Decimal(n);
    DecimalRoundTrip(n);
    DecimalValueZeros(|ZeroPad(d, width)| - |d|, d);
  }

  lemma DecimalBelow(n: nat, k: nat)
    requires n < Pow10(k)
    ensures |Decimal(n)| <= if k == 0 then 1 else k
  {
    if n >= 10 {
      DecimalBelow(n / 10, k - 1);
    }
  }

  function Pow10(k: nat): nat {
    if k == 0 then 1 else 10 * Pow10(k - 1)
  }
}

=== FILE: temp_video.dfy ===
/** The legacy, imperative video step (internal/usecases/processes/video_process.go):
    from the synthesised speech bytes it makes a temporary folder, stores the
    speech there next to a randomly chosen background clip, lays the speech
    over the clip, crops it to the speech's length, hands the result to the
    subtitles upload and returns its path.

    `log.Fatalf` ends the process, so the deferred folder removal does not
    happen on those paths; that is an ending of its own here. */
module TempVideo {
  import opened Wrappers
  import opened Effects
  import opened Context
  import opened Paths
  import opened Random
  import opened Strings
  import VideoStage
  import ValueChain

  const Pattern: string := "merge-videos"
  const SpeechPattern: string := "*.mp3"
  const FolderPath: string := "./resources/videos"

  const ErrTempDir: string := "failed to create temporary directory"
  const ErrCreateSpeech: string := "Error creating temporary speech file: "
  const ErrWriteSpeech: string := "Error writing speech data to temporary file: "

  /** How a call ends: it returns, or the process exits. */
  datatype Ending<+T> = Returned(out: Result<T>) | Exited(message: string)

  datatype Outcome<+T> = Outcome(ending: Ending<T>, trace: seq<Event>)

  /** What `generateTemporaryFiles` hands back: the clip, the speech file. */
  datatype Inputs = Inputs(video: string, speech: string)

  /** The file `os.CreateTemp(dir, "*.mp3")` opens: the random part stands
      for the star. */
  function SpeechFile(dir: string, env: Env): string {
    Slash(dir, env.token(TempFiles) + ".mp3")
  }

  /** `generateTemporaryFolder()`. */
  function TemporaryFolder(env: Env): (s: Step<string>)
    ensures s.trace == [Event(Workspace, MkdirTemp(Pattern))]
    ensures s.out.Ok? <==> env.mkdirTemp(Pattern).Ok?
    ensures s.out.Ok? ==> s.out.value == env.mkdirTemp(Pattern).value
    ensures s.out.Err? ==> s.out.error == Wrap(ErrTempDir, env.mkdirTemp(Pattern).error)
  {
    var trace := [Event(Workspace, MkdirTemp(Pattern))];
    match env.mkdirTemp(Pattern)
    case Err(e) => Step(Err(Wrap(ErrTempDir, e)), trace)
    case Ok(dir) => Step(Ok(dir), trace)
  }

  /** `generateTemporaryFiles(speechBytes, dir)`. An unreadable folder is an
      error; an empty folder yields two empty names and no error, and no
      speech file is written; a failed create or write exits. */
  function TemporaryFiles(speech: seq<bv8>, dir: string, env: Env): (s: Outcome<Inputs>)
    ensures |s.trace| > 0 && s.trace[0] == Event(TempFiles, ReadDir(FolderPath))
    ensures forall i :: 0 <= i < |s.trace| ==>
              s.trace[i].site == TempFiles && (s.trace[i].op.ReadDir? || s.trace[i].op.CreateTemp? || s.trace[i].op.WriteFile?)
    ensures env.readDir(FolderPath).Err? ==> s == Outcome(Returned(Err(env.readDir(FolderPath).error)), [Event(TempFiles, ReadDir(FolderPath))])
    ensures env.readDir(FolderPath) == Ok([]) ==> s == Outcome(Returned(Ok(Inputs("", ""))), [Event(TempFiles, ReadDir(FolderPath))])
    ensures env.readDir(FolderPath).Ok? && |env.readDir(FolderPath).value| > 0 && s.ending.Returned? ==>
              && s.ending.out.Ok?
              && s.trace == [Event(TempFiles, ReadDir(FolderPath)), Event(TempFiles, CreateTemp(dir, SpeechPattern)),
                             Event(TempFiles, WriteFile(SpeechFile(dir, env), speech))]
              && s.ending.out.value.speech == SpeechFile(dir, env)
              && VideoStage.IsEntryOf(s.ending.out.value.video, FolderPath, env.readDir(FolderPath).value)
    ensures s.ending.Exited? ==> 1 < |s.trace| <= 3 && s.trace[1] == Event(TempFiles, CreateTemp(dir, SpeechPattern))
  {
    var read := Event(TempFiles, ReadDir(FolderPath));
    match env.readDir(FolderPath)
    case Err(e) => Outcome(Returned(Err(e)), [read])
    case Ok(names) =>
      if |names| == 0 then Outcome(Returned(Ok(Inputs("", ""))), [read])
      else
        var video := Join(FolderPath, names[Intn(env.draws(0), |names|)]);
        var create := Event(TempFiles, CreateTemp(dir, SpeechPattern));
        match env.fileOp(create.op)
        case Err(e) => Outcome(Exited(ErrCreateSpeech + e), [read, create])
        case Ok(_) =>
          var file := SpeechFile(dir, env);
          var write := Event(TempFiles, WriteFile(file, speech));
          match env.fileOp(write.op)
          case Err(e) => Outcome(Exited(ErrWriteSpeech + e), [read, create, write])
          case Ok(_) => Outcome(Returned(Ok(Inputs(video, file))), [read, create, write])
  }

  /** The call sites of the three edit steps, in order. */
  const EditSites: seq<Site> := [AddSpeech, ProbeDuration, CropVideo]

  /** `fmt.Sprintf("%s/%s.mp4", dir, utils.RandomString())` at a call site. */
  function Scratch(dir: string, env: Env, site: Site): string {
    Slash(dir, ValueChain.Name(env, site) + ".mp4")
  }

  /** `addSpeechToVideo`, `getSpeechTimeDuration` and `cropVideoDuration`
      in turn on the chosen clip and speech file, stopping at the first
      error; the result is the cropped video. */
  function Edit(inputs: Inputs, dir: string, env: Env): (s: Step<string>)
    ensures 0 < |s.trace| <= 3
    ensures forall i :: 0 <= i < |s.trace| ==> s.trace[i].site == EditSites[i]
    ensures |s.trace| < 3 ==> s.out.Err?
    ensures s.out.Ok? ==> s.out.value == Scratch(dir, env, CropVideo) && InDir(s.out.value, dir)
    ensures s.trace[0].op == Exec(VideoStage.MuxCommand(inputs.video, inputs.speech, Scratch(dir, env, AddSpeech)))
  {
    var muxed := Scratch(dir, env, AddSpeech);
    var mux := Produce(env, AddSpeech, VideoStage.MuxCommand(inputs.video, inputs.speech, muxed), muxed);
    if mux.out.Err? then mux
    else
      var probe := VideoStage.SpeechTimeDuration(env, ProbeDuration, inputs.speech);
      if probe.out.Err? then Step(Err(probe.out.error), mux.trace + probe.trace)
      else
        var cropped := Scratch(dir, env, CropVideo);
        var crop := Produce(env, CropVideo, VideoStage.CropCommand(muxed, probe.out.value, cropped), cropped);
        JoinInDir(dir, ValueChain.Name(env, CropVideo) + ".mp4");
        Step(crop.out, mux.trace + probe.trace + crop.trace)
  }

  /** What follows the edit: on success `uploadFile(video)`, then on every
      return the deferred `os.RemoveAll(tempDir)`. */
  function Closing(out: Result<string>, dir: string): (c: seq<Event>)
    ensures |c| > 0 && c[|c| - 1] == Event(Workspace, RemoveAll(dir))
    ensures forall j :: 0 <= j < |c| ==> c[j].site in {Upload, Workspace}
    ensures out.Ok? ==> |c| == 2 && c[0] == Event(Upload, UploadFile(out.value))
  {
    (if out.Ok? then [Event(Upload, UploadFile(out.value))] else []) + [Event(Workspace, RemoveAll(dir))]
  }

  /** `VideoProcess(speechBytes)`. */
  function VideoProcess(speech: seq<bv8>, env: Env): (s: Outcome<string>)
    ensures env.mkdirTemp(Pattern).Err? ==>
              s == Outcome(Returned(Err(Wrap(ErrTempDir, env.mkdirTemp(Pattern).error))),
                           [Event(Workspace, MkdirTemp(Pattern))])
    ensures |s.trace| > 0 && s.trace[0] == Event(Workspace, MkdirTemp(Pattern))
  {
    var folder := TemporaryFolder(env);
    if folder.out.Err? then Outcome(Returned(Err(folder.out.error)), folder.trace)
    else
      var dir := folder.out.value;
      var files := TemporaryFiles(speech, dir, env);
      match files.ending
      case Exited(m) => Outcome(Exited(m), folder.trace + files.trace)
      case Returned(Err(e)) => Outcome(Returned(Err(e)), folder.trace + files.trace + Closing(Err(e), dir))
      case Returned(Ok(inputs)) =>
        var edit := Edit(inputs, dir, env);
        Outcome(Returned(edit.out), folder.trace + files.trace + edit.trace + Closing(edit.out, dir))
  }

  /** The run once the folder exists, one case per way the files step ends. */
  lemma Shape(speech: seq<bv8>, env: Env)
    requires env.mkdirTemp(Pattern).Ok?
    ensures var dir := env.mkdirTemp(Pattern).value; var s := VideoProcess(speech, env);
      var files := TemporaryFiles(speech, dir, env); var mk := Event(Workspace, MkdirTemp(Pattern));
      && (files.ending.Exited? ==> s.ending.Exited? && s.trace == [mk] + files.trace)
      && (files.ending.Returned? && files.ending.out.Err? ==>
            s.ending == Returned(Err(files.ending.out.error)) && s.trace == [mk] + files.trace + Closing(s.ending.out, dir))
      && (files.ending.Returned? && files.ending.out.Ok? ==>
            var edit := Edit(files.ending.out.value, dir, env);
            s.ending == Returned(edit.out) && s.trace == [mk] + files.trace + edit.trace + Closing(edit.out, dir))
  {
  }

  /** The last events of a run that returns after the folder exists. */
  lemma ClosingEnds(x: seq<Event>, out: Result<string>, dir: string)
    ensures var t := x + Closing(out, dir);
      && t[|t| - 1] == Event(Workspace, RemoveAll(dir))
      && (out.Ok? ==> |t| >= 2 && t[|t| - 2] == Event(Upload, UploadFile(out.value)))
  {
    var c := Closing(out, dir);
    assert (x + c)[|x + c| - 1] == c[|c| - 1];
    if out.Ok? {
      assert (x + c)[|x + c| - 2] == c[0];
    }
  }

  /** A run that stops inside the files step removes nothing. */
  lemma NoRemoval(mk: Event, f: seq<Event>)
    requires mk.op.MkdirTemp?
    requires forall i :: 0 <= i < |f| ==> f[i].op.ReadDir? || f[i].op.CreateTemp? || f[i].op.WriteFile?
    ensures forall i :: 0 <= i < |[mk] + f| ==> !([mk] + f)[i].op.RemoveAll?
  {
    var t := [mk] + f;
    forall i | 0 <= i < |t|
      ensures !t[i].op.RemoveAll?
    {
      if i > 0 {
        assert t[i] == f[i - 1];
      }
    }
  }

  /** How the legacy step ends: a process exit leaves the folder behind;
      every return after the folder exists removes it last; a success
      uploads the cropped video and then returns a path inside the folder
      it has just removed. */
  lemma Endings(speech: seq<bv8>, env: Env)
    requires env.mkdirTemp(Pattern).Ok?
    ensures var dir := env.mkdirTemp(Pattern).value; var s := VideoProcess(speech, env);
      && (s.ending.Exited? ==> forall i :: 0 <= i < |s.trace| ==> !s.trace[i].op.RemoveAll?)
      && (s.ending.Returned? ==> s.trace[|s.trace| - 1] == Event(Workspace, RemoveAll(dir)))
      && (s.ending.Returned? && s.ending.out.Ok? ==>
            && |s.trace| >= 2
            && s.trace[|s.trace| - 2] == Event(Upload, UploadFile(s.ending.out.value))
            && InDir(s.ending.out.value, dir))
  {
    var dir := env.mkdirTemp(Pattern).value;
    var files := TemporaryFiles(speech, dir, env);
    var mk := Event(Workspace, MkdirTemp(Pattern));
    Shape(speech, env);
    if files.ending.Exited? {
      NoRemoval(mk, files.trace);
    } else if files.ending.out.Err? {
      ClosingEnds([mk] + files.trace, Err(files.ending.out.error), dir);
    } else {
      var edit := Edit(files.ending.out.value, dir, env);
      ClosingEnds([mk] + files.trace + edit.trace, edit.out, dir);
    }
  }

  /** With an empty background folder the files step returns at once and
      the edit runs on two empty paths. */
  lemma EmptyFolderRun(speech: seq<bv8>, env: Env)
    requires env.mkdirTemp(Pattern).Ok? && env.readDir(FolderPath) == Ok([])
    ensures var dir := env.mkdirTemp(Pattern).value; var edit := Edit(Inputs("", ""), dir, env);
      VideoProcess(speech, env).trace
        == [Event(Workspace, MkdirTemp(Pattern))] + [Event(TempFiles, ReadDir(FolderPath))] + edit.trace + Closing(edit.out, dir)
  {
    Shape(speech, env);
  }

  /** The events of such a run, stated on its parts. */
  lemma EmptyFolderEvents(mk: Event, read: Event, e: seq<Event>, c: seq<Event>)
    requires mk.site == Workspace && read.site == TempFiles
    requires 0 < |e| <= 3 && forall i :: 0 <= i < |e| ==> e[i].site == EditSites[i]
    requires |c| > 0 && forall j :: 0 <= j < |c| ==> c[j].site in {Upload, Workspace}
    ensures var t := [mk] + [read] + e + c;
      && |t| > 2 + |e| && t[..2 + |e|] == [mk, read] + e
      && t[1] == read && t[2] == e[0]
      && (forall j :: 2 + |e| <= j < |t| ==> t[j].site in {Upload, Workspace})
      && (forall i :: 1 < i < |t| ==> t[i].site != TempFiles)
  {
    var t := [mk] + [read] + e + c;
    Parts([mk] + [read], e, c);
    assert [mk] + [read] == [mk, read];
    forall j | 2 + |e| <= j < |t|
      ensures t[j].site in {Upload, Workspace}
    {
      assert t[j] == c[j - 2 - |e|];
    }
    forall i | 1 < i < |t|
      ensures t[i].site != TempFiles
    {
      if i < 2 + |e| {
        assert t[i] == e[i - 2];
      }
    }
  }

  /** With an empty background folder the run is the folder events
      around the edit of two empty paths. */
  lemma EmptyFolderTrace(speech: seq<bv8>, env: Env)
    requires env.mkdirTemp(Pattern).Ok? && env.readDir(FolderPath) == Ok([])
    ensures var dir := env.mkdirTemp(Pattern).value; var s := VideoProcess(speech, env);
      var edit := Edit(Inputs("", ""), dir, env);
      && |s.trace| > 2 + |edit.trace|
      && s.trace[..2 + |edit.trace|] == [Event(Workspace, MkdirTemp(Pattern)), Event(TempFiles, ReadDir(FolderPath))] + edit.trace
      && forall j :: 2 + |edit.trace| <= j < |s.trace| ==> s.trace[j].site in {Upload, Workspace}
  {
    var dir := env.mkdirTemp(Pattern).value;
    var edit := Edit(Inputs("", ""), dir, env);
    EmptyFolderRun(speech, env);
    EmptyFolderEvents(Event(Workspace, MkdirTemp(Pattern)), Event(TempFiles, ReadDir(FolderPath)), edit.trace, Closing(edit.out, dir));
  }

  /** With an empty background folder the speech is never stored — the
      folder read is the only file event — and ffmpeg is asked to mux two
      empty paths. */
  lemma EmptyFolderMuxesNothing(speech: seq<bv8>, env: Env)
    requires env.mkdirTemp(Pattern).Ok? && env.readDir(FolderPath) == Ok([])
    ensures var dir := env.mkdirTemp(Pattern).value; var s := VideoProcess(speech, env);
      && |s.trace| > 2
      && s.trace[1] == Event(TempFiles, ReadDir(FolderPath))
      && s.trace[2].op == Exec(VideoStage.MuxCommand("", "", Scratch(dir, env, AddSpeech)))
      && forall i :: 1 < i < |s.trace| ==> s.trace[i].site != TempFiles
  {
    var dir := env.mkdirTemp(Pattern).value;
    var edit := Edit(Inputs("", ""), dir, env);
    EmptyFolderRun(speech, env);
    EmptyFolderEvents(Event(Workspace, MkdirTemp(Pattern)), Event(TempFiles, ReadDir(FolderPath)), edit.trace, Closing(edit.out, dir));
  }

  /** Where the parts of a run that made its files sit in it. */
  lemma FilesEvents(mk: Event, f: seq<Event>, e: seq<Event>, c: seq<Event>)
    requires |f| == 3 && |e| > 0
    ensures var t := [mk] + f + e + c; |t| > 4 && t[1..4] == f && t[4] == e[0]
  {
    Parts([mk], f, e);
    assert [mk] + f + e + c == ([mk] + f + e) + c;
  }

  /** When the files were made, the run is the folder event, the three
      file events, and then the edit. */
  lemma FilesThenEdit(speech: seq<bv8>, env: Env)
    requires env.mkdirTemp(Pattern).Ok? && env.readDir(FolderPath).Ok? && |env.readDir(FolderPath).value| > 0
    requires TemporaryFiles(speech, env.mkdirTemp(Pattern).value, env).ending.Returned?
    ensures var dir := env.mkdirTemp(Pattern).value; var s := VideoProcess(speech, env);
      var files := TemporaryFiles(speech, dir, env);
      && files.ending.out.Ok? && |files.trace| == 3
      && |s.trace| > 4 && s.trace[1..4] == files.trace
      && s.trace[4] == Edit(files.ending.out.value, dir, env).trace[0]
  {
    var dir := env.mkdirTemp(Pattern).value;
    var files := TemporaryFiles(speech, dir, env);
    var edit := Edit(files.ending.out.value, dir, env);
    Shape(speech, env);
    FilesEvents(Event(Workspace, MkdirTemp(Pattern)), files.trace, edit.trace, Closing(edit.out, dir));
  }

  /** Otherwise the speech bytes are written to a fresh `.mp3` in the
      folder, and that file is what ffmpeg lays over the chosen clip. */
  lemma SpeechStoredBeforeMux(speech: seq<bv8>, env: Env)
    requires env.mkdirTemp(Pattern).Ok? && env.readDir(FolderPath).Ok? && |env.readDir(FolderPath).value| > 0
    requires TemporaryFiles(speech, env.mkdirTemp(Pattern).value, env).ending.Returned?
    ensures var dir := env.mkdirTemp(Pattern).value; var s := VideoProcess(speech, env);
      var inputs := TemporaryFiles(speech, dir, env).ending.out.value;
      && |s.trace| > 4
      && s.trace[3] == Event(TempFiles, WriteFile(SpeechFile(dir, env), speech))
      && inputs.speech == SpeechFile(dir, env) && InDir(inputs.speech, dir)
      && VideoStage.IsEntryOf(inputs.video, FolderPath, env.readDir(FolderPath).value)
      && s.trace[4].op == Exec(VideoStage.MuxCommand(inputs.video, SpeechFile(dir, env), Scratch(dir, env, AddSpeech)))
  {
    var dir := env.mkdirTemp(Pattern).value;
    var files := TemporaryFiles(speech, dir, env);
    FilesThenEdit(speech, env);
    JoinInDir(dir, env.token(TempFiles) + ".mp3");
    assert files.trace[2] == files.trace[1..][1];
    assert VideoProcess(speech, env).trace[3] == VideoProcess(speech, env).trace[1..4][2];
  }
}

=== FILE: text_stage.dfy ===
/** The text stage of the current chain (internal/processes/text2text.go):
    one non-streaming completion request to the Ollama endpoint, whose
    `response` field becomes the context's text. */
module TextStage {
  import opened Wrappers
  import opened Effects
  import opened Context

  /** The one request `generateText` makes: the configured model, the
      prompt verbatim, streaming off, posted to the configured URL. */
  function Request(config: Config, prompt: string): Event {
    Event(Llm, Post(config.ollamaUrl, Payload(config.ollamaModel, prompt, false)))
  }

  /** `makeOllamaRequest` followed by reading `response`: only a 200
      response whose body decodes yields text; every other reply becomes a
      wrapped error naming what went wrong. */
  function OllamaResult(reply: Reply): (r: Result<string>)
    ensures r.Ok? <==> reply.Response? && reply.statusCode == 200 && reply.decoded.Ok?
    ensures r.Ok? ==> r.value == reply.decoded.value
    ensures reply.BadRequest? ==> r == Err(Wrap("error creating request", reply.err))
    ensures reply.SendFailed? ==> r == Err(Wrap("error sending request", reply.err))
    ensures reply.Response? && reply.statusCode != 200 ==> r == Err(Wrap("received non-OK response", reply.status))
    ensures reply.Response? && reply.statusCode == 200 && reply.decoded.Err? ==>
              r == Err(Wrap("error decoding response body", reply.decoded.error))
  {
    match reply
    case BadRequest(e) => Err(Wrap("error creating request", e))
    case SendFailed(e) => Err(Wrap("error sending request", e))
    case Response(code, status, decoded) =>
      if code != 200 then Err(Wrap("received non-OK response", status))
      else if decoded.Err? then Err(Wrap("error decoding response body", decoded.error))
      else Ok(decoded.value)
  }

  /** `generateText(prompt)`. */
  function GenerateText(env: Env, prompt: string): (s: Step<string>)
    ensures s.trace == [Request(env.config, prompt)]
    ensures s.out.Ok? <==> OllamaResult(env.ollama(env.config.ollamaUrl, Payload(env.config.ollamaModel, prompt, false))).Ok?
    ensures s.out.Ok? ==> s.out.value == OllamaResult(env.ollama(env.config.ollamaUrl, Payload(env.config.ollamaModel, prompt, false))).value
    ensures s.out.Err? ==> s.out.error == Wrap("error generating text", OllamaResult(env.ollama(env.config.ollamaUrl, Payload(env.config.ollamaModel, prompt, false))).error)
    ensures s.out.Err? ==> IsWrapped("error generating text", s.out.error)
  {
    var reply := env.ollama(env.config.ollamaUrl, Payload(env.config.ollamaModel, prompt, false));
    var r := OllamaResult(reply);
    if r.Err? then
      WrapIsWrapped("error generating text", r.error);
      Step(Err(Wrap("error generating text", r.error)), [Request(env.config, prompt)])
    else
      Step(Ok(r.value), [Request(env.config, prompt)])
  }

  /** The work of `TextGenerationProcess.Execute` on a context: the text
      field is set to the model's answer and nothing else changes. */
  function Apply(c: GenerationContext, env: Env): (s: Step<GenerationContext>)
    ensures s.trace == [Request(env.config, c.prompt)]
    ensures s.out.Ok? <==> GenerateText(env, c.prompt).out.Ok?
    ensures s.out.Ok? ==> s.out.value == c.(text := GenerateText(env, c.prompt).out.value)
    ensures s.out.Err? ==> IsWrapped("error generating text", s.out.error)
  {
    var t := GenerateText(env, c.prompt);
    Step(if t.out.Ok? then Ok(c.(text := t.out.value)) else Err(t.out.error), t.trace)
  }

  /** The stage reads nothing of the context but the prompt. */
  lemma TextReadsOnlyPrompt(c1: GenerationContext, c2: GenerationContext, env: Env)
    requires c1.prompt == c2.prompt
    ensures Apply(c1, env).trace == Apply(c2, env).trace
    ensures Apply(c1, env).out.Ok? <==> Apply(c2, env).out.Ok?
    ensures Apply(c1, env).out.Ok? ==> Apply(c1, env).out.value.text == Apply(c2, env).out.value.text
    ensures Apply(c1, env).out.Err? ==> Apply(c1, env).out.error == Apply(c2, env).out.error
  {
  }

  /** A successful reply's text arrives in the context unchanged, whatever
      status line accompanies the 200 code. */
  lemma TextIsResponse(c: GenerationContext, env: Env, status: string, answer: string)
    requires env.ollama(env.config.ollamaUrl, Payload(env.config.ollamaModel, c.prompt, false)) == Response(200, status, Ok(answer))
    ensures Apply(c, env).out == Ok(c.(text := answer))
  {
  }
}

=== FILE: timestamp.dfy ===
/** Time formatting: the `HH:MM:SS.mmm` duration string the Go video stages
    pass to ffmpeg's `-t` (three identical copies of `getSpeechTimeDuration`),
    and the `0H:MM:SS,000` caption timestamps of scripts/captions.py.

    The Go code computes on float64; this model computes on exact reals, an
    idealisation that ignores binary rounding, NaN and infinities. */
module Timestamp {
  import opened Strings

  /** The four integer fields `getSpeechTimeDuration` formats. */
  datatype Clock = Clock(hours: int, minutes: int, seconds: int, millis: int)

  /** Go's `int(x)` conversion of a float: truncation toward zero. */
  function Trunc(x: real): (n: int)
    ensures x >= 0.0 ==> n == x.Floor
    ensures x < 0.0 ==> n == -((-x).Floor)
  {
    if x >= 0.0 then x.Floor else -((-x).Floor)
  }

  /** A clock reading as a whole number of milliseconds. */
  function TotalMillis(c: Clock): int {
    c.hours * 3600000 + c.minutes * 60000 + c.seconds * 1000 + c.millis
  }

  /** The field arithmetic of `getSpeechTimeDuration` on a duration `d` in
      seconds; `FieldsOfDuration` states what the fields are. */
  function Fields(d: real): Clock {
    var hours := (d / 3600.0).Floor;
    var minutes := ((d - hours as real * 3600.0) / 60.0).Floor;
    var remaining := d - hours as real * 3600.0 - minutes as real * 60.0;
    Clock(hours, minutes, Trunc(remaining), Trunc((remaining - remaining.Floor as real) * 1000.0))
  }

  /** Every field but the hours is bounded for ANY real `d`, and the fields
      are `d` truncated to whole milliseconds. */
  lemma FieldsOfDuration(d: real)
    ensures var c := Fields(d);
      && 0 <= c.minutes <= 59 && 0 <= c.seconds <= 59 && 0 <= c.millis <= 999
      && (d >= 0.0 ==> c.hours >= 0)
      && TotalMillis(c) as real <= d * 1000.0 < TotalMillis(c) as real + 1.0
  {
    var hours := (d / 3600.0).Floor;
    var minutes := ((d - hours as real * 3600.0) / 60.0).Floor;
    var remaining := d - hours as real * 3600.0 - minutes as real * 60.0;
    var millis := Trunc((remaining - remaining.Floor as real) * 1000.0);
    FieldBounds(d, hours, minutes, remaining, millis);
  }

  lemma FieldBounds(d: real, hours: int, minutes: int, remaining: real, millis: int)
    requires hours == (d / 3600.0).Floor
    requires minutes == ((d - hours as real * 3600.0) / 60.0).Floor
    requires remaining == d - hours as real * 3600.0 - minutes as real * 60.0
    requires millis == Trunc((remaining - remaining.Floor as real) * 1000.0)
    ensures 0 <= minutes <= 59 && 0.0 <= remaining < 60.0
    ensures 0 <= remaining.Floor <= 59 && 0 <= millis <= 999
    ensures d >= 0.0 ==> hours >= 0
    ensures millis as real <= (remaining - remaining.Floor as real) * 1000.0 < millis as real + 1.0
  {
    var x := d - hours as real * 3600.0;
    assert 0.0 <= x < 3600.0;
    var frac := remaining - remaining.Floor as real;
    assert 0.0 <= frac < 1.0;
  }

  /** `fmt.Sprintf("%02d:%02d:%02d.%03d", ...)` of the fields. */
  function FormatClock(c: Clock): string {
    FormatInt(c.hours, 2) + ":" + FormatInt(c.minutes, 2) + ":"
      + FormatInt(c.seconds, 2) + "." + FormatInt(c.millis, 3)
  }

  /** `getSpeechTimeDuration` after ffprobe's output has been parsed. */
  function FormatDuration(d: real): string {
    FormatClock(Fields(d))
  }

  /** Reads a `HH:MM:SS.mmm` string back into its fields; the partner of
      `FormatClock` for durations under 100 hours. */
  function ParseClock(s: string): Clock
    requires |s| == 12 && IsDigits(s[0..2]) && IsDigits(s[3..5]) && IsDigits(s[6..8]) && IsDigits(s[9..12])
  {
    Clock(DecimalValue(s[0..2]), DecimalValue(s[3..5]), DecimalValue(s[6..8]), DecimalValue(s[9..12]))
  }

  /** A non-negative number below `10^width` is printed by `%0<width>d` as
      exactly `width` digits. */
  lemma PaddedWidth(n: int, width: nat)
    requires 1 <= width <= 3 && 0 <= n < Pow10(width)
    ensures |FormatInt(n, width)| == width && IsDigits(FormatInt(n, width))
    ensures DecimalValue(FormatInt(n, width)) == n
  {
    DecimalBelow(n, width);
  }

  /** The fields of `a:b:c<sep>d` for two-character `a`, `b`, `c`, one
      separator character and a three-character `d`. */
  lemma ClockFields(a: string, b: string, c: string, sep: string, d: string)
    requires |a| == 2 && |b| == 2 && |c| == 2 && |sep| == 1 && |d| == 3
    ensures var s := a + ":" + b + ":" + c + sep + d;
      && |s| == 12 && s[0..2] == a && s[2] == ':' && s[3..5] == b && s[5] == ':'
      && s[6..8] == c && s[8] == sep[0] && s[9..12] == d
  {
    var s := a + ":" + b + ":" + c + sep + d;
    assert s[0..2] == a;
    assert s[3..5] == b;
    assert s[6..8] == c;
    assert s[9..12] == d;
  }

  /** A clock with an hour field under 100 prints as exactly twelve
      characters `HH:MM:SS.mmm` whose fields read back as the clock. */
  lemma ClockRoundTrip(c: Clock)
    requires 0 <= c.hours < 100 && 0 <= c.minutes <= 59 && 0 <= c.seconds <= 59 && 0 <= c.millis <= 999
    ensures var s := FormatClock(c);
      && |s| == 12 && s[2] == ':' && s[5] == ':' && s[8] == '.'
      && IsDigits(s[0..2]) && IsDigits(s[3..5]) && IsDigits(s[6..8]) && IsDigits(s[9..12])
      && ParseClock(s) == c
  {
    PaddedWidth(c.hours, 2);
    PaddedWidth(c.minutes, 2);
    PaddedWidth(c.seconds, 2);
    PaddedWidth(c.millis, 3);
    ClockFields(FormatInt(c.hours, 2), FormatInt(c.minutes, 2), FormatInt(c.seconds, 2), ".", FormatInt(c.millis, 3));
  }

  /** For a duration under 100 hours the string is exactly twelve characters
      `HH:MM:SS.mmm` with zero-padded fields, and reading the fields back
      recovers the clock. */
  lemma DurationRoundTrip(d: real)
    requires 0.0 <= d < 360000.0
    ensures var s := FormatDuration(d);
      && |s| == 12 && s[2] == ':' && s[5] == ':' && s[8] == '.'
      && IsDigits(s[0..2]) && IsDigits(s[3..5]) && IsDigits(s[6..8]) && IsDigits(s[9..12])
      && ParseClock(s) == Fields(d)
  {
    var c := Fields(d);
    FieldsOfDuration(d);
    assert c.hours < 100 by {
      assert TotalMillis(c) as real <= d * 1000.0;
    }
    ClockRoundTrip(c);
  }

  // ---------------------------------------------------------------------
  // scripts/captions.py timestamps

  /** Python's `str(timedelta(seconds=n))` for whole non-negative seconds:
      `H:MM:SS`, preceded by `D day, ` / `D days, ` from one day on. */
  function TimedeltaString(n: nat): string {
    if n < 86400 then ClockString(n)
    else
      var days := n / 86400;
      Decimal(days) + (if days == 1 then " day, " else " days, ") + ClockString(n % 86400)
  }

  /** `"%d:%02d:%02d" % (hours, minutes, seconds)` of seconds within a day. */
  function ClockString(secs: nat): string {
    Decimal(secs / 3600) + ":" + FormatInt(secs % 3600 / 60, 2) + ":" + FormatInt(secs % 60, 2)
  }

  /** Non-negative seconds, as Whisper reports segment boundaries. */
  type Seconds = r: real | r >= 0.0

  /** `str(0) + str(timedelta(seconds=int(t))) + ",000"`. */
  function CaptionStamp(t: Seconds): string {
    "0" + TimedeltaString(t.Floor) + ",000"
  }

  /** Reads `HH:MM:SS,000` back into whole seconds. */
  function ParseCaptionStamp(s: string): int
    requires |s| == 12 && IsDigits(s[0..2]) && IsDigits(s[3..5]) && IsDigits(s[6..8])
  {
    DecimalValue(s[0..2]) * 3600 + DecimalValue(s[3..5]) * 60 + DecimalValue(s[6..8])
  }

  /** The fields of `0h:mm:ss,000` for a one-digit `h` and two-digit
      `mm`, `ss`. */
  lemma StampFields(h: string, mm: string, ss: string)
    requires |h| == 1 && |mm| == 2 && |ss| == 2
    ensures var s := "0" + (h + ":" + mm + ":" + ss) + ",000";
      && |s| == 12 && s[0..2] == "0" + h && s[2] == ':' && s[3..5] == mm && s[5] == ':'
      && s[6..8] == ss && s[8..] == ",000"
  {
    var s := "0" + (h + ":" + mm + ":" + ss) + ",000";
    assert s[0..2] == "0" + h;
    assert s[3..5] == mm;
    assert s[6..8] == ss;
    assert s[8..] == ",000";
  }

  /** `0H:MM:SS,000` for a single-digit hour reads back as its seconds. */
  lemma HmsRoundTrip(h: nat, m: nat, sec: nat)
    requires h < 10 && m < 60 && sec < 60
    ensures var s := "0" + (Decimal(h) + ":" + FormatInt(m, 2) + ":" + FormatInt(sec, 2)) + ",000";
      && |s| == 12 && s[2] == ':' && s[5] == ':' && s[8..] == ",000"
      && IsDigits(s[0..2]) && IsDigits(s[3..5]) && IsDigits(s[6..8])
      && ParseCaptionStamp(s) == h * 3600 + m * 60 + sec
  {
    PaddedWidth(m, 2);
    PaddedWidth(sec, 2);
    PaddedWidth(h, 2);
    assert FormatInt(h, 2) == "0" + Decimal(h);
    StampFields(Decimal(h), FormatInt(m, 2), FormatInt(sec, 2));
  }

  /** Below ten hours the caption stamp of whole seconds `n` is
      `HH:MM:SS,000` and reads back as `n`. */
  lemma WholeStampRoundTrip(n: nat)
    requires n < 36000
    ensures var s := "0" + TimedeltaString(n) + ",000";
      && |s| == 12 && s[2] == ':' && s[5] == ':' && s[8..] == ",000"
      && IsDigits(s[0..2]) && IsDigits(s[3..5]) && IsDigits(s[6..8])
      && ParseCaptionStamp(s) == n
  {
    var h, m, sec := n / 3600, n % 3600 / 60, n % 60;
    assert n == h * 3600 + m * 60 + sec && h < 10 && m < 60 && sec < 60 by {
      DivModSplit(n);
    }
    var hms := Decimal(h) + ":" + FormatInt(m, 2) + ":" + FormatInt(sec, 2);
    HmsRoundTrip(h, m, sec);
    assert "0" + hms + ",000" == "0" + TimedeltaString(n) + ",000";
  }

  /** Whole seconds below a day as hours, minutes and seconds. */
  lemma DivModSplit(n: nat)
    requires n < 86400
    ensures n == (n / 3600) * 3600 + (n % 3600 / 60) * 60 + n % 60
    ensures n / 3600 < 24 && n % 3600 / 60 < 60 && n % 60 < 60
    ensures n < 36000 ==> n / 3600 < 10
    ensures n >= 36000 ==> n / 3600 >= 10
  {
    var r := n % 3600;
    assert n == (n / 3600) * 3600 + r;
    assert r == (r / 60) * 60 + r % 60;
    assert r % 60 == n % 60;
  }

  /** Below ten hours the caption stamp is a well-formed twelve-character
      SRT time `HH:MM:SS,000` that reads back as the whole seconds of `t`. */
  lemma CaptionStampRoundTrip(t: Seconds)
    requires t < 36000.0
    ensures var s := CaptionStamp(t);
      && |s| == 12 && s[2] == ':' && s[5] == ':' && s[8..] == ",000"
      && IsDigits(s[0..2]) && IsDigits(s[3..5]) && IsDigits(s[6..8])
      && ParseCaptionStamp(s) == t.Floor
  {
    WholeStampRoundTrip(t.Floor);
  }

  /** From ten hours to one day the leading "0" gives the hour field three
      digits, as in `010:00:00,000` for ten hours. */
  lemma WholeStampLongHours(n: nat)
    requires 36000 <= n < 86400
    ensures var s := "0" + TimedeltaString(n) + ",000";
      |s| == 13 && s[0] == '0' && s[3] == ':'
  {
    DivModSplit(n);
    LongHourFields(n / 3600, n % 3600 / 60, n % 60);
  }

  /** The shape of `0hh:mm:ss,000` for two-character fields. */
  lemma LongStampFields(hh: string, mm: string, ss: string)
    requires |hh| == 2 && |mm| == 2 && |ss| == 2
    ensures var s := "0" + (hh + ":" + mm + ":" + ss) + ",000";
      |s| == 13 && s[0] == '0' && s[3] == ':'
  {
    var s := "0" + (hh + ":" + mm + ":" + ss) + ",000";
    assert s[3] == (hh + ":")[2];
  }

  /** A two-digit hour makes `0H:MM:SS,000` thirteen characters long. */
  lemma LongHourFields(h: nat, m: nat, sec: nat)
    requires 10 <= h < 100 && m < 60 && sec < 60
    ensures var s := "0" + (Decimal(h) + ":" + FormatInt(m, 2) + ":" + FormatInt(sec, 2)) + ",000";
      |s| == 13 && s[0] == '0' && s[3] == ':'
  {
    assert |Decimal(h)| == 2 by {
      assert Decimal(h) == Decimal(h / 10) + [DigitChar(h % 10)];
    }
    PaddedWidth(m, 2);
    PaddedWidth(sec, 2);
    LongStampFields(Decimal(h), FormatInt(m, 2), FormatInt(sec, 2));
  }

  lemma CaptionStampLongHours(t: Seconds)
    requires 36000.0 <= t < 86400.0
    ensures |CaptionStamp(t)| == 13 && CaptionStamp(t)[0] == '0' && CaptionStamp(t)[3] == ':'
  {
    WholeStampLongHours(t.Floor);
  }
}

=== FILE: value_chain.dfy ===
/** The older iteration of the pipeline (internal/generation): the same
    chain of responsibility, but the processes hand plain strings to each
    other — the text, then the speech file's path, then the video's path —
    instead of a shared context, and file names come from
    `utils.RandomString` rather than UUIDs. */
module ValueChain {
  import opened Wrappers
  import opened Effects
  import opened Context
  import opened Paths
  import opened Random
  import opened FailFast
  import opened Cleanup
  import SpeechStage
  import VideoStage

  /** `utils.RandomString()` at a call site: seeded with the clock reading
      there. */
  function Name(env: Env, site: Site): (n: string)
    ensures IsRandomName(n)
  {
    RandomString(env.clock(site), env.generator)
  }

  const LlmScript: string := "./pkg/llm.py"

  function LlmCommand(message: string): Command {
    Command(Python, [LlmScript, message])
  }

  /** `TextGenerationProcess.generateText(message)`: the script's output
      with blank lines removed; the script's error passes through. */
  function GenerateText(env: Env, message: string): (s: Step<string>)
    ensures s.trace == [Event(Llm, Exec(LlmCommand(message)))]
    ensures s.out.Ok? <==> env.run(LlmCommand(message)).Ok?
    ensures s.out.Ok? ==> NoBlankLine(s.out.value) && Visible(s.out.value) == Visible(env.run(LlmCommand(message)).value)
    ensures s.out.Err? ==> s.out.error == env.run(LlmCommand(message)).error
  {
    var trace := [Event(Llm, Exec(LlmCommand(message)))];
    match env.run(LlmCommand(message))
    case Err(e) => Step(Err(e), trace)
    case Ok(output) =>
      CleanedHasNoBlankLine(output);
      CleanupKeepsVisible(output);
      Step(Ok(DropBlankLines(output)), trace)
  }

  /** `SpeechGenerationProcess.generateSpeech(message)`. */
  function GenerateSpeech(env: Env, tempDir: string, message: string): (s: Step<string>)
    ensures s.trace == [Event(Tts, Exec(SpeechStage.SpeechCommand(message, Slash(tempDir, Name(env, Tts) + ".mp3"))))]
    ensures s.out.Ok? <==> env.run(SpeechStage.SpeechCommand(message, Slash(tempDir, Name(env, Tts) + ".mp3"))).Ok?
    ensures s.out.Ok? ==> s.out.value == Slash(tempDir, Name(env, Tts) + ".mp3") && InDir(s.out.value, tempDir)
  {
    var file := Slash(tempDir, Name(env, Tts) + ".mp3");
    JoinInDir(tempDir, Name(env, Tts) + ".mp3");
    Produce(env, Tts, SpeechStage.SpeechCommand(message, file), file)
  }

  /** `selectBackgroundVideo()` as written: an unreadable folder passes its
      error on unwrapped, and an empty folder yields the empty path with no
      error, so the process carries on. */
  function SelectBackgroundVideo(env: Env): (s: Step<string>)
    ensures s.trace == [Event(SelectBackground, ReadDir(VideoStage.BgVideoPath))]
    ensures env.readDir(VideoStage.BgVideoPath).Err? ==> s.out == Err(env.readDir(VideoStage.BgVideoPath).error)
    ensures env.readDir(VideoStage.BgVideoPath) == Ok([]) ==> s.out == Ok("")
    ensures env.readDir(VideoStage.BgVideoPath).Ok? && |env.readDir(VideoStage.BgVideoPath).value| > 0 ==>
              s.out.Ok? && VideoStage.IsEntryOf(s.out.value, VideoStage.BgVideoPath, env.readDir(VideoStage.BgVideoPath).value)
  {
    var trace := [Event(SelectBackground, ReadDir(VideoStage.BgVideoPath))];
    match env.readDir(VideoStage.BgVideoPath)
    case Err(e) => Step(Err(e), trace)
    case Ok(names) =>
      if |names| == 0 then Step(Ok(""), trace)
      else Step(Ok(Join(VideoStage.BgVideoPath, names[Intn(env.draws(0), |names|)])), trace)
  }

  /** The name `addVideoSubtitles` hands the captions script. */
  function CaptionName(env: Env): string {
    Name(env, Subtitles) + ".mp4"
  }

  /** The path `exportMp4` writes: `./generated/<name>.mp4`, built with
      `Sprintf`, so the leading `./` stays. */
  function ExportPath(env: Env): string {
    Slash(VideoStage.GeneratedPath, Name(env, Export) + ".mp4")
  }

  /** One sub-step of the older `generateVideo`; the sub-steps and their
      order are those of the current video process. */
  function Substep(k: VideoStage.SubStep, tempDir: string, speech: string, w: VideoStage.Work, env: Env): (s: Step<VideoStage.Work>)
    ensures |s.trace| == 1 && s.trace[0].site == VideoStage.SiteOf(k)
    ensures s.out.Ok? ==> s.out.value == VideoStage.With(k, w, VideoStage.Field(k, s.out.value))
  {
    match k
    case Select => VideoStage.Record(k, w, SelectBackgroundVideo(env))
    case Mux =>
      var out := Slash(tempDir, Name(env, AddSpeech) + ".mp4");
      VideoStage.Record(k, w, Produce(env, AddSpeech, VideoStage.MuxCommand(w.background, speech, out), out))
    case Probe => VideoStage.Record(k, w, VideoStage.SpeechTimeDuration(env, ProbeDuration, speech))
    case Crop =>
      var out := Slash(tempDir, Name(env, CropVideo) + ".mp4");
      VideoStage.Record(k, w, Produce(env, CropVideo, VideoStage.CropCommand(w.withSpeech, w.duration, out), out))
    case Caption =>
      VideoStage.Record(k, w, Produce(env, Subtitles, VideoStage.SubtitleCommand(w.cropped, CaptionName(env)), Slash(tempDir, CaptionName(env))))
    case ExportFile =>
      VideoStage.Record(k, w, Produce(env, Export, VideoStage.ExportCommand(w.captioned, ExportPath(env)), ExportPath(env)))
  }

  /** What the sub-steps that run a command hand to it and report back. */
  lemma SubstepOutcome(k: VideoStage.SubStep, tempDir: string, speech: string, w: VideoStage.Work, env: Env)
    ensures var s := Substep(k, tempDir, speech, w, env);
      && (k == VideoStage.Mux ==>
            s.trace[0].op == Exec(VideoStage.MuxCommand(w.background, speech, Slash(tempDir, Name(env, AddSpeech) + ".mp4"))))
      && (k == VideoStage.Caption ==>
            && s.trace[0].op == Exec(VideoStage.SubtitleCommand(w.cropped, CaptionName(env)))
            && (s.out.Ok? ==> s.out.value.captioned == Slash(tempDir, CaptionName(env))))
      && (k == VideoStage.ExportFile ==> s.out.Ok? ==> s.out.value.exported == ExportPath(env))
  {
  }

  function StepOf(tempDir: string, speech: string, env: Env): (step: (VideoStage.SubStep, VideoStage.Work) -> Step<VideoStage.Work>)
    ensures OneEvent(step)
  {
    (k, w) => Substep(k, tempDir, speech, w, env)
  }

  /** The older `generateVideo()`: the six sub-steps, fail-fast, ending in
      the exported file. */
  function GenerateVideo(tempDir: string, speech: string, env: Env): (s: Step<string>)
    ensures 0 < |s.trace| <= |VideoStage.VideoSteps|
    ensures forall i :: 0 <= i < |s.trace| ==> s.trace[i].site == VideoStage.SiteOf(VideoStage.VideoSteps[i])
    ensures |s.trace| < |VideoStage.VideoSteps| ==> s.out.Err?
    ensures s.out.Ok? ==> s.out.value == ExportPath(env)
    ensures var r := Run(VideoStage.VideoSteps, VideoStage.Blank, StepOf(tempDir, speech, env));
      s.trace == r.trace && (s.out.Err? <==> r.out.Err?) && (s.out.Err? ==> s.out.error == r.out.error)
  {
    var step := StepOf(tempDir, speech, env);
    var r := Run(VideoStage.VideoSteps, VideoStage.Blank, step);
    RunSites(VideoStage.VideoSteps, VideoStage.Blank, step, VideoStage.SiteOf);
    if r.out.Ok? then
      RunLast(VideoStage.VideoSteps, VideoStage.Blank, step);
      SubstepOutcome(VideoStage.ExportFile, tempDir, speech, Run(VideoStage.VideoSteps[..5], VideoStage.Blank, step).out.value, env);
      Step(Ok(r.out.value.exported), r.trace)
    else
      Step(Err(r.out.error), r.trace)
  }

  /** With an empty background folder the process does not stop: it goes
      on to run ffmpeg with an empty input path. */
  lemma EmptyFolderReachesFfmpeg(tempDir: string, speech: string, env: Env)
    requires env.readDir(VideoStage.BgVideoPath) == Ok([])
    ensures var t := GenerateVideo(tempDir, speech, env).trace;
      |t| >= 2 && t[1].op == Exec(VideoStage.MuxCommand("", speech, Slash(tempDir, Name(env, AddSpeech) + ".mp4")))
  {
    var step := StepOf(tempDir, speech, env);
    var first := Substep(VideoStage.Select, tempDir, speech, VideoStage.Blank, env);
    assert first.out == Ok(VideoStage.Blank.(background := ""));
    assert VideoStage.VideoSteps[..1] == [VideoStage.Select];
    assert Run([VideoStage.Select], VideoStage.Blank, step) == first by {
      assert [VideoStage.Select][1..] == [];
    }
    RunSnoc(VideoStage.VideoSteps[..2], VideoStage.Blank, step);
    assert VideoStage.VideoSteps[..2][..1] == [VideoStage.Select];
    SubstepOutcome(VideoStage.Mux, tempDir, speech, first.out.value, env);
    var r2 := Run(VideoStage.VideoSteps[..2], VideoStage.Blank, step);
    assert |r2.trace| == 2 && r2.trace[1].op == Exec(VideoStage.MuxCommand("", speech, Slash(tempDir, Name(env, AddSpeech) + ".mp4")));
    RunStepwise(VideoStage.VideoSteps, VideoStage.Blank, step, 1);
  }

  /** `addVideoSubtitles` tells the script to write a bare file name, which
      the script resolves against its own working directory, yet reports a
      path inside the temporary directory: the path handed on is not the
      file the script wrote. */
  lemma CaptionPathMismatch(tempDir: string, speech: string, w: VideoStage.Work, env: Env)
    ensures var s := Substep(VideoStage.Caption, tempDir, speech, w, env);
      var written := Output(VideoStage.SubtitleCommand(w.cropped, CaptionName(env)));
      s.out.Ok? ==> s.out.value.captioned == Slash(tempDir, written) && s.out.value.captioned != written
  {
    SubstepOutcome(VideoStage.Caption, tempDir, speech, w, env);
  }

  /** The files the older process writes itself: the muxed and cropped
      videos in the temporary directory, the export under ./generated. */
  lemma SubstepPlacement(k: VideoStage.SubStep, tempDir: string, speech: string, w: VideoStage.Work, env: Env)
    ensures var s := Substep(k, tempDir, speech, w, env);
      && (k == VideoStage.Mux && s.out.Ok? ==> InDir(s.out.value.withSpeech, tempDir))
      && (k == VideoStage.Crop && s.out.Ok? ==> InDir(s.out.value.cropped, tempDir))
      && (k == VideoStage.ExportFile && s.out.Ok? ==>
            InDir(s.out.value.exported, VideoStage.GeneratedPath) && HasSuffix(s.out.value.exported, ".mp4"))
  {
    match k
    case Mux => JoinInDir(tempDir, Name(env, AddSpeech) + ".mp4");
    case Crop => JoinInDir(tempDir, Name(env, CropVideo) + ".mp4");
    case ExportFile =>
      var n := Name(env, Export) + ".mp4";
      JoinInDir(VideoStage.GeneratedPath, n);
      EndsWith(Name(env, Export), ".mp4");
      SuffixOfSuffix(ExportPath(env), n, ".mp4");
    case _ =>
  }

  /** The older processes; the speech and video processes hold the
      temporary directory they were built with. */
  datatype Stage = TextGen | SpeechGen(tempDir: string) | VideoGen(tempDir: string)

  /** A process's own work on the string it received. */
  function Work(k: Stage, x: string, env: Env): Step<string> {
    match k
    case TextGen => GenerateText(env, x)
    case SpeechGen(dir) => GenerateSpeech(env, dir, x)
    case VideoGen(dir) => GenerateVideo(dir, x, env)
  }

  function Stages(env: Env): (work: (Stage, string) -> Step<string>)
    ensures forall k, x :: work(k, x) == Work(k, x, env)
  {
    (k, x) => Work(k, x, env)
  }

  /** `Execute(request)` of the first process of `chain`: the request must
      be a string; each process hands its result to the next, and the last
      returns its own. */
  function Execute(chain: seq<Stage>, request: Value, work: (Stage, string) -> Step<string>): (s: Step<Value>)
    requires |chain| > 0
    ensures !request.Str? ==> s == Step(Err(ErrInvalidRequest), [])
    ensures s.out.Ok? ==> s.out.value.Str?
    decreases |chain|
  {
    if !request.Str? then Step(Err(ErrInvalidRequest), [])
    else
      var r := work(chain[0], request.s);
      if r.out.Err? then Step(Err(r.out.error), r.trace)
      else if |chain| == 1 then Step(Ok(Str(r.out.value)), r.trace)
      else
        var rest := Execute(chain[1..], Str(r.out.value), work);
        Step(rest.out, r.trace + rest.trace)
  }

  /** A three-process chain, spelled out: each result is the next
      process's input, and the first error ends the chain. */
  lemma ExecuteThree(a: Stage, b: Stage, d: Stage, x: string, work: (Stage, string) -> Step<string>)
    ensures Execute([a, b, d], Str(x), work) ==
      var s1 := work(a, x);
      if s1.out.Err? then Step(Err(s1.out.error), s1.trace)
      else
        var s2 := work(b, s1.out.value);
        if s2.out.Err? then Step(Err(s2.out.error), s1.trace + s2.trace)
        else
          var s3 := work(d, s2.out.value);
          Step(if s3.out.Ok? then Ok(Str(s3.out.value)) else Err(s3.out.error), s1.trace + s2.trace + s3.trace)
  {
    assert [a, b, d][1..] == [b, d] && [b, d][1..] == [d];
    var s1 := work(a, x);
    if s1.out.Ok? {
      var s2 := work(b, s1.out.value);
      if s2.out.Ok? {
        var s3 := work(d, s2.out.value);
        var last := Execute([d], Str(s2.out.value), work);
        assert last == Step(if s3.out.Ok? then Ok(Str(s3.out.value)) else Err(s3.out.error), s3.trace);
        assert Execute([b, d], Str(s1.out.value), work) == Step(last.out, s2.trace + s3.trace);
        assert s1.trace + (s2.trace + s3.trace) == s1.trace + s2.trace + s3.trace;
      }
    }
  }

  /** The older `Generate(message)`: a temporary directory, the chain on
      the message, and the directory removed when the chain returns. */
  function Generate(message: string, env: Env): (s: Step<string>)
    ensures env.mkdirTemp(Pattern).Err? ==>
              s == Step(Err(env.mkdirTemp(Pattern).error), [Event(Workspace, MkdirTemp(Pattern))])
    ensures env.mkdirTemp(Pattern).Ok? ==>
              var dir := env.mkdirTemp(Pattern).value;
              var e := Execute(Chain(dir), Str(message), Stages(env));
              && s.trace == [Event(Workspace, MkdirTemp(Pattern))] + e.trace + [Event(Workspace, RemoveAll(dir))]
              && (s.out.Ok? <==> e.out.Ok?)
              && (s.out.Ok? ==> e.out.value == Str(s.out.value))
              && (s.out.Err? ==> s.out.error == e.out.error)
  {
    var mk := Event(Workspace, MkdirTemp(Pattern));
    match env.mkdirTemp(Pattern)
    case Err(e) => Step(Err(e), [mk])
    case Ok(dir) =>
      var r := Execute(Chain(dir), Str(message), Stages(env));
      var out :=
        if r.out.Err? then Err(r.out.error)
        else if r.out.value.Str? then Ok(r.out.value.s)
        else Err(ErrNoVideoResult);
      Step(out, [mk] + r.trace + [Event(Workspace, RemoveAll(dir))])
  }

  const Pattern: string := "ai-video-generator"

  function Chain(dir: string): seq<Stage> {
    [TextGen, SpeechGen(dir), VideoGen(dir)]
  }

  /** The older chain speaks the cleaned model output and builds the video
      from that speech file; the first failing process's error is returned
      as it is. */
  lemma ChainOutcome(dir: string, message: string, env: Env)
    ensures var e := Execute(Chain(dir), Str(message), Stages(env));
      var text := GenerateText(env, message);
      && (text.out.Err? ==> e == Step(Err(text.out.error), text.trace))
      && (text.out.Ok? ==>
            var speech := GenerateSpeech(env, dir, text.out.value);
            && (speech.out.Err? ==> e == Step(Err(speech.out.error), text.trace + speech.trace))
            && (speech.out.Ok? ==>
                  var video := GenerateVideo(dir, speech.out.value, env);
                  && e.trace == text.trace + speech.trace + video.trace
                  && (e.out.Ok? <==> video.out.Ok?)
                  && (e.out.Ok? ==> e.out.value == Str(ExportPath(env)))
                  && (e.out.Err? ==> e.out.error == video.out.error)))
  {
    ExecuteThree(TextGen, SpeechGen(dir), VideoGen(dir), message, Stages(env));
  }

  /** The older `Generate` returns the exported path when every process
      succeeds and the first failing process's error otherwise; the
      directory is removed either way. */
  lemma GenerateOutcome(message: string, env: Env)
    requires env.mkdirTemp(Pattern).Ok?
    ensures var dir := env.mkdirTemp(Pattern).value;
      var g := Generate(message, env);
      var e := Execute(Chain(dir), Str(message), Stages(env));
      && g.trace[0] == Event(Workspace, MkdirTemp(Pattern))
      && g.trace[|g.trace| - 1] == Event(Workspace, RemoveAll(dir))
      && (g.out.Ok? ==> g.out.value == ExportPath(env))
      && (g.out.Err? ==> e.out.Err? && g.out.error == e.out.error)
  {
    ChainOutcome(env.mkdirTemp(Pattern).value, message, env);
  }
}

=== FILE: video_alt_stage.dfy ===
/** The alternative video stage of the current chain
    (internal/processes/video.go), which declares the same
    `VideoGenerationProcess` as internal/processes/video_process.go: pick a
    random `.mp4` clip, replace its audio with the speech, crop it to the
    speech's length and burn in captions with the autocap script. */
module VideoAltStage {
  import opened Wrappers
  import opened Effects
  import opened Context
  import opened Paths
  import opened Random
  import opened Strings
  import opened FailFast

  const BgVideoWithAudio: string := "background-video-with-audio.mp4"
  const VideoLengthCrop: string := "cropped-length-video.mp4"
  const VideoFolder: string := "./resources/videos"
  const AutocapScript: string := "./scripts/captions.py"

  const ErrReadDir: string := "error reading directory"
  const ErrNoVideo: string := "no video files found in folder "
  const ErrOverwrite: string := "error overwriting video audio"
  const ErrDuration: string := "error getting audio duration"
  const ErrCrop: string := "error cropping video length"
  const ErrAutocap: string := "error running autocap"
  const ErrExecOverwrite: string := "error executing overwriteVideoAudio"
  const ErrExecCrop: string := "error executing cropVideoLength"
  const ErrExecAutocap: string := "error executing runAutocap"

  /** The `.mp4` entries of a listing, joined to the folder, in listing order. */
  function Mp4Videos(folder: string, names: seq<string>): (vs: seq<string>)
    ensures |vs| <= |names|
  {
    if |names| == 0 then []
    else
      var rest := Mp4Videos(folder, names[1..]);
      if HasSuffix(names[0], ".mp4") then [Join(folder, names[0])] + rest else rest
  }

  /** The listing filter keeps exactly the `.mp4` entries. */
  lemma {:induction false} Mp4VideosExact(folder: string, names: seq<string>)
    ensures var vs := Mp4Videos(folder, names);
      && (forall i :: 0 <= i < |names| && HasSuffix(names[i], ".mp4") ==> Join(folder, names[i]) in vs)
      && (forall v :: v in vs ==> exists i :: 0 <= i < |names| && HasSuffix(names[i], ".mp4") && v == Join(folder, names[i]))
  {
    if |names| > 0 {
      var rest := Mp4Videos(folder, names[1..]);
      var vs := Mp4Videos(folder, names);
      Mp4VideosExact(folder, names[1..]);
      forall i | 0 <= i < |names| && HasSuffix(names[i], ".mp4")
        ensures Join(folder, names[i]) in vs
      {
        if i > 0 {
          assert names[i] == names[1..][i - 1];
        }
      }
      forall v | v in vs
        ensures exists i :: 0 <= i < |names| && HasSuffix(names[i], ".mp4") && v == Join(folder, names[i])
      {
        if v in rest {
          var j :| 0 <= j < |names[1..]| && HasSuffix(names[1..][j], ".mp4") && v == Join(folder, names[1..][j]);
          assert names[j + 1] == names[1..][j];
        }
      }
    }
  }

  /** `rand.Seed(time.Now().Unix())`: whole seconds of the clock reading. */
  function Seconds(nanos: int): int {
    nanos / 1000000000
  }

  /** The global generator after `getRandomVideo` reseeds it; the same
      stream then serves `generateRandomWord`. */
  function Stream(env: Env): Draws {
    env.generator(Seconds(env.clock(RandomVideo)))
  }

  /** `getRandomVideo(folder)`. */
  function GetRandomVideo(env: Env, folder: string): (s: Step<string>)
    ensures s.trace == [Event(RandomVideo, ReadDir(folder))]
    ensures env.readDir(folder).Err? ==> s.out == Err(Wrap(ErrReadDir, env.readDir(folder).error))
    ensures env.readDir(folder).Ok? && |Mp4Videos(folder, env.readDir(folder).value)| == 0 ==>
              s.out == Err(ErrNoVideo + folder)
    ensures s.out.Ok? ==> s.out.value in Mp4Videos(folder, env.readDir(folder).value)
  {
    var trace := [Event(RandomVideo, ReadDir(folder))];
    match env.readDir(folder)
    case Err(e) => Step(Err(Wrap(ErrReadDir, e)), trace)
    case Ok(names) =>
      var videos := Mp4Videos(folder, names);
      if |videos| == 0 then Step(Err(ErrNoVideo + folder), trace)
      else Step(Ok(videos[Intn(Stream(env)(0), |videos|)]), trace)
  }

  /** The selection fails exactly when the listing holds no `.mp4` entry. */
  lemma RandomVideoSucceedsIff(env: Env, folder: string)
    requires env.readDir(folder).Ok?
    ensures var names := env.readDir(folder).value;
      GetRandomVideo(env, folder).out.Ok? <==> exists i :: 0 <= i < |names| && HasSuffix(names[i], ".mp4")
  {
    var names := env.readDir(folder).value;
    var vs := Mp4Videos(folder, names);
    Mp4VideosExact(folder, names);
    forall i | 0 <= i < |names| && HasSuffix(names[i], ".mp4")
      ensures |vs| > 0
    {
      assert Join(folder, names[i]) in vs;
    }
    if |vs| > 0 {
      assert vs[0] in vs;
      assert forall v :: v in vs ==> exists i :: 0 <= i < |names| && HasSuffix(names[i], ".mp4") && v == Join(folder, names[i]);
      var i :| 0 <= i < |names| && HasSuffix(names[i], ".mp4") && vs[0] == Join(folder, names[i]);
      assert GetRandomVideo(env, folder).out.Ok?;
    }
  }

  /** Only `.mp4` entries of the listing are chosen. */
  lemma RandomVideoIsMp4(env: Env, folder: string)
    requires env.readDir(folder).Ok?
    ensures var names := env.readDir(folder).value; var s := GetRandomVideo(env, folder);
      s.out.Ok? ==> exists i :: 0 <= i < |names| && HasSuffix(names[i], ".mp4") && s.out.value == Join(folder, names[i])
  {
    var names := env.readDir(folder).value;
    Mp4VideosExact(folder, names);
    var s := GetRandomVideo(env, folder);
    if s.out.Ok? {
      assert s.out.value in Mp4Videos(folder, names);
    }
  }

  /** Every `.mp4` entry can be chosen: the reseeded generator's first
      draw `j` selects the `j`-th of them. */
  lemma EveryVideoReachable(env: Env, folder: string, j: nat)
    requires env.readDir(folder).Ok? && j < |Mp4Videos(folder, env.readDir(folder).value)|
    requires Stream(env)(0) == j
    ensures GetRandomVideo(env, folder).out == Ok(Mp4Videos(folder, env.readDir(folder).value)[j])
  {
  }

  /** The codec and stream-mapping flags of the audio overwrite. */
  const OverwriteFlags: seq<string> := ["-c:v", "copy", "-c:a", "aac", "-map", "0:v:0", "-map", "1:a:0"]

  /** The flags that make ffprobe print the first audio stream's bare
      duration in seconds. */
  const AudioProbeFlags: seq<string> := ["-v", "error", "-select_streams", "a:0", "-show_entries", "stream=duration",
                                         "-of", "default=noprint_wrappers=1:nokey=1"]

  function OverwriteCommand(video: string, audio: string, output: string): (cmd: Command)
    ensures |cmd.args| == 13 && cmd.args[1] == video && cmd.args[3] == audio && Output(cmd) == output
  {
    Command(Ffmpeg, ["-i", video, "-i", audio] + OverwriteFlags + [output])
  }

  function AudioProbeCommand(audio: string): (cmd: Command)
    ensures |cmd.args| == 9 && Output(cmd) == audio
  {
    Command(Ffprobe, AudioProbeFlags + [audio])
  }

  function LengthCropCommand(video: string, duration: string, output: string): (cmd: Command)
    ensures |cmd.args| == 7 && cmd.args[1] == video && cmd.args[3] == duration && Output(cmd) == output
  {
    Command(Ffmpeg, ["-i", video, "-t", duration, "-c", "copy", output])
  }

  function AutocapCommand(video: string, output: string): (cmd: Command)
    ensures |cmd.args| == 4 && cmd.args[2] == video && Output(cmd) == output
  {
    Command(Python, [AutocapScript, "attach", video, output])
  }

  /** `overwriteVideoAudio(tempDir, video, audio)`: always the same file name. */
  function OverwriteVideoAudio(env: Env, tempDir: string, video: string, audio: string): (s: Step<string>)
    ensures s.trace == [Event(OverwriteAudio, Exec(OverwriteCommand(video, audio, Join(tempDir, BgVideoWithAudio))))]
    ensures s.out.Ok? <==> env.run(OverwriteCommand(video, audio, Join(tempDir, BgVideoWithAudio))).Ok?
    ensures s.out.Ok? ==> s.out.value == Join(tempDir, BgVideoWithAudio)
    ensures s.out.Err? ==> s.out.error == Wrap(ErrOverwrite, env.run(OverwriteCommand(video, audio, Join(tempDir, BgVideoWithAudio))).error)
  {
    var r := Produce(env, OverwriteAudio, OverwriteCommand(video, audio, Join(tempDir, BgVideoWithAudio)), Join(tempDir, BgVideoWithAudio));
    Step(if r.out.Ok? then r.out else Err(Wrap(ErrOverwrite, r.out.error)), r.trace)
  }

  /** `getAudioDuration(audio)`: ffprobe's output with surrounding white
      space removed, passed on as text. */
  function GetAudioDuration(env: Env, audio: string): (s: Step<string>)
    ensures s.trace == [Event(ProbeAudio, Exec(AudioProbeCommand(audio)))]
    ensures s.out.Ok? <==> env.run(AudioProbeCommand(audio)).Ok?
    ensures s.out.Ok? ==> s.out.value == Trim(Go, env.run(AudioProbeCommand(audio)).value)
    ensures s.out.Err? ==> s.out.error == Wrap(ErrDuration, env.run(AudioProbeCommand(audio)).error)
  {
    var trace := [Event(ProbeAudio, Exec(AudioProbeCommand(audio)))];
    match env.run(AudioProbeCommand(audio))
    case Err(e) => Step(Err(Wrap(ErrDuration, e)), trace)
    case Ok(output) => Step(Ok(Trim(Go, output)), trace)
  }

  /** The crop half of `cropVideoLength`, run once the duration is known. */
  function CropToLength(env: Env, tempDir: string, video: string, duration: string): (s: Step<string>)
    ensures s.trace == [Event(CropLength, Exec(LengthCropCommand(video, duration, Join(tempDir, VideoLengthCrop))))]
    ensures s.out.Ok? <==> env.run(LengthCropCommand(video, duration, Join(tempDir, VideoLengthCrop))).Ok?
    ensures s.out.Ok? ==> s.out.value == Join(tempDir, VideoLengthCrop)
    ensures s.out.Err? ==> s.out.error == Wrap(ErrCrop, env.run(LengthCropCommand(video, duration, Join(tempDir, VideoLengthCrop))).error)
  {
    var r := Produce(env, CropLength, LengthCropCommand(video, duration, Join(tempDir, VideoLengthCrop)), Join(tempDir, VideoLengthCrop));
    Step(if r.out.Ok? then r.out else Err(Wrap(ErrCrop, r.out.error)), r.trace)
  }

  /** The name `runAutocap` gives the captioned video. */
  function AutocapName(env: Env): string {
    RandomWord(7, k => Stream(env)(k + 1)) + ".mp4"
  }

  /** `runAutocap(video)`. */
  function RunAutocap(env: Env, video: string): (s: Step<string>)
    ensures s.trace == [Event(Autocap, Exec(AutocapCommand(video, AutocapName(env))))]
    ensures s.out.Ok? <==> env.run(AutocapCommand(video, AutocapName(env))).Ok?
    ensures s.out.Ok? ==> s.out.value == AutocapName(env)
    ensures s.out.Err? ==> s.out.error == Wrap(ErrAutocap, env.run(AutocapCommand(video, AutocapName(env))).error)
  {
    var r := Produce(env, Autocap, AutocapCommand(video, AutocapName(env)), AutocapName(env));
    Step(if r.out.Ok? then r.out else Err(Wrap(ErrAutocap, r.out.error)), r.trace)
  }

  /** The autocap result is a bare file name: seven lower-case letters and
      `.mp4`, with no directory part. */
  lemma AutocapNameShape(env: Env)
    ensures var n := AutocapName(env);
      |n| == 11 && IsLowerWord(n[..7]) && n[7..] == ".mp4" && forall k :: 0 <= k < |n| ==> n[k] != '/'
  {
    var w := RandomWord(7, k => Stream(env)(k + 1));
    var n := AutocapName(env);
    assert n[..7] == w && n[7..] == ".mp4";
    forall k | 0 <= k < |n|
      ensures n[k] != '/'
    {
      if k < 7 {
        assert n[k] == w[k] && w[k] in Letters;
      }
    }
  }

  /** The values `generateVideo` produces on its way. */
  datatype Work = Work(video: string, withAudio: string, duration: string, cropped: string, captioned: string)

  const Blank: Work := Work("", "", "", "", "")

  /** The sub-steps of `generateVideo`; `cropVideoLength` is its probe
      followed by its crop. */
  datatype SubStep = PickClip | Dub | Measure | Shorten | Caption

  const VideoSteps: seq<SubStep> := [PickClip, Dub, Measure, Shorten, Caption]

  function SiteOf(k: SubStep): Site {
    match k
    case PickClip => RandomVideo
    case Dub => OverwriteAudio
    case Measure => ProbeAudio
    case Shorten => CropLength
    case Caption => Autocap
  }

  function Field(k: SubStep, w: Work): string {
    match k
    case PickClip => w.video
    case Dub => w.withAudio
    case Measure => w.duration
    case Shorten => w.cropped
    case Caption => w.captioned
  }

  function With(k: SubStep, w: Work, x: string): (r: Work)
    ensures Field(k, r) == x
  {
    match k
    case PickClip => w.(video := x)
    case Dub => w.(withAudio := x)
    case Measure => w.(duration := x)
    case Shorten => w.(cropped := x)
    case Caption => w.(captioned := x)
  }

  /** Records the outcome of sub-step `k` in `w`, passing its error on
      unchanged, as `generateVideo` does for the clip selection. */
  function Keep(k: SubStep, w: Work, r: Step<string>): (s: Step<Work>)
    ensures s.trace == r.trace && (s.out.Ok? <==> r.out.Ok?)
    ensures s.out.Ok? ==> s.out.value == With(k, w, r.out.value)
    ensures s.out.Err? ==> s.out.error == r.out.error
  {
    Step(if r.out.Ok? then Ok(With(k, w, r.out.value)) else Err(r.out.error), r.trace)
  }

  /** Records the outcome of sub-step `k` in `w`, wrapping its error with
      the prefix `generateVideo` gives that sub-step. */
  function Record(k: SubStep, w: Work, prefix: string, r: Step<string>): (s: Step<Work>)
    ensures s.trace == r.trace && (s.out.Ok? <==> r.out.Ok?)
    ensures s.out.Ok? ==> s.out.value == With(k, w, r.out.value)
    ensures s.out.Err? ==> s.out.error == Wrap(prefix, r.out.error)
  {
    Step(if r.out.Ok? then Ok(With(k, w, r.out.value)) else Err(Wrap(prefix, r.out.error)), r.trace)
  }

  /** One sub-step of `generateVideo`. */
  function Substep(k: SubStep, c: GenerationContext, w: Work, env: Env): (s: Step<Work>)
    ensures |s.trace| == 1 && s.trace[0].site == SiteOf(k)
    ensures s.out.Ok? ==> s.out.value == With(k, w, Field(k, s.out.value))
  {
    match k
    case PickClip => Keep(k, w, GetRandomVideo(env, VideoFolder))
    case Dub => Record(k, w, ErrExecOverwrite, OverwriteVideoAudio(env, c.tempDir, w.video, c.speechFile))
    case Measure =>
      var d := GetAudioDuration(env, c.speechFile);
      Record(k, w, ErrExecCrop,
             Step(if d.out.Ok? then d.out else Err(Wrap(ErrDuration, d.out.error)), d.trace))
    case Shorten => Record(k, w, ErrExecCrop, CropToLength(env, c.tempDir, w.withAudio, w.duration))
    case Caption => Record(k, w, ErrExecAutocap, RunAutocap(env, w.cropped))
  }

  /** What each sub-step runs, reads and reports. */
  lemma SubstepOutcome(k: SubStep, c: GenerationContext, w: Work, env: Env)
    ensures var s := Substep(k, c, w, env);
      && (k == PickClip ==> (s.out.Ok? <==> GetRandomVideo(env, VideoFolder).out.Ok?)
                            && (s.out.Ok? ==> s.out.value.video == GetRandomVideo(env, VideoFolder).out.value)
                            && (s.out.Err? ==> s.out.error == GetRandomVideo(env, VideoFolder).out.error))
      && (k == Dub ==> var cmd := OverwriteCommand(w.video, c.speechFile, Join(c.tempDir, BgVideoWithAudio));
                       && s.trace[0].op == Exec(cmd) && (s.out.Ok? <==> env.run(cmd).Ok?)
                       && (s.out.Ok? ==> s.out.value.withAudio == Join(c.tempDir, BgVideoWithAudio))
                       && (s.out.Err? ==> s.out.error == Wrap(ErrExecOverwrite, Wrap(ErrOverwrite, env.run(cmd).error))))
      && (k == Measure ==> var cmd := AudioProbeCommand(c.speechFile);
                           && s.trace[0].op == Exec(cmd) && (s.out.Ok? <==> env.run(cmd).Ok?)
                           && (s.out.Err? ==> s.out.error == Wrap(ErrExecCrop,
                                 Wrap(ErrDuration, Wrap(ErrDuration, env.run(cmd).error)))))
      && (k == Shorten ==> var cmd := LengthCropCommand(w.withAudio, w.duration, Join(c.tempDir, VideoLengthCrop));
                           && s.trace[0].op == Exec(cmd) && (s.out.Ok? <==> env.run(cmd).Ok?)
                           && (s.out.Ok? ==> s.out.value.cropped == Join(c.tempDir, VideoLengthCrop))
                           && (s.out.Err? ==> s.out.error == Wrap(ErrExecCrop, Wrap(ErrCrop, env.run(cmd).error))))
      && (k == Caption ==> var cmd := AutocapCommand(w.cropped, AutocapName(env));
                           && s.trace[0].op == Exec(cmd) && (s.out.Ok? <==> env.run(cmd).Ok?)
                           && (s.out.Ok? ==> s.out.value.captioned == AutocapName(env))
                           && (s.out.Err? ==> s.out.error == Wrap(ErrExecAutocap, Wrap(ErrAutocap, env.run(cmd).error))))
  {
  }

  /** The sub-steps as the runner sees them. */
  function StepOf(c: GenerationContext, env: Env): (step: (SubStep, Work) -> Step<Work>)
    ensures OneEvent(step)
  {
    (k, w) => Substep(k, c, w, env)
  }

  /** `generateVideo(context)`: the sub-steps in order, fail-fast; the
      result is the autocap output name. */
  function GenerateVideo(c: GenerationContext, env: Env): (s: Step<string>)
    ensures 0 < |s.trace| <= |VideoSteps|
    ensures forall i :: 0 <= i < |s.trace| ==> s.trace[i].site == SiteOf(VideoSteps[i])
    ensures |s.trace| < |VideoSteps| ==> s.out.Err?
    ensures s.out.Ok? ==> s.out.value == AutocapName(env)
    ensures var r := Run(VideoSteps, Blank, StepOf(c, env));
      s.trace == r.trace && (s.out.Err? <==> r.out.Err?) && (s.out.Err? ==> s.out.error == r.out.error)
  {
    var r := Run(VideoSteps, Blank, StepOf(c, env));
    RunSites(VideoSteps, Blank, StepOf(c, env), SiteOf);
    if r.out.Ok? then
      RunLast(VideoSteps, Blank, StepOf(c, env));
      SubstepOutcome(Caption, c, Run(VideoSteps[..4], Blank, StepOf(c, env)).out.value, env);
      Step(Ok(r.out.value.captioned), r.trace)
    else
      Step(Err(r.out.error), r.trace)
  }

  /** With a clip found and its audio replaced, the first two sub-steps
      succeed. */
  lemma ClipAndDubSucceed(c: GenerationContext, env: Env)
    requires GetRandomVideo(env, VideoFolder).out.Ok?
    requires env.run(OverwriteCommand(GetRandomVideo(env, VideoFolder).out.value, c.speechFile, Join(c.tempDir, BgVideoWithAudio))).Ok?
    ensures Run(VideoSteps[..2], Blank, StepOf(c, env)).out.Ok?
  {
    var step := StepOf(c, env);
    SubstepOutcome(PickClip, c, Blank, env);
    var w1 := Substep(PickClip, c, Blank, env).out.value;
    SubstepOutcome(Dub, c, w1, env);
    assert Run([PickClip], Blank, step) == Substep(PickClip, c, Blank, env) by {
      assert [PickClip][1..] == [];
    }
    RunSnoc([PickClip, Dub], Blank, step);
    assert [PickClip, Dub][..1] == [PickClip];
    assert VideoSteps[..2] == [PickClip, Dub];
  }

  /** A failed duration probe ends the stage before any crop command runs,
      with the probe's error wrapped three times. */
  lemma ProbeFailureStopsCrop(c: GenerationContext, env: Env)
    requires GetRandomVideo(env, VideoFolder).out.Ok?
    requires env.run(OverwriteCommand(GetRandomVideo(env, VideoFolder).out.value, c.speechFile, Join(c.tempDir, BgVideoWithAudio))).Ok?
    requires env.run(AudioProbeCommand(c.speechFile)).Err?
    ensures var s := GenerateVideo(c, env);
      && |s.trace| == 3
      && s.out == Err(Wrap(ErrExecCrop, Wrap(ErrDuration,
                        Wrap(ErrDuration, env.run(AudioProbeCommand(c.speechFile)).error))))
  {
    var step := StepOf(c, env);
    ClipAndDubSucceed(c, env);
    SubstepOutcome(Measure, c, Run(VideoSteps[..2], Blank, step).out.value, env);
    RunStopsAtFailure(VideoSteps, Blank, step, 2);
  }

  /** A trace of the first three sub-steps has neither a crop nor an
      autocap event. */
  lemma EarlySites(t: seq<Event>)
    requires |t| <= 3 && forall i :: 0 <= i < |t| ==> t[i].site == SiteOf(VideoSteps[i])
    ensures forall i :: 0 <= i < |t| ==> t[i].site != CropLength && t[i].site != Autocap
  {
    forall i | 0 <= i < |t|
      ensures t[i].site != CropLength && t[i].site != Autocap
    {
      assert VideoSteps[i] == [PickClip, Dub, Measure][i];
    }
  }

  /** A run that stopped by the duration probe never cut the video. */
  lemma StoppedBeforeCrop(c: GenerationContext, env: Env)
    requires |GenerateVideo(c, env).trace| <= 3
    ensures forall i :: 0 <= i < |GenerateVideo(c, env).trace| ==>
              GenerateVideo(c, env).trace[i].site != CropLength && GenerateVideo(c, env).trace[i].site != Autocap
  {
    EarlySites(GenerateVideo(c, env).trace);
  }

  /** The work of `Execute` on a context: only the generated video field
      is set. */
  function Apply(c: GenerationContext, env: Env): (s: Step<GenerationContext>)
    ensures s.trace == GenerateVideo(c, env).trace
    ensures s.out.Ok? <==> GenerateVideo(c, env).out.Ok?
    ensures s.out.Ok? ==> s.out.value == c.(generatedVideo := GenerateVideo(c, env).out.value)
    ensures s.out.Err? ==> s.out.error == GenerateVideo(c, env).out.error
  {
    var v := GenerateVideo(c, env);
    Step(if v.out.Ok? then Ok(c.(generatedVideo := v.out.value)) else Err(v.out.error), v.trace)
  }
}

=== FILE: video_stage.dfy ===
/** The video stage of the current chain (internal/processes/video_process.go):
    pick a background clip, lay the speech over it, crop it to the speech's
    length, burn in captions and export the result to the generated folder.

    The command builders and the duration probe are shared with the older
    iterations, which issue the same ffmpeg / ffprobe / python commands. */
module VideoStage {
  import opened Wrappers
  import opened Effects
  import opened Context
  import opened Paths
  import opened Random
  import opened Strings
  import opened Timestamp
  import opened FailFast

  const BgVideoPath: string := "./resources/videos"
  const CaptionsScript: string := "./pkg/captions.py"
  const GeneratedPath: string := "./generated"

  const ErrReadBackground: string := "error reading background videos directory"
  const ErrNoBackground: string := "no files found in the background videos directory"

  /** `p` is the path of one of the directory entries `names` of `dir`. */
  predicate IsEntryOf(p: string, dir: string, names: seq<string>) {
    exists i :: 0 <= i < |names| && p == Join(dir, names[i])
  }

  /** The codec and stream-mapping flags of the mux command. */
  const MuxFlags: seq<string> := ["-c:v", "copy", "-c:a", "aac", "-strict", "experimental", "-map", "0:v:0", "-map", "1:a:0"]

  /** The flags that make ffprobe print the bare duration in seconds. */
  const ProbeFlags: seq<string> := ["-v", "error", "-show_entries", "format=duration", "-of", "default=noprint_wrappers=1:nokey=1"]

  function MuxCommand(video: string, speech: string, output: string): (cmd: Command)
    ensures |cmd.args| == 15 && cmd.args[1] == video && cmd.args[3] == speech && Output(cmd) == output
  {
    Command(Ffmpeg, ["-i", video, "-i", speech] + MuxFlags + [output])
  }

  function ProbeCommand(speech: string): (cmd: Command)
    ensures |cmd.args| == 7 && Output(cmd) == speech
  {
    Command(Ffprobe, ProbeFlags + [speech])
  }

  function CropCommand(video: string, duration: string, output: string): (cmd: Command)
    ensures |cmd.args| == 7 && cmd.args[1] == video && cmd.args[5] == duration && Output(cmd) == output
  {
    Command(Ffmpeg, ["-i", video, "-c", "copy", "-t", duration, output])
  }

  function SubtitleCommand(video: string, output: string): (cmd: Command)
    ensures |cmd.args| == 3 && cmd.args[1] == video && Output(cmd) == output
  {
    Command(Python, [CaptionsScript, video, output])
  }

  function ExportCommand(video: string, output: string): (cmd: Command)
    ensures |cmd.args| == 5 && cmd.args[1] == video && Output(cmd) == output
  {
    Command(Ffmpeg, ["-i", video, "-codec", "copy", output])
  }

  /** `selectBackgroundVideo()`: a uniformly drawn entry of the background
      folder; an unreadable or empty folder is an error. */
  function SelectBackgroundVideo(env: Env): (s: Step<string>)
    ensures s.trace == [Event(SelectBackground, ReadDir(BgVideoPath))]
    ensures s.out.Ok? <==> env.readDir(BgVideoPath).Ok? && |env.readDir(BgVideoPath).value| > 0
    ensures s.out.Ok? ==> IsEntryOf(s.out.value, BgVideoPath, env.readDir(BgVideoPath).value)
    ensures env.readDir(BgVideoPath).Err? ==>
              s.out == Err(Wrap(ErrReadBackground, env.readDir(BgVideoPath).error))
    ensures env.readDir(BgVideoPath) == Ok([]) ==> s.out == Err(ErrNoBackground)
  {
    var trace := [Event(SelectBackground, ReadDir(BgVideoPath))];
    match env.readDir(BgVideoPath)
    case Err(e) => Step(Err(Wrap(ErrReadBackground, e)), trace)
    case Ok(names) =>
      if |names| == 0 then Step(Err(ErrNoBackground), trace)
      else
        var i := Intn(env.draws(0), |names|);
        Step(Ok(Join(BgVideoPath, names[i])), trace)
  }

  /** Every entry of the folder can be the one selected. */
  lemma SelectBackgroundReaches(env: Env, i: nat)
    requires env.readDir(BgVideoPath).Ok? && i < |env.readDir(BgVideoPath).value|
    requires env.draws(0) == i
    ensures SelectBackgroundVideo(env).out == Ok(Join(BgVideoPath, env.readDir(BgVideoPath).value[i]))
  {
  }

  /** A fresh `.mp4` name inside `dir` for the output of the sub-step at `site`. */
  function Scratch(dir: string, env: Env, site: Site): string {
    Join(dir, env.token(site) + ".mp4")
  }

  /** `addSpeechToVideo(video, speech, tempDir)`. */
  function AddSpeechToVideo(env: Env, video: string, speech: string, tempDir: string): (s: Step<string>)
    ensures s == Produce(env, AddSpeech, MuxCommand(video, speech, Scratch(tempDir, env, AddSpeech)), Scratch(tempDir, env, AddSpeech))
  {
    var output := Scratch(tempDir, env, AddSpeech);
    Produce(env, AddSpeech, MuxCommand(video, speech, output), output)
  }

  /** `getSpeechTimeDuration(speech)`: ffprobe's output, trimmed, parsed as
      seconds and printed as `HH:MM:SS.mmm`. Probe and parse errors pass
      through unwrapped. */
  function SpeechTimeDuration(env: Env, site: Site, speech: string): (s: Step<string>)
    ensures s.trace == [Event(site, Exec(ProbeCommand(speech)))]
    ensures s.out.Ok? <==> env.run(ProbeCommand(speech)).Ok? && env.parseFloat(Trim(Go, env.run(ProbeCommand(speech)).value)).Ok?
    ensures s.out.Ok? ==> s.out.value == FormatDuration(env.parseFloat(Trim(Go, env.run(ProbeCommand(speech)).value)).value)
    ensures env.run(ProbeCommand(speech)).Err? ==> s.out == Err(env.run(ProbeCommand(speech)).error)
  {
    var trace := [Event(site, Exec(ProbeCommand(speech)))];
    match env.run(ProbeCommand(speech))
    case Err(e) => Step(Err(e), trace)
    case Ok(output) =>
      match env.parseFloat(Trim(Go, output))
      case Err(e) => Step(Err(e), trace)
      case Ok(d) => Step(Ok(FormatDuration(d)), trace)
  }

  /** The `-t` argument is the probed duration cut to whole milliseconds:
      for a speech under 100 hours it is twelve characters `HH:MM:SS.mmm`
      that read back as fields totalling at most the duration, less than a
      millisecond short of it. */
  lemma DurationArgument(env: Env, site: Site, speech: string)
    requires SpeechTimeDuration(env, site, speech).out.Ok?
    requires var d := env.parseFloat(Trim(Go, env.run(ProbeCommand(speech)).value)).value; 0.0 <= d < 360000.0
    ensures var d := env.parseFloat(Trim(Go, env.run(ProbeCommand(speech)).value)).value;
            var s := SpeechTimeDuration(env, site, speech).out.value;
      && |s| == 12 && s[2] == ':' && s[5] == ':' && s[8] == '.'
      && IsDigits(s[0..2]) && IsDigits(s[3..5]) && IsDigits(s[6..8]) && IsDigits(s[9..12])
      && TotalMillis(ParseClock(s)) as real <= d * 1000.0 < TotalMillis(ParseClock(s)) as real + 1.0
  {
    var d := env.parseFloat(Trim(Go, env.run(ProbeCommand(speech)).value)).value;
    DurationRoundTrip(d);
  }

  /** `cropVideoDuration(video, duration, tempDir)`. */
  function CropVideoDuration(env: Env, video: string, duration: string, tempDir: string): (s: Step<string>)
    ensures s == Produce(env, CropVideo, CropCommand(video, duration, Scratch(tempDir, env, CropVideo)), Scratch(tempDir, env, CropVideo))
  {
    var output := Scratch(tempDir, env, CropVideo);
    Produce(env, CropVideo, CropCommand(video, duration, output), output)
  }

  /** `addVideoSubtitles(video, tempDir)`. */
  function AddVideoSubtitles(env: Env, video: string, tempDir: string): (s: Step<string>)
    ensures s == Produce(env, Subtitles, SubtitleCommand(video, Scratch(tempDir, env, Subtitles)), Scratch(tempDir, env, Subtitles))
  {
    var output := Scratch(tempDir, env, Subtitles);
    Produce(env, Subtitles, SubtitleCommand(video, output), output)
  }

  /** `exportMp4(video)`. */
  function ExportMp4(env: Env, video: string): (s: Step<string>)
    ensures s == Produce(env, Export, ExportCommand(video, Scratch(GeneratedPath, env, Export)), Scratch(GeneratedPath, env, Export))
  {
    var output := Scratch(GeneratedPath, env, Export);
    Produce(env, Export, ExportCommand(video, output), output)
  }

  /** The values `generateVideo` produces on its way, one per sub-step;
      empty until the sub-step has run. */
  datatype Work = Work(background: string, withSpeech: string, duration: string,
                       cropped: string, captioned: string, exported: string)

  const Blank: Work := Work("", "", "", "", "", "")

  /** The sub-steps of `generateVideo`. */
  datatype SubStep = Select | Mux | Probe | Crop | Caption | ExportFile

  const VideoSteps: seq<SubStep> := [Select, Mux, Probe, Crop, Caption, ExportFile]

  function SiteOf(k: SubStep): Site {
    match k
    case Select => SelectBackground
    case Mux => AddSpeech
    case Probe => ProbeDuration
    case Crop => CropVideo
    case Caption => Subtitles
    case ExportFile => Export
  }

  /** The value sub-step `k` produces. */
  function Field(k: SubStep, w: Work): string {
    match k
    case Select => w.background
    case Mux => w.withSpeech
    case Probe => w.duration
    case Crop => w.cropped
    case Caption => w.captioned
    case ExportFile => w.exported
  }

  /** `w` with the value of sub-step `k` set to `x`. */
  function With(k: SubStep, w: Work, x: string): (r: Work)
    ensures Field(k, r) == x
  {
    match k
    case Select => w.(background := x)
    case Mux => w.(withSpeech := x)
    case Probe => w.(duration := x)
    case Crop => w.(cropped := x)
    case Caption => w.(captioned := x)
    case ExportFile => w.(exported := x)
  }

  /** Records the outcome of sub-step `k` in `w`. */
  function Record(k: SubStep, w: Work, r: Step<string>): (s: Step<Work>)
    ensures s.trace == r.trace && (s.out.Ok? <==> r.out.Ok?)
    ensures s.out.Ok? ==> s.out.value == With(k, w, r.out.value)
    ensures s.out.Err? ==> s.out.error == r.out.error
  {
    Step(if r.out.Ok? then Ok(With(k, w, r.out.value)) else Err(r.out.error), r.trace)
  }

  /** One sub-step of `generateVideo`: it performs one effect, reads the
      values of the sub-steps before it and writes only its own. */
  function Substep(k: SubStep, c: GenerationContext, w: Work, env: Env): (s: Step<Work>)
    ensures |s.trace| == 1 && s.trace[0].site == SiteOf(k)
    ensures s.out.Ok? ==> s.out.value == With(k, w, Field(k, s.out.value))
    ensures k == Mux ==> s.trace[0].op == Exec(MuxCommand(w.background, c.speechFile, Scratch(c.tempDir, env, AddSpeech)))
    ensures k == Probe ==> s.trace[0].op == Exec(ProbeCommand(c.speechFile))
    ensures k == Crop ==> s.trace[0].op == Exec(CropCommand(w.withSpeech, w.duration, Scratch(c.tempDir, env, CropVideo)))
    ensures k == Caption ==> s.trace[0].op == Exec(SubtitleCommand(w.cropped, Scratch(c.tempDir, env, Subtitles)))
    ensures k == ExportFile ==> s.trace[0].op == Exec(ExportCommand(w.captioned, Scratch(GeneratedPath, env, Export)))
  {
    match k
    case Select => Record(k, w, SelectBackgroundVideo(env))
    case Mux => Record(k, w, AddSpeechToVideo(env, w.background, c.speechFile, c.tempDir))
    case Probe => Record(k, w, SpeechTimeDuration(env, ProbeDuration, c.speechFile))
    case Crop => Record(k, w, CropVideoDuration(env, w.withSpeech, w.duration, c.tempDir))
    case Caption => Record(k, w, AddVideoSubtitles(env, w.cropped, c.tempDir))
    case ExportFile => Record(k, w, ExportMp4(env, w.captioned))
  }

  /** `generateVideo(context)`: the six sub-steps in order, the first error
      ending the stage unchanged; the result is the exported file. */
  function GenerateVideo(c: GenerationContext, env: Env): (s: Step<string>)
    ensures 0 < |s.trace| <= |VideoSteps|
    ensures forall i :: 0 <= i < |s.trace| ==> s.trace[i].site == SiteOf(VideoSteps[i])
    ensures |s.trace| < |VideoSteps| ==> s.out.Err?
    ensures s.out.Ok? ==> s.out.value == Scratch(GeneratedPath, env, Export)
  {
    var step := (k, w) => Substep(k, c, w, env);
    var r := Run(VideoSteps, Blank, step);
    RunSites(VideoSteps, Blank, step, SiteOf);
    if r.out.Ok? then
      RunLast(VideoSteps, Blank, step);
      Step(Ok(r.out.value.exported), r.trace)
    else
      Step(Err(r.out.error), r.trace)
  }

  /** Where the effect `e` of sub-step `k` writes: the muxed, cropped and
      captioned clips go into the run's directory, the export into the
      generated folder. */
  predicate Placed(k: SubStep, e: Event, tempDir: string) {
    && (k in {Mux, Crop, Caption} ==> e.op.Exec? && |e.op.cmd.args| > 0 && InDir(Output(e.op.cmd), CleanDir(tempDir)))
    && (k == ExportFile ==> e.op.Exec? && |e.op.cmd.args| > 0 && InDir(Output(e.op.cmd), "generated"))
  }

  lemma SubstepPlacement(k: SubStep, c: GenerationContext, w: Work, env: Env)
    ensures Placed(k, Substep(k, c, w, env).trace[0], c.tempDir)
  {
    match k
    case Mux => JoinInDir(c.tempDir, env.token(AddSpeech) + ".mp4");
    case Crop => JoinInDir(c.tempDir, env.token(CropVideo) + ".mp4");
    case Caption => JoinInDir(c.tempDir, env.token(Subtitles) + ".mp4");
    case ExportFile => JoinInDir(GeneratedPath, env.token(Export) + ".mp4");
    case _ =>
  }

  /** Every file the stage writes on its way lies in the run's directory,
      which the caller removes; only the exported file lies outside it, in
      the generated folder. */
  lemma VideoPlacement(c: GenerationContext, env: Env)
    ensures var t := GenerateVideo(c, env).trace;
      forall i :: 0 <= i < |t| ==> Placed(VideoSteps[i], t[i], c.tempDir)
  {
    var step := (k, w) => Substep(k, c, w, env);
    forall k, v
      ensures Placed(k, step(k, v).trace[0], c.tempDir)
    {
      SubstepPlacement(k, c, v, env);
    }
    RunEvents(VideoSteps, Blank, step, (k, e) => Placed(k, e, c.tempDir));
  }

  /** The work of `VideoGenerationProcess.Execute` on a context: the
      generated video field is set and nothing else changes. */
  function Apply(c: GenerationContext, env: Env): (s: Step<GenerationContext>)
    ensures s.trace == GenerateVideo(c, env).trace
    ensures s.out.Ok? <==> GenerateVideo(c, env).out.Ok?
    ensures s.out.Ok? ==> s.out.value == c.(generatedVideo := GenerateVideo(c, env).out.value)
    ensures s.out.Err? ==> s.out.error == GenerateVideo(c, env).out.error
  {
    var v := GenerateVideo(c, env);
    Step(if v.out.Ok? then Ok(c.(generatedVideo := v.out.value)) else Err(v.out.error), v.trace)
  }
}

=== FILE: wrappers.dfy ===
/** Failure-compatible outcome of a Go call that returns `(value, error)`.
    The error is modelled by its message, which is all the pipeline ever
    inspects or forwards. */
module Wrappers {

  datatype Result<+T> = Ok(value: T) | Err(error: string) {

    predicate IsFailure() {
      Err?
    }

    function PropagateFailure<U>(): Result<U>
      requires Err?
    {
      Err(error)
    }

    function Extract(): T
      requires Ok?
    {
      value
    }
  }

  /** The message of `fmt.Errorf("<prefix>: %w", err)`. */
  function Wrap(prefix: string, e: string): string {
    prefix + ": " + e
  }

  /** `e` is the message of an error wrapped with `prefix`. */
  predicate IsWrapped(prefix: string, e: string) {
    |e| >= |prefix| + 2 && e[..|prefix| + 2] == prefix + ": "
  }

  lemma WrapIsWrapped(prefix: string, e: string)
    ensures IsWrapped(prefix, Wrap(prefix, e))
  {
    assert Wrap(prefix, e)[..|prefix| + 2] == prefix + ": ";
  }
}
